=== FILE: README.md ===
# RaptorDB bitmap indexes, modelled in Dafny

RaptorDB-Document answers queries on a column with bitmap indexes. A
bitmap holds one bit per record number. Bitmaps are stored in WAH
(word-aligned hybrid) form, a run-length code over 31-bit groups:

- a literal word has bit 31 clear and carries 31 bits of the bitmap;
- a fill word has bit 31 set, bit 30 as the fill value, and the low 30
  bits as the number of 31-bit groups the fill stands for.

This project models that core:

- `WahBitArray` (`WAHBitarray2.cs`), with its four representations:
  - one record;
  - a sparse set of record numbers;
  - a plain bitmap;
  - a WAH code.
- Its codec:
  - `Take31Bits`, `Compress`, `Uncompress`, `WriteOnes`;
  - the `WahHelper` functions over WAH words: not, and, compress, bit
    indexes, bit count and from-indexes;
  - the `WahWriter` that builds WAH codes.
- `BitHelper`, the word-array operations.
- Helpers from `SafeDictionary.cs`:
  - the locked dictionary;
  - `Log2`;
  - the little-/big-endian integer conversions;
  - the byte-array comparison.
- The index bookkeeping around the bitmaps:
  - the boolean index (`BoolIndex` in `Indexes.cs`);
  - the sorted page root (`IndexRootFileManager.cs`);
  - the memory-mapped page files (`MmfTableIndexFileManager.cs`).

Words are `bv32`, WAH codes are `seq<bv32>`, and record numbers are `nat`.
Every operation is a pure function or a method over immutable values.
Exceptions become `Err` values of `Results.Result`.

The operations of `WahBitArray` call their helpers as the code writes
them:

- `Get`, `Set` and `GetBitArray` decode a WAH array with the as-written
  `Uncompress`, and `Get` returns the array in the state it leaves it;
- `CountOnes` sums the as-written `WahHelper.BitCount` in a wrapping `int`;
- `GetBitIndexes` runs `WahHelper.BitIndexes`;
- `GetCompressed` runs `WahHelper.FromIndexes`;
- `And` runs `WahHelper.WahAnd`.

`WahBitArray.Holds` is the content of an array: the records it holds as
the WAH format defines the decoding of a code. Contracts about which
records an array holds are stated with it. The contract of `Get` relates
what `Get` reads to it.

Where a helper departs from what its comments and callers expect, there is
also a corrected member. Corrected members are used only by the lemmas
that state the intended property. Each such pair is a row under
"Findings":

- an "as written" member, with a lemma that exhibits the input on which it
  goes wrong;
- a corrected member, with the intended property proved.

Modules, one per source concern:

| module | models |
|---|---|
| `Results` | exceptions as values |
| `Bits` | bit positions in a 32-bit word, the 31-bit window between two words, binary value of a word |
| `Wah` | the WAH word layout, expansion of a code into 31-bit groups, canonical codes |
| `Codec` | `Take31Bits`, `Compress`, `FlushOnes`, `FlushZeros` of `WAHBitarray2.cs`, and `Uncompress` as intended |
| `UncompressWritten` | `Uncompress`, `WriteOnes`, `Write31Bits`, `EnsureLength` of `WAHBitarray2.cs` as written |
| `WahWriter` | the `WahWriter` struct |
| `WahHelper` | `WahNot`, `InPlaceNot`, `BitCount`, `Compress`, `Take31Bits`, `BitIndexes`, `FromIndexes` of `WahHelper.cs` |
| `WahHelperAnd` | `IterState` and `WahAnd` of `WahHelper.cs` |
| `BitHelper` | `BitHelper.cs` |
| `WahBitArray` | the `WahBitArray` class |
| `Helper` | `Helper` of `SafeDictionary.cs` |
| `SafeDictionary` | `SafeDictionary<TKey, TValue>` |
| `IndexRoot` | `IndexRootFileManager.cs` |
| `MmfTable` | `MmfTableIndexFileManager.cs` |
| `BoolIndex` | `BoolIndex` of `Indexes.cs` |

## Model

| member | source | states |
|---|---|---|
| Wah.MaskLayout | RaptorDB.Common/WahHelper.cs:13-15 | the three masks are bit 31, bit 30 and the low 30 bits; they are disjoint and cover the word |
| Wah.MakeFill | RaptorDB.Common/WahHelper.cs:13-15 | a fill built from a value and a 30-bit count reads back as a fill word with that value and that count |
| Wah.ExpandAppend | RaptorDB.Common/WAHBitarray2.cs:635-661 | the groups a WAH code stands for are the groups of its prefix followed by those of its suffix |
| Wah.CoalescedAppend | RaptorDB.Common/WahWriter.cs:39-64 | appending a literal, or a non-empty fill whose value differs from a trailing fill, keeps a code free of mergeable neighbours |
| Bits.SetBitGet | RaptorDB.Common/BitHelper.cs:31-40 | setting bit k of a word to b changes bit k to b and no other bit |
| Bits.ValInc | RaptorDB.Common/WahWriter.cs:66-77 | adding one to a word that is not all ones adds one to its binary value |
| Bits.WindowBit | RaptorDB.Common/WAHBitarray2.cs:581-599 | bit j of the 31-bit window at offset off is bit off+j of the first word, or of the next word once off+j passes 31 |
| Codec.Take31Bits | RaptorDB.Common/WAHBitarray2.cs:581-599 | reading 31 bits at an index succeeds exactly when the index's word exists, and always yields a literal group |
| Codec.Take31BitsBit | RaptorDB.Common/WAHBitarray2.cs:581-599 | bit j of the group read at index is bitmap bit index+j; bits past the end read as zero |
| Codec.GroupsOf | RaptorDB.Common/WAHBitarray2.cs:601-611 | a bitmap of n words splits into the least number of 31-bit groups covering 32n bits, group g being the window at bit 31g |
| Codec.FlushOnesSpec | RaptorDB.Common/WAHBitarray2.cs:663-671 | flushing a run of ones appends one ones fill of that length and keeps the code canonical; an empty run appends nothing |
| Codec.FlushZerosSpec | RaptorDB.Common/WAHBitarray2.cs:673-681 | flushing a run of zeros appends one zero fill of that length and keeps the code canonical; an empty run appends nothing |
| Codec.CompressGroups | RaptorDB.Common/WAHBitarray2.cs:612-633 | compressing literal groups gives a canonical code that expands back to exactly those groups |
| Codec.CompressSpec | RaptorDB.Common/WAHBitarray2.cs:601-633 | `Compress` of a bitmap is canonical and expands to the bitmap's 31-bit groups |
| Codec.Uncompress | RaptorDB.Common/WAHBitarray2.cs:635-661 | decoding maps null to null and yields 31/32 of the expanded bit count in words |
| Codec.PackGroups | RaptorDB.Common/WAHBitarray2.cs:635-661 | repacking the 31-bit groups of a bitmap into 32-bit words gives the bitmap back |
| Codec.UncompressCompress | RaptorDB.Common/WAHBitarray2.cs:601-661 | decoding the compressed form of any bitmap gives the bitmap back |
| UncompressWritten.NewZeros | RaptorDB.Common/WAHBitarray2.cs:708 | allocating an array succeeds exactly for a non-negative length, giving that many zero words |
| UncompressWritten.EnsureLength | RaptorDB.Common/WAHBitarray2.cs:683-686 | growing a list keeps its words as a prefix and leaves room for the index counted in 31-bit units |
| UncompressWritten.Write31Bits | RaptorDB.Common/WAHBitarray2.cs:689-704 | writing a group never fails and leaves the list long enough to hold the word after the group's end |
| UncompressWritten.WriteOnes | RaptorDB.Common/WAHBitarray2.cs:706-754 | writing a run of ones throws an overflow exactly when the index lies more than one word past the list |
| UncompressWritten.WriteOnesAligned | RaptorDB.Common/WAHBitarray2.cs:719-724 | one group of ones written at bit 0 of an empty list sets all 32 bits of the first word |
| UncompressWritten.AlignedOnesFill | RaptorDB.Common/WAHBitarray2.cs:706-754 | for the bitmap `[0xFFFFFFFE]` the code decodes to `[0xFFFFFFFF]`, while the corrected decoder gives the bitmap back |
| UncompressWritten.NegativePadding | RaptorDB.Common/WAHBitarray2.cs:706-710 | for the bitmap `[0, 3, 0xFFFFFFF8]` decoding its code throws an overflow, while the corrected decoder gives the bitmap back |
| UncompressWritten.ZeroFillUncompress | RaptorDB.Common/WAHBitarray2.cs:635-661 | the code of one zero group, 31 bits, decodes to no words |
| WahWriter.New | RaptorDB.Common/WahWriter.cs:17-24 | a fresh writer holds no words and no current fill |
| WahWriter.Add | RaptorDB.Common/WahWriter.cs:25-38 | adding a word appends exactly that word, starting a new chunk when the current one is full |
| WahWriter.WriteLit | RaptorDB.Common/WahWriter.cs:39-64 | a zero or ones group extends a fill of the same value or starts a fill of length one; any other group is appended as a literal |
| WahWriter.WriteSum | RaptorDB.Common/WahWriter.cs:66-77 | a fill of the current value extends the last fill by its length; otherwise a new fill word is appended and becomes current |
| WahWriter.CopyChunksSpec | RaptorDB.Common/WahWriter.cs:78-94 | copying the full chunks into the output lays them end to end and leaves the rest untouched |
| WahWriter.ToArray | RaptorDB.Common/WahWriter.cs:78-94 | the array is every word added, in order: the full chunks and then the current chunk |
| WahWriter.FreshToArray | RaptorDB.Common/WahWriter.cs:78-94 | a writer that was never written to yields an empty array |
| WahWriter.WriteFromCompress | RaptorDB.Common/WahWriter.cs:39-77 | feeding groups through the writer produces exactly the code `Compress` builds from them |
| WahWriter.WriteGroupsEncode | RaptorDB.Common/WahWriter.cs:39-94 | a fresh writer fed literal groups holds a canonical code that expands back to them |
| WahHelper.WahNot | RaptorDB.Common/WahHelper.cs:90-100 | each word is complemented separately and keeps its kind: literal bits flip, a fill's value flips and its count stays |
| WahHelper.WahNotTwice | RaptorDB.Common/WahHelper.cs:90-100 | complementing twice gives the code back |
| WahHelper.WahNotExpand | RaptorDB.Common/WahHelper.cs:90-100 | the complemented code expands to the complement of every group |
| WahHelper.InPlaceNot | RaptorDB.Common/WahHelper.cs:102-110 | the in-place loop computes the same code as `WahNot` |
| WahHelper.UnitOnes | RaptorDB.Common/WahHelper.cs:227-232 | the number of one bits a word stands for: popcount of a literal, 31 per group of a ones fill, 0 for a zero fill |
| WahHelper.BitCountAgainstOnes | RaptorDB.Common/WahHelper.cs:227-232 | `BitCount` counts one bit too many per group of a ones fill and is exact on every other word |
| WahHelper.BitCountOnesFill | RaptorDB.Common/WahHelper.cs:231 | a ones fill of one group counts 32 where it stands for 31 one bits |
| WahHelper.TakeGroup | RaptorDB.Common/WahHelper.cs:185-202 | reading a group succeeds only inside the array and reports whether it was the last one |
| WahHelper.TakeGroupSpec | RaptorDB.Common/WahHelper.cs:185-202 | the group read at position i is the i-th 31-bit group, and the last-group flag is set exactly at the last group |
| WahHelper.CompressLoopSpec | RaptorDB.Common/WahHelper.cs:136-148 | the compress loop writes the array's groups through the writer from the given group on |
| WahHelper.CompressSpec | RaptorDB.Common/WahHelper.cs:136-148 | compressing an empty array throws; any other array gives a canonical code of the groups `Take31Bits` reads |
| WahHelper.CompressLosesGroup | RaptorDB.Common/WahHelper.cs:195-200 | when the last word starts a group and holds a set bit in its top 31, the code loses that group |
| WahHelper.CompressOneWord | RaptorDB.Common/WahHelper.cs:136-148 | `[0xFFFFFFFF]` compresses to a code that does not expand to its groups, while `Codec.Compress` does |
| WahHelper.BitIndexes | RaptorDB.Common/WahHelper.cs:150-179 | the iterator yields the indexes the code's words produce one after another |
| WahHelper.PositionsSpec | RaptorDB.Common/WahHelper.cs:150-179 | the intended positions are increasing and are exactly the set bits of the expanded code |
| WahHelper.OnesFillIndexes | RaptorDB.Common/WahHelper.cs:158-166 | a ones fill yields the run starting after it rather than at its own start |
| WahHelper.OnesGroupIndexes | RaptorDB.Common/WahHelper.cs:158-166 | the code `[0xC0000001]` yields 31..61 where its set bits are 0..30 |
| WahHelper.TopBitIndexes | RaptorDB.Common/WahHelper.cs:168-175 | a literal is read from its low bit, so `0x40000000` yields 30 though its group sets bit 0 |
| WahHelper.IndexesOfMirrors | RaptorDB.Common/WahHelper.cs:149-179 | for a code without ones fills, `BitIndexes` yields every set bit once, increasing, mirrored inside its 31-bit group |
| WahHelper.FromIndexesEmpty | RaptorDB.Common/WahHelper.cs:204-225 | no indexes give an empty code |
| WahHelper.FromIndexesFirstWord | RaptorDB.Common/WahHelper.cs:204-225 | indexes all below 32 give an empty code, because the last word is never flushed |
| WahHelper.FromIndexesTwoWords | RaptorDB.Common/WahHelper.cs:204-225 | indexes 0 and 32 give `[0x80000000, 0x8000001F]`, which stands for no set bit at all |
| WahHelperAnd.TakeWord | RaptorDB.Common/WahHelper.cs:23-40 | taking a word inside a fill counts the fill down by one, and a count at `int.MinValue` wraps to `int.MaxValue`; it fails only with no fill left and the array exhausted |
| WahHelperAnd.Skip | RaptorDB.Common/WahHelper.cs:41-58 | skipping keeps the array and never leaves a negative fill count |
| WahHelperAnd.CopyBack | RaptorDB.Common/WahHelper.cs:59-80 | copying into a writer passed by value reaches the caller only while no new chunk is started |
| WahHelperAnd.CopyTo | RaptorDB.Common/WahHelper.cs:59-80 | copying keeps the source array and returns a writer with the same chunk length |
| WahHelperAnd.AndGroups | RaptorDB.Common/WahHelper.cs:112-134 | the groupwise AND has the shorter length and has each bit set exactly when both groups have it |
| WahHelperAnd.AndIntended | RaptorDB.Common/WahHelper.cs:112-134 | the intended AND is canonical and expands to the groupwise AND of the operands' expansions |
| WahHelperAnd.WahAndLiterals | RaptorDB.Common/WahHelper.cs:112-134 | on literal-only operands of equal length, `WahAnd` as written terminates with a canonical code of the groupwise AND |
| WahHelperAnd.FillValueSwapped | RaptorDB.Common/WahHelper.cs:31 | a zero fill of one group AND `[0x1234]` gives `[0x1234]`, because the count's low bit is read as the fill value |
| WahHelperAnd.StuckCursors | RaptorDB.Common/WahHelper.cs:23-40 | once both cursors hold a negative count the loop never reads a word again until the counts wrap, so it runs out of any fuel that ends before the wrap |
| WahHelperAnd.ZeroCountRunsOn | RaptorDB.Common/WahHelper.cs:30 | a fill of count 0 leaves the count at -1, so `[0x80000000, 1]` AND itself runs more than 2^31 rounds |
| WahHelperAnd.WahAndSkipsPast | RaptorDB.Common/WahHelper.cs:41-58 | AND of a zero fill of two groups with the one-literal code `[0x1]` throws an index error: `Skip` reads past the end of the shorter code |
| BitHelper.Repeat | RaptorDB.Common/BitHelper.cs:18-23 | filling an array succeeds for a non-negative length and holds the value at every position |
| BitHelper.BitCount | RaptorDB.Common/BitHelper.cs:24-30 | the bit count of a word is its number of one bits, at most 32 |
| BitHelper.SwarCorrect | RaptorDB.Common/BitHelper.cs:24-30 | the parallel byte-sum formula equals the number of one bits |
| BitHelper.BitmapSet | RaptorDB.Common/BitHelper.cs:31-40 | setting a bit succeeds exactly when its word exists and keeps the array length |
| BitHelper.BitmapSetGet | RaptorDB.Common/BitHelper.cs:31-61 | after setting bit i to v, bit i reads v and every other bit reads as before |
| BitHelper.BitmapGetPastEnd | RaptorDB.Common/BitHelper.cs:52-61 | a bit past the end of the array reads as clear |
| BitHelper.ArrayOp | RaptorDB.Common/BitHelper.cs:63-97 | the in-place operation keeps the left array's length and leaves its words past the right array's end alone |
| BitHelper.ArrayOpGet | RaptorDB.Common/BitHelper.cs:63-97 | each bit of the result is the operation on the two inputs' bits where the right array reaches, else the left bit |
| BitHelper.GetBitIndexesSpec | RaptorDB.Common/BitHelper.cs:99-114 | the indexes come out increasing and are exactly the bit positions set when each word is read from its low bit |
| BitHelper.GetBitIndexesMirror | RaptorDB.Common/BitHelper.cs:99-114 | index v is reported exactly when the bit mirrored within its word is set in the bitmap's own order |
| WahBitArray.Single | RaptorDB.Common/WAHBitarray2.cs:23-27 | a one-record bitmap reads true at that record only and counts one, or none for a negative record |
| WahBitArray.FromArray | RaptorDB.Common/WAHBitarray2.cs:29-48 | the array constructor always yields an unset-default plain bitmap of the words given, whatever type is passed |
| WahBitArray.FromTag | RaptorDB.Common/WAHBitarray2.cs:29-48 | a stored type with bit 2 clear is read as a plain bitmap; any other tag is refused |
| WahBitArray.FromIndexes | RaptorDB.Common/WAHBitarray2.cs:53-60 | the array built from record numbers stays in one-record state with record -1, so it reads the default at every record whatever records it was given |
| WahBitArray.FromIndexesDocumented | RaptorDB.Common/WAHBitarray2.cs:50-53 | the sparse array the summary describes reads true exactly at the given records, inverted for a set default, with the maximum covering them |
| WahBitArray.FromIndexesForgets | RaptorDB.Common/WAHBitarray2.cs:53-60 | the array `FromIndexes` builds reads the default at its first given record where the documented array does not, throws on `Set`, and lists no indexes |
| WahBitArray.DecompressWah | RaptorDB.Common/WAHBitarray2.cs:560-574 | a WAH array becomes a plain bitmap of exactly the words the as-written `Uncompress` returns, or throws what it throws; default, dirty flag and maximum are kept; every other state is left alone |
| WahBitArray.Get | RaptorDB.Common/WAHBitarray2.cs:116-125 | a sparse or one-record array is read without change; any other array is first decompressed and left in plain state, and the bit read is that bitmap bit XOR the default; a decoder exception escapes |
| WahBitArray.DecompressIntended | RaptorDB.Common/WAHBitarray2.cs:560-574 | decompressing with the format's decoding leaves no WAH state and changes no record |
| WahBitArray.CompressDecompress | RaptorDB.Common/WAHBitarray2.cs:357-368 | compressing a plain bitmap and decompressing it with the format's decoding gives the same array, record for record |
| WahBitArray.CompressDecompressWritten | RaptorDB.Common/WAHBitarray2.cs:116-125 | as written, the bitmap `[0xFFFFFFFE]` compressed and then read by `Get` comes back as `[0xFFFFFFFF]`, and record 31 reads set though it was clear |
| WahBitArray.GetOffsets | RaptorDB.Common/WAHBitarray2.cs:443-450 | the sparse set's members come out strictly ascending, each exactly once |
| WahBitArray.UnpackOffsets | RaptorDB.Common/WAHBitarray2.cs:495-508 | unpacking into a bitmap of a given bit length sets exactly the members below that length |
| WahBitArray.ChangeTypeIfNeeded | RaptorDB.Common/WAHBitarray2.cs:510-532 | a sparse set grown past the switch-over count becomes a bitmap sized by the highest record; the switch fails exactly when a member lies beyond it |
| WahBitArray.PromotionKeepsMembers | RaptorDB.Common/WAHBitarray2.cs:514-532 | the promoted bitmap sets exactly the members of the sparse set and reads the same at every record |
| WahBitArray.PromotionFits | RaptorDB.Common/WAHBitarray2.cs:514-532 | while no member exceeds the recorded maximum the switch cannot fail |
| WahBitArray.SetOffset | RaptorDB.Common/WAHBitarray2.cs:133-148 | a sparse set adds the record when the value differs from the default, removes it otherwise, and tracks the maximum and the dirty flag |
| WahBitArray.SetOffsetGet | RaptorDB.Common/WAHBitarray2.cs:133-148 | after setting a record in a sparse set it reads the new value and every other record reads as before |
| WahBitArray.ResizeBitmap | RaptorDB.Common/WAHBitarray2.cs:537-555 | growing keeps the old words as a prefix; growing an empty bitmap never ends, and any growth stops one word short of the index |
| WahBitArray.SetBitmap | RaptorDB.Common/WAHBitarray2.cs:164-172 | a plain bitmap stores a bit inside it and ignores a default value past it; a non-default value past the end fails |
| WahBitArray.Set | RaptorDB.Common/WAHBitarray2.cs:131-173 | `Set` on a one-record array throws; a sparse set below the switch-over count stays sparse; a WAH array is decompressed as written first, and a decoder exception escapes; the default never changes |
| WahBitArray.SetGetIndexes | RaptorDB.Common/WAHBitarray2.cs:131-148 | on a sparse set `Set` succeeds and changes exactly the record set, also across a switch to a plain bitmap |
| WahBitArray.SetGetBitmap | RaptorDB.Common/WAHBitarray2.cs:164-172 | on a plain bitmap, setting a record inside it changes that record only |
| WahBitArray.Copy | RaptorDB.Common/WAHBitarray2.cs:74-101 | a copy keeps the default and a one-record or plain state, reads a WAH code's words as a plain bitmap, and drops a sparse set's members |
| WahBitArray.Not | RaptorDB.Common/WAHBitarray2.cs:296-320 | the complement flips the default and is clean |
| WahBitArray.NotFlips | RaptorDB.Common/WAHBitarray2.cs:296-320 | for a one-record or plain bitmap the complement flips every record, and complementing twice restores every record |
| WahBitArray.NotIndexesLoses | RaptorDB.Common/WAHBitarray2.cs:74-101 | the complement of a sparse set reads the flipped default everywhere, its members lost |
| WahBitArray.NotWahExample | RaptorDB.Common/WAHBitarray2.cs:296-320 | the WAH code `[0x80000001]` reads record 0 clear, `Get` decodes it to no words, and its complement still reads record 0 as clear |
| WahBitArray.CountOnes | RaptorDB.Common/WAHBitarray2.cs:327-352 | the count is one or none for one record, the number of members of a sparse set, the number of set bits of a plain bitmap, and for a WAH code an `int` that, while nothing wraps, is its set bits plus one per group of ones |
| WahBitArray.BitCountSumOnes | RaptorDB.Common/WAHBitarray2.cs:337-343 | while no product or sum wraps, the `BitCount` sum over a code is its set bits plus the number of groups in its ones fills |
| WahBitArray.CountOnesFill | RaptorDB.Common/WAHBitarray2.cs:337-343 | the code `[0xC0000001]` stands for 31 set bits and is counted as 32 |
| WahBitArray.CountOnesIntended | RaptorDB.Common/WAHBitarray2.cs:327-352 | counting each unit as the bits it stands for gives the set bits of a WAH code, and the as-written count elsewhere |
| WahBitArray.WordsOnesSpec | RaptorDB.Common/WAHBitarray2.cs:327-352 | summing the words' bit counts gives the number of indexes `GetBitIndexes` reports |
| WahBitArray.GetBitIndexes | RaptorDB.Common/WAHBitarray2.cs:419-438 | the indexes are the increasing members of a sparse set or the mirrored set bits of a plain bitmap; for a WAH code without ones fills they are its set bits, increasing, each mirrored inside its 31-bit group; a one-record array with a negative record throws |
| WahBitArray.GetBitArray | RaptorDB.Common/WAHBitarray2.cs:480-490 | the bitmap of a sparse set holds exactly the members below the recorded maximum; a plain bitmap is returned as it is; a WAH code gives what `DecompressWah` would store or its exception; a one-record array throws |
| WahBitArray.GetBitArrayDropsMax | RaptorDB.Common/WAHBitarray2.cs:480-490 | a sparse set whose maximum is a member holds it, the bitmap returned does not, and the intended bitmap does |
| WahBitArray.GetBitArrayIntended | RaptorDB.Common/WAHBitarray2.cs:480-490 | sized to hold the maximum, the bitmap of a sparse set holds exactly its members |
| WahBitArray.FromIndexesIntended | RaptorDB.Common/WahHelper.cs:204-225 | the intended code of a set of records, decoded, sets exactly those records |
| WahBitArray.GetCompressed | RaptorDB.Common/WAHBitarray2.cs:391-414 | a sparse set is stored as its sorted member list, holding exactly the members, when that is smaller than its bitmap, otherwise as `WahHelper.FromIndexes` of the list; a WAH code is stored as it is; a plain bitmap as a code that decodes back to it |
| WahBitArray.GetCompressedLoses | RaptorDB.Common/WAHBitarray2.cs:397-401 | a dense sparse set whose members all lie below 32 is stored as the empty code, which holds none of them |
| WahBitArray.GetCompressedIntended | RaptorDB.Common/WAHBitarray2.cs:391-414 | with the dense case built as intended, the stored type is the same and other states are stored as written |
| WahBitArray.GetCompressedStores | RaptorDB.Common/WAHBitarray2.cs:391-414 | in the intended stored form every record's stored bit is its value relative to the default |
| WahBitArray.SparseStores | RaptorDB.Common/WAHBitarray2.cs:391-414 | the sorted member list of a sparse set stores exactly its members |
| WahBitArray.GenericBitOp | RaptorDB.Common/WAHBitarray2.cs:203-273 | every binary operation throws: `And` of two WAH arrays throws what `WahAnd` throws, and otherwise the not-implemented exception |
| WahBitArray.AndThrows | RaptorDB.Common/WAHBitarray2.cs:217-223 | `And` of `[0x80000002]` and `[0x1]` throws the index error from `WahAnd`, where `Or` throws not-implemented |
| Helper.ReverseReverse | RaptorDB.Common/SafeDictionary.cs:222-281 | reversing a byte order twice gives the bytes back |
| Helper.StagedCounts | RaptorDB.Common/SafeDictionary.cs:192-220 | the staged shifts of `Log2` count the bit length of any non-negative 32-bit value |
| Helper.Log2 | RaptorDB.Common/SafeDictionary.cs:192-220 | the result is 0 for a non-positive value, otherwise the bit length r with 2^(r-1) <= n < 2^r |
| Helper.ToInt | RaptorDB.Common/SafeDictionary.cs:222-281 | reading an integer of 2, 4 or 8 bytes succeeds exactly when the bytes exist, is in the signed range, and fails with the exception each branch throws |
| Helper.SignedInjective | RaptorDB.Common/SafeDictionary.cs:222-281 | two byte strings of one width with the same two's-complement value are equal |
| Helper.ToIntGetBytes | RaptorDB.Common/SafeDictionary.cs:222-317 | reading back the bytes written for a value of the width gives the value, in either byte order |
| Helper.GetBytesToInt | RaptorDB.Common/SafeDictionary.cs:222-317 | writing back the value read from any bytes of the width gives the bytes, in either byte order |
| Helper.Cmp | RaptorDB.Common/SafeDictionary.cs:149-189 | the comparison reports equality exactly for equal byte strings |
| SafeDictionary.TryGetValue | RaptorDB.Common/SafeDictionary.cs:25-29 | a value is found exactly when the key is present, and it is the stored one |
| SafeDictionary.Get | RaptorDB.Common/SafeDictionary.cs:31-37 | the indexer returns what `TryGetValue` finds and throws key-not-found otherwise |
| SafeDictionary.Put | RaptorDB.Common/SafeDictionary.cs:38-42 | the setter makes the key read the value and leaves every other key alone |
| SafeDictionary.Add | RaptorDB.Common/SafeDictionary.cs:60-69 | `Add` acts as the setter, adds the key to the key set, and grows the count only for a new key |
| SafeDictionary.AddThenGet | RaptorDB.Common/SafeDictionary.cs:25-69 | after `Add` the key reads the new value whether it was new or not, and other keys are unaffected |
| SafeDictionary.Count | RaptorDB.Common/SafeDictionary.cs:45-48 | the count is the number of keys and is zero only for the empty dictionary |
| SafeDictionary.Remove | RaptorDB.Common/SafeDictionary.cs:81-87 | removal reports whether the key was there, makes it absent, keeps other keys and shrinks the count by what it removed |
| SafeDictionary.AddThenRemove | RaptorDB.Common/SafeDictionary.cs:60-87 | removing a key just added restores the dictionary |
| SafeDictionary.Keys | RaptorDB.Common/SafeDictionary.cs:71-79 | the key array lists every key exactly once |
| IndexRoot.GetPageIndex | RaptorDB/Indexes/IndexRootFileManager.cs:103-133 | the search returns 0 for at most one page, and otherwise the last page whose first key is at most the key, or 0 when none is |
| IndexRoot.FloorUnique | RaptorDB/Indexes/IndexRootFileManager.cs:103-133 | only one position satisfies the search's contract |
| IndexRoot.FloorOfPresentKey | RaptorDB/Indexes/IndexRootFileManager.cs:122-125 | a key that is some page's first key finds that page |
| IndexRoot.FloorOfAbsentKey | RaptorDB/Indexes/IndexRootFileManager.cs:109-133 | an absent key finds the last page with a smaller first key, or page 0 when all are larger |
| IndexRoot.LowerPages | RaptorDB/Indexes/IndexRootFileManager.cs:135-141 | the page numbers from position index-1 down to 0; an index past the end throws, and so does `int.MinValue`, whose `index - 1` wraps to `int.MaxValue` |
| IndexRoot.UpperPages | RaptorDB/Indexes/IndexRootFileManager.cs:143-149 | the page numbers from position index+1 to the end; an index below -1 throws, and so does `int.MaxValue`, whose `index + 1` wraps to `int.MinValue` |
| IndexRoot.PagesAround | RaptorDB/Indexes/IndexRootFileManager.cs:135-149 | the lower pages reversed, the page itself and the upper pages are all the pages in order |
| IndexRoot.CreateTable | RaptorDB/Indexes/IndexRootFileManager.cs:151-156 | a new first key is registered under the next page number, keeping keys sorted and all other pairs; a present key throws |
| MmfTable.New | RaptorDB/Indexes/MmfTableIndexFileManager.cs:24-32 | a page holds the capacity's entries after a 4-byte header, the size computed as an `int` that is exact while it fits and equal modulo 2^32 otherwise, and no file is open yet |
| MmfTable.FilesAdjacent | RaptorDB/Indexes/MmfTableIndexFileManager.cs:102-107 | file 0 holds page 0, each file starts where the previous one ends, and each holds twice the pages of the previous one |
| MmfTable.FileOf | RaptorDB/Indexes/MmfTableIndexFileManager.cs:67-74 | page p lies in file k with 2^k - 1 <= p < 2^(k+1) - 1 |
| MmfTable.FileOfCovers | RaptorDB/Indexes/MmfTableIndexFileManager.cs:67-74 | a page is assigned to a file exactly when it lies in that file's page range |
| MmfTable.InitFile | RaptorDB/Indexes/MmfTableIndexFileManager.cs:102-107 | after the previous file of the doubling layout, the next file is laid out exactly when its `int` page count and byte size fit; it throws when the previous file does not exist or the size wraps negative |
| MmfTable.InitFiles | RaptorDB/Indexes/MmfTableIndexFileManager.cs:88-100 | files that already exist are left as they are |
| MmfTable.InitFilesNext | RaptorDB/Indexes/MmfTableIndexFileManager.cs:88-107 | opening the next file extends a doubling layout by one file exactly when that file's byte size fits an `int` |
| MmfTable.InitFilesSkipFails | RaptorDB/Indexes/MmfTableIndexFileManager.cs:95-98 | asking for a file more than one past the last throws |
| MmfTable.InitFilesIntended | RaptorDB/Indexes/MmfTableIndexFileManager.cs:88-107 | opening every missing file in turn, with sizes as `long`, yields a doubling layout that reaches the requested file |
| MmfTable.Locate | RaptorDB/Indexes/MmfTableIndexFileManager.cs:67-80 | a located page lies in the file `FileOf` names, which exists, at an offset that is an `int` |
| MmfTable.LocateWithin | RaptorDB/Indexes/MmfTableIndexFileManager.cs:76-80 | in a doubling layout, when the page's file fits an `int`, the page's `int` byte offset and size fit inside its file |
| MmfTable.LoadHashtable | RaptorDB/Indexes/MmfTableIndexFileManager.cs:67-74 | a loaded page is in the file `FileOf` names |
| MmfTable.LoadInOrder | RaptorDB/Indexes/MmfTableIndexFileManager.cs:67-107 | loading pages in order keeps a doubling layout and places each page inside its file while the file fits an `int`, and throws at the first file that does not |
| MmfTable.LoadSkipFails | RaptorDB/Indexes/MmfTableIndexFileManager.cs:67-74 | on a fresh manager page 1 cannot be loaded before page 0 |
| MmfTable.LoadHashtableIntended | RaptorDB/Indexes/MmfTableIndexFileManager.cs:67-107 | with files opened in turn and sizes and offsets as `long`, any non-negative page below the maximum loads into its file, within bounds, and the layout stays doubling |
| MmfTable.InitFilesTooLarge | RaptorDB/Indexes/MmfTableIndexFileManager.cs:102-107 | the first file whose size does not fit an `int` has a size between 2^31 and 2^32, which wraps negative, and creating it throws |
| MmfTable.LargePageThrows | RaptorDB/Indexes/MmfTableIndexFileManager.cs:67-107 | with 4100-byte pages and files 0 to 18 open, loading page 524287 throws, because file 19's 2,149,580,800 bytes wrap to a negative `int` |
| MmfTable.LocateWideWithin | RaptorDB/Indexes/MmfTableIndexFileManager.cs:76-80 | with a `long` offset, a page's bytes lie inside its file in a doubling layout |
| BoolIndex.Fresh | RaptorDB/Indexes/Indexes.cs:60 | a new index sets no record |
| BoolIndex.Layout | RaptorDB/Indexes/Indexes.cs:104-119 | the file is the type byte followed by four bytes per stored word |
| BoolIndex.ParseLayout | RaptorDB/Indexes/Indexes.cs:104-137 | parsing a written file gives back the type and the words |
| BoolIndex.ParseLegacy | RaptorDB/Indexes/Indexes.cs:121-137 | a file without a type byte is read as WAH words |
| BoolIndex.WriteFile | RaptorDB/Indexes/Indexes.cs:104-119 | writing fails only for a one-record bitmap and stores the compressed form with its type |
| BoolIndex.ReadFile | RaptorDB/Indexes/Indexes.cs:121-137 | reading succeeds exactly for a type with bit 2 clear and restores the stored words as a plain bitmap |
| BoolIndex.ReloadRereads | RaptorDB/Indexes/Indexes.cs:104-137 | a plain bitmap written and read back becomes its WAH code read as a plain bitmap |
| BoolIndex.ReloadExample | RaptorDB/Indexes/Indexes.cs:104-137 | the bitmap `[0xFFFFFFFE]` sets record 2 before saving and not after loading |
| BoolIndex.ReadFileIntended | RaptorDB/Indexes/Indexes.cs:121-137 | reading by the stored type accepts exactly the four state values 0–3 and refuses every other byte |
| BoolIndex.WriteFileIntended | RaptorDB/Indexes/Indexes.cs:104-119 | the intended writing stores the intended compressed form and writes the same bytes as `WriteFile` for plain and WAH arrays |
| BoolIndex.ReloadIntended | RaptorDB/Indexes/Indexes.cs:104-137 | a bitmap with a clear default, written and read back by its saved type with the corrected `Uncompress` and `FromIndexes`, holds the same records |
| BoolIndex.ReloadIntendedFlips | RaptorDB/Indexes/Indexes.cs:104-137 | even read back by its type, the plain bitmap `[0xFFFFFFFE]` reloads as a WAH code on which `Get` reads record 31 as set, though it was clear |
| BoolIndex.QueryEquals | RaptorDB/Indexes/Indexes.cs:139-144 | querying true returns the bitmap itself; querying false returns its complement |
| BoolIndex.QueryNotEquals | RaptorDB/Indexes/Indexes.cs:146-149 | not-equal to a key is equal to the other key |
| BoolIndex.QueriesComplement | RaptorDB/Indexes/Indexes.cs:139-149 | for one-record and plain bitmaps the two queries select complementary records |
| BoolIndex.SetBit | RaptorDB/Indexes/Indexes.cs:151-155 | setting a record keeps the default and throws on a one-record bitmap |
| BoolIndex.SetThenQuery | RaptorDB/Indexes/Indexes.cs:139-155 | after setting a record in a plain bitmap, querying true sees the new value there and old values elsewhere |
| BoolIndex.FreshIsStuck | RaptorDB/Indexes/Indexes.cs:60 | a new index can neither be set nor saved |
| BoolIndex.GetKeys | RaptorDB/Indexes/Indexes.cs:157-158 | the keys are both booleans |
| BoolIndex.GetBits | RaptorDB/Indexes/Indexes.cs:69-72 | the bits handed out read like the index's own for one-record and plain bitmaps |
| BoolIndex.InPlaceOr | RaptorDB/Indexes/Indexes.cs:98-102 | or-ing into the index ends in the not-implemented exception |

## Left out

- Integer widths:
  - C# `int` and `uint` wrap-around is modelled where the behaviour depends on it:
    - fill counts are 30-bit;
    - the `Log2` argument is an `Int32`;
    - `WahHelper.BitCount` and the `CountOnes` sum wrap through `WahHelper.Int32`;
    - the `IterState` count wraps on `Count--` and `Count -= len`;
    - the page size, the page counts, the file sizes `size * PageSize` and the page offsets of the memory-mapped table;
    - the `index - 1` and `index + 1` of the page lists of the index root.
  - Other `int` arithmetic is unbounded here. Where that matters, the member is listed below.
  - Counts that would overflow 2^30 groups are excluded by preconditions (`GroupCount(|data|) < 0x4000_0000`).
- Negative record numbers: records are `nat`. The one-record state keeps an `int`, so `new WahBitArray(-1)` is modelled.
- Partial state after an exception is not modelled. An operation that throws returns `Err` and no new state.
- Locks, threads, files, memory-mapped views and pointers are not modelled:
  - the dictionary lock;
  - the `RWLock` of the indexes;
  - `File.WriteAllBytes` and `ReadAllBytes`, modelled as byte sequences in and out;
  - `MemoryMappedFile` and `GetPage`'s view cache;
  - `MarkDirty`.
- `SafeSortedList` is left out. `IndexRoot` models the sorted list it wraps directly.
- String keys: keys are modelled as `int` with their natural order, not culture-sensitive string comparison.
- `GetBytes(string)` and `GetString` are left out. They are UTF-8 codecs of the .NET runtime.
- `Helper.Cmp` does not model null arrays. Sequences cannot be null.
- `Helper.ToInt` has a precondition for the unchecked reads:
  - the little-endian branch reads through a pointer without a bounds check;
  - the precondition excludes a start whose bytes run past the end;
  - those bytes come from memory outside the array.
- `IndexRootFileManager.Load` and `Save`, and the page-file I/O of `MmfTableIndexFileManager`, are left out. Only the layout arithmetic and the file table are modelled.
- Left out of `WahBitArray`:
  - `Length`, `GetFirstIndex`, `CompressAndSwitchBetterState`, `CloneArray`, `FillArray` and the pointer form of `BitmapSet`;
  - the reason: no operation of the modelled core depends on them beyond what the other members already state.
- WahBitArray.GenericBitOp: the throw at line 263 discards the result of `WahAnd`, so only its exception is modelled. Its rounds are bounded by `fuel`; with too little fuel the model reports `Diverges` where the source goes on to throw not-implemented.
- WahBitArray.FromTag: only the tag check is modelled. The constructor masks the type with 4, so type 4 (and any tag with bit 2 set) selects a state the class never handles, and the model refuses it.
- WahHelperAnd.CopyBack:
  - the writer is a struct passed by value, so words copied after a new chunk starts are lost to the caller;
  - in that case the model returns `NotSupported` instead of the truncated result.
- WahHelperAnd.WahAnd: termination is bounded by a `fuel` parameter, so it can run out of fuel (`Diverges`) on inputs where the source does terminate.
  - `WahAndLiterals` proves that fuel of one round per word is enough for literal operands.
  - `ZeroCountRunsOn` and `StuckCursors` show inputs on which the source runs more than 2^31 rounds before its counts wrap.
- WahHelperAnd.StuckCursors: divergence is stated only up to the wrap of the counts, 2^31 rounds. What the loop does after a count wraps to `int.MaxValue` is not derived.
- WahHelperAnd.ZeroCountRunsOn: it is bounded the same way, by 2^31 rounds. Whether the source ends after the wrap is not derived.
- MmfTable.InitFile: a byte size of 0 is accepted. `CreateFromFile` accepts it only for an existing non-empty file, and the files on disk are not modelled.
- MmfTable.LocateWithin: the bound is stated for files that fit an `int`. A doubling layout with larger files cannot be created by `InitFile`.
- IndexRoot.PagesAround: stated for lists of at most `int.MaxValue` entries, the most a `SortedList` holds.
- Codec.Compress: the bit length `data.Length << 5` is an unbounded integer. In the source it is an `int`, which wraps for arrays of 2^26 words or more.
- UncompressWritten.Uncompress: the group count `(ci & 0x3fffffff) * 31` is a `uint` in the source, and the bit index is an `int`. Both are unbounded here, so codes of 2^31 bits or more are not decoded as the source wraps them.
- WahHelper.BitIndexes: the running index and `count * 31` are unbounded here. In the source they are `int`s, which wrap for codes of 2^31 bits or more.
- UncompressWritten.Uncompress: its contract states only the null case. Its behaviour on codes is stated by the example lemmas `AlignedOnesFill` and `NegativePadding`, and the corrected decoder is `Codec.Uncompress`.
- WahBitArray.Not: the contract states only the default flag and the clean state. Which states keep their members is stated by `NotFlips`, `NotIndexesLoses` and `NotWahRereads`.
- MmfTable.InitFiles: the contract states only that existing files are kept. Extending by one file and by more are stated by `InitFilesNext` and `InitFilesSkipFails`.

## Findings

| source | as written | input that shows it | evidently intended | confidence | as-written member | corrected member |
|---|---|---|---|---|---|---|
| RaptorDB.Common/WAHBitarray2.cs:719-724 | a ones fill of one group starting a word sets all 32 bits of the word | the bitmap `[0xFFFFFFFE]`, compressed to `[0xC0000001, 0x80000001]`, decodes to `[0xFFFFFFFF]` | a group sets 31 bits | high, not executed | UncompressWritten.AlignedOnesFill | Codec.UncompressCompress |
| RaptorDB.Common/WAHBitarray2.cs:708 | `WriteOnes` allocates `list.Count - index/32` padding words, a negative length when the index lies beyond the list | the bitmap `[0, 3, 0xFFFFFFF8]`, compressed to `[0x80000002, 0xC0000001, 0x80000001]`, throws on decoding | pad up to the index | high, not executed | UncompressWritten.NegativePadding | Codec.UncompressCompress |
| RaptorDB.Common/WahHelper.cs:195-200 | reading the last group when it starts a word shifts the word out entirely | `Compress([0xFFFFFFFF])` does not expand to the word's groups | keep the top 31 bits of the word | high, not executed | WahHelper.CompressOneWord | Codec.CompressSpec |
| RaptorDB.Common/WahHelper.cs:231 | a ones fill counts 32 per group | the fill `0xC0000001` counts 32 | 31 per group | high, not executed | WahHelper.BitCountOnesFill | WahHelper.UnitOnes |
| RaptorDB.Common/WahHelper.cs:159-164 | a ones fill adds its length to the index before yielding it | `[0xC0000001]` yields 31..61 | yield 0..30 | high, not executed | WahHelper.OnesGroupIndexes | WahHelper.PositionsSpec |
| RaptorDB.Common/WahHelper.cs:204-225 | `FromIndexes` never flushes its last word and computes the bit from the running index instead of the offset | `[0, 32]` gives `[0x80000000, 0x8000001F]`; indexes below 32 give `[]` | a code setting exactly the given indexes | high, not executed | WahHelper.FromIndexesTwoWords | WahBitArray.FromIndexesIntended |
| RaptorDB.Common/WahHelper.cs:31 | `ai & SecondBitMask >> 30` shifts the mask first, so the fill value is read from bit 0 | a zero fill of one group AND `[0x1234]` gives `[0x1234]` | the fill value is bit 30 | high, not executed | WahHelperAnd.FillValueSwapped | WahHelperAnd.AndIntended |
| RaptorDB.Common/WahHelper.cs:30 | `(int)((ai & 0x3fffffff) - 1)` leaves a fill of count 0 at -1, and `TakeWord` then counts down without reading until the count wraps | `[0x80000000, 1]` AND itself runs more than 2^31 rounds, writing a word in each | a count of 0 stands for no group | medium, not executed | WahHelperAnd.ZeroCountRunsOn | WahHelperAnd.AndIntended |
| RaptorDB.Common/WAHBitarray2.cs:483 | the bitmap of a sparse set is `currentMax` bits long, one short of the maximum itself | a sparse set whose maximum is a member, as `Set` leaves it, loses that member; the sparse state is entered in the source only by a `Set` that then throws at line 167 | length `currentMax + 1` | medium, not executed | WahBitArray.GetBitArrayDropsMax | WahBitArray.GetBitArrayIntended |
| RaptorDB.Common/WAHBitarray2.cs:53-60 | `FromIndexes` fills `offsets` but leaves the array in one-record state with record -1, so the offsets are never read | `FromIndexes([5])` reads record 5 as the default, throws on `Set` and lists no indexes | a sparse array of the given records, as its summary says | high, not executed | WahBitArray.FromIndexesForgets | WahBitArray.FromIndexesDocumented |
| RaptorDB/Indexes/Indexes.cs:121-137 | the saved type is passed to a constructor that masks it with 4, so a saved WAH code is reloaded as a plain bitmap | the plain bitmap `[0xFFFFFFFE]` has record 2 set before saving and not after loading | reload by the saved type; `BoolIndex.ReloadIntendedFlips` shows that this alone is not enough while the decoder is as written | high, not executed | BoolIndex.ReloadExample | BoolIndex.ReloadIntended |
| RaptorDB/Indexes/MmfTableIndexFileManager.cs:104-105 | `size * PageSize` is an `int` product, widened to `long` only after it has wrapped; `PageSize * (index - FirstPageIndex)` at line 78 is an `int` as well | with 4100-byte pages and files 0 to 18 open, page 524287 needs file 19 of 2,149,580,800 bytes, whose size wraps negative, and the load throws | multiply as `long` | high, not executed | MmfTable.LargePageThrows | MmfTable.LoadHashtableIntended |
| RaptorDB/Indexes/MmfTableIndexFileManager.cs:97 | the loop that opens missing files calls `InitFile(fileIndex)` each time instead of `InitFile(i)` | loading page 1 of a fresh manager throws | open each missing file in turn | high, not executed | MmfTable.LoadSkipFails | MmfTable.LoadHashtableIntended |

=== FILE: bitarray.dfy ===
// The `WahBitArray` state machine of WAHBitarray2.cs: a bitmap kept as a
// single index, a set of indexes, a plain bitmap or WAH units, each read
// against a default bit `def` (a position holds `def` unless it is stored).

module WahBitArray {
  import opened Bits
  import opened Results
  import opened Wah
  import BitHelper
  import Codec
  import WahHelper
  import WahHelperAnd
  import UncompressWritten

  /** A record number: a non-negative `int`. */
  type Record = i: int | 0 <= i < 0x8000_0000

  /** `WahBitArrayState` together with the data each state keeps. */
  datatype State =
    | Bitarray(bitmap: seq<bv32>)
    | Wah(wah: seq<bv32>)
    | Indexes(offsets: set<Record>)
    | Index(singleIndex: int)

  /** The state names as a caller passes them to the constructor. */
  datatype Kind = BitarrayKind | WahKind | IndexesKind | IndexKind

  /** The enum values: Bitarray 0, Wah 1, Indexes 2, Index 3. */
  function KindValue(k: Kind): bv8 {
    match k
    case BitarrayKind => 0
    case WahKind => 1
    case IndexesKind => 2
    case IndexKind => 3
  }

  /** A `WahBitArray` object: its state, the largest index `Set` has added
      (`currentMax`), the default bit and the dirty flag. */
  datatype BitArray = BitArray(state: State, currentMax: nat, def: bool, isDirty: bool)

  /** `BitmapOffsetSwitchOverCount`. */
  const SwitchOverCount := 10

  // ---------------------------------------------------------------------
  // Construction
  // ---------------------------------------------------------------------

  /** `new WahBitArray(index)`: Index state. The default index is -1, which
      stands for no index at all. */
  function Single(index: int): (r: BitArray)
    ensures forall i: Record :: Holds(r, i) == (i == index)
    ensures CountOnes(r) == if index < 0 then 0 else 1
  {
    BitArray(Index(index), 0, false, false)
  }

  /** `new WahBitArray(type, ints)`. The state is `type & 4` and the default
      bit `type & 4 != 0`; for each of the four states the mask gives 0,
      which is Bitarray, so `ints` always becomes a plain bitmap and the
      default bit is always false. The Indexes and Index arms of the switch
      are unreachable too; a value 4 would match no arm and leave the
      object in no state at all. */
  function FromArray(kind: Kind, ints: seq<bv32>): (r: Result<BitArray>)
    ensures r == Ok(BitArray(Bitarray(ints), 0, false, false))
  {
    FromTag(KindValue(kind), ints)
  }

  /** The constructor given the raw state byte t, as a file can hold it:
      a byte with bit 2 set is masked to 4 with the default bit set, and
      4 names no state, which the model reports as unsupported. */
  function FromTag(t: bv8, ints: seq<bv32>): (r: Result<BitArray>)
    ensures t & 4 == 0 ==> r == Ok(BitArray(Bitarray(ints), 0, false, false))
    ensures t & 4 != 0 ==> r == Err(NotSupported)
  {
    var s := t & 4;
    Switch(s, s != 0, ints)
  }

  /** The switch of the constructor on the state value t. */
  function Switch(t: bv8, def: bool, ints: seq<bv32>): Result<BitArray> {
    if t == KindValue(BitarrayKind) then Ok(BitArray(Bitarray(ints), 0, def, false))
    else if t == KindValue(WahKind) then Ok(BitArray(Wah(ints), 0, def, false))
    else Err(NotSupported)
  }

  /** `FromIndexes(ints, def)` as written: it starts from `new WahBitArray()`,
      which is Index state with index -1, sets def and fills `offsets`, but
      never leaves Index state, so the offsets are never read: every
      position reads as def, whatever ints holds. */
  function FromIndexes(ints: seq<Record>, def: bool): (r: BitArray)
    ensures r.state == Index(-1) && r.def == def && !r.isDirty
    ensures forall i: Record :: Holds(r, i) == def
  {
    Single(-1).(def := def)
  }

  /** `FromIndexes` as its summary describes it: Indexes state holding the
      given positions, with `currentMax` their largest, as `Set` keeps it. */
  function FromIndexesDocumented(ints: seq<Record>, def: bool): (r: BitArray)
    ensures r.state.Indexes? && r.def == def && !r.isDirty && WithinMax(r)
    ensures forall i: Record :: Holds(r, i) == ((i in ints) != def)
  {
    var m := if |ints| == 0 then 0 else Top(ints);
    assert forall i :: i in Members(ints) ==> i <= m;
    BitArray(Indexes(Members(ints)), m, def, false)
  }

  /** The array `FromIndexes` builds holds none of the positions it was
      given, throws on `Set` and lists no indexes; the documented array
      holds every one of them. */
  lemma FromIndexesForgets(ints: seq<Record>, def: bool, index: Record, val: bool)
    requires |ints| > 0
    ensures Holds(FromIndexes(ints, def), ints[0]) == def
    ensures Holds(FromIndexesDocumented(ints, def), ints[0]) == !def
    ensures Set(FromIndexes(ints, def), index, val) == Err(NullReference)
    ensures GetBitIndexes(FromIndexes(ints, def)) == Err(NotSupported)
  {}

  /** The distinct positions of a list. */
  function Members(ints: seq<Record>): (r: set<Record>)
    ensures forall i :: i in r <==> i in ints
  {
    set i | i in ints
  }

  // ---------------------------------------------------------------------
  // Reading
  // ---------------------------------------------------------------------

  /** The words a unit array stands for, decoded as the format defines it
      (`Codec.Uncompress`). */
  function Unpacked(us: seq<bv32>): seq<bv32> {
    Codec.Uncompress(Some(us)).value
  }

  /** The words the as-written `Uncompress` returns for a unit array, or
      the exception it throws. */
  function Decoded(us: seq<bv32>): (r: Result<seq<bv32>>)
    ensures r.Ok? <==> UncompressWritten.Uncompress(Some(us)).Ok?
    ensures r.Ok? ==> UncompressWritten.Uncompress(Some(us)) == Ok(Some(r.value))
    ensures r.Err? ==> UncompressWritten.Uncompress(Some(us)) == Err(r.error)
  {
    var words :- UncompressWritten.Uncompress(Some(us));
    Ok(words.value)
  }

  /** What position `index` holds, XOR the default bit: membership, the
      single index, the bitmap bit, or the bit of the words the WAH units
      stand for. This is the content of the array; `Get` reads it except
      in Wah state, where it decodes with the as-written `Uncompress`. */
  predicate Holds(x: BitArray, index: Record) {
    match x.state
    case Indexes(offsets) => (index in offsets) != x.def
    case Index(single) => (single == index) != x.def
    case Bitarray(bitmap) => BitHelper.BitmapGet(bitmap, index) != x.def
    case Wah(us) => BitHelper.BitmapGet(Unpacked(us), index) != x.def
  }

  /** `DecompressWah()`: a Wah array switches to Bitarray state holding
      what the as-written `Uncompress` returns, and throws where it throws;
      any other array is left as it is. */
  function DecompressWah(x: BitArray): (r: Result<BitArray>)
    ensures !x.state.Wah? ==> r == Ok(x)
    ensures x.state.Wah? ==> (r.Ok? <==> UncompressWritten.Uncompress(Some(x.state.wah)).Ok?)
    ensures r.Ok? ==> !r.value.state.Wah? && r.value == x.(state := r.value.state)
    ensures x.state.Wah? && r.Ok? ==>
      (r.value.state.Bitarray? &&
       UncompressWritten.Uncompress(Some(x.state.wah)) == Ok(Some(r.value.state.bitmap)))
    ensures r.Err? ==> r.error == Decoded(x.state.wah).error
  {
    match x.state
    case Wah(us) =>
      var words :- Decoded(us);
      Ok(x.(state := Bitarray(words)))
    case _ => Ok(x)
  }

  /** `Get(index)`. Indexes and Index arrays answer from their positions;
      any other array goes through `DecompressWah`, so a Wah array is
      decoded with the as-written `Uncompress`, which may throw, and is
      left in Bitarray state: `Get` returns the array as it leaves it. */
  function Get(x: BitArray, index: Record): (r: Result<(BitArray, bool)>)
    ensures !x.state.Wah? ==> r == Ok((x, Holds(x, index)))
    ensures r.Ok? <==> DecompressWah(x).Ok?
    ensures r.Ok? ==> r.value == (DecompressWah(x).value, Holds(DecompressWah(x).value, index))
    ensures r.Err? ==> r.error == DecompressWah(x).error
  {
    match x.state
    case Indexes(offsets) => Ok((x, (index in offsets) != x.def))
    case Index(single) => Ok((x, (single == index) != x.def))
    case Bitarray(bitmap) => Ok((x, BitHelper.BitmapGet(bitmap, index) != x.def))
    case Wah(_) =>
      var y :- DecompressWah(x);
      Ok((y, BitHelper.BitmapGet(y.state.bitmap, index) != y.def))
  }

  /** `CompressBitmap()`: a Bitarray array switches to Wah state. */
  function CompressBitmap(x: BitArray): (r: BitArray)
    ensures !r.state.Bitarray? && r.def == x.def
    ensures !x.state.Bitarray? ==> r == x
  {
    match x.state
    case Bitarray(bitmap) => x.(state := Wah(Codec.Compress(bitmap)))
    case _ => x
  }

  /** `DecompressWah` with the format's decoding in place of the
      as-written `Uncompress`: it never throws and keeps every position. */
  function DecompressIntended(x: BitArray): (r: BitArray)
    ensures !r.state.Wah? && r.def == x.def && r.isDirty == x.isDirty
    ensures !x.state.Wah? ==> r == x
    ensures forall i: Record :: Holds(r, i) == Holds(x, i)
  {
    match x.state
    case Wah(us) => x.(state := Bitarray(Unpacked(us)))
    case _ => x
  }

  /** Compressing a bitmap and decoding it as the format intends gives back
      the same array, so no position changes on the way. */
  lemma CompressDecompress(x: BitArray)
    requires x.state.Bitarray? && Codec.GroupCount(|x.state.bitmap|) < 0x4000_0000
    ensures DecompressIntended(CompressBitmap(x)) == x
    ensures forall i: Record :: Holds(CompressBitmap(x), i) == Holds(x, i)
  {
    Codec.UncompressCompress(x.state.bitmap);
  }

  /** As written, the round trip of [0xFFFF_FFFE] sets position 31: the
      ones fill that starts the word fills all 32 bits of it. `Get` on the
      compressed array reads position 31 as set, though the array held it
      clear and its units stand for it clear. */
  lemma CompressDecompressWritten(x: BitArray)
    requires x == BitArray(Bitarray([0xFFFF_FFFE]), 0, false, false)
    ensures DecompressWah(CompressBitmap(x)) == Ok(x.(state := Bitarray([0xFFFF_FFFF])))
    ensures !Holds(x, 31) && !Holds(CompressBitmap(x), 31)
    ensures Get(CompressBitmap(x), 31) == Ok((x.(state := Bitarray([0xFFFF_FFFF])), true))
  {
    UncompressWritten.AlignedOnesFill(x.state.bitmap);
    CompressDecompress(x);
    Codec.OffIs(31, 31);
  }

  // ---------------------------------------------------------------------
  // Offsets
  // ---------------------------------------------------------------------

  /** m is the smallest member of s. */
  predicate IsLeast(m: Record, s: set<Record>) {
    m in s && forall y :: y in s ==> m <= y
  }

  lemma {:induction false} LeastExists(s: set<Record>)
    requires s != {}
    ensures exists m :: IsLeast(m, s)
    decreases |s|
  {
    var x :| x in s;
    if s == {x} {
      assert IsLeast(x, s);
    } else {
      var t := s - {x};
      LeastExists(t);
      var m :| IsLeast(m, t);
      var least := if x < m then x else m;
      forall y | y in s
        ensures least <= y
      {
        if y != x {
          assert y in t;
        }
      }
      assert IsLeast(least, s);
    }
  }

  /** The smallest member of a non-empty set. */
  function Least(s: set<Record>): (m: Record)
    requires s != {}
    ensures IsLeast(m, s)
  {
    LeastExists(s);
    var m :| IsLeast(m, s); m
  }

  /** `GetOffsets()`: the members, sorted. */
  function GetOffsets(offsets: set<Record>): (r: seq<Record>)
    ensures |r| == |offsets|
    ensures forall v :: v in r <==> v in offsets
    ensures forall i, j :: 0 <= i < j < |r| ==> r[i] < r[j]
    decreases |offsets|
  {
    if offsets == {} then []
    else
      var m := Least(offsets);
      var rest := GetOffsets(offsets - {m});
      SortedCons(offsets, m, rest);
      [m] + rest
  }

  /** Putting the least member in front of the sorted rest sorts the set. */
  lemma SortedCons(offsets: set<Record>, m: Record, rest: seq<Record>)
    requires IsLeast(m, offsets)
    requires |rest| == |offsets - {m}|
    requires forall v :: v in rest <==> v in offsets - {m}
    requires forall i, j :: 0 <= i < j < |rest| ==> rest[i] < rest[j]
    ensures |[m] + rest| == |offsets|
    ensures forall v :: v in [m] + rest <==> v in offsets
    ensures forall i, j :: 0 <= i < j < |[m] + rest| ==> ([m] + rest)[i] < ([m] + rest)[j]
  {
    assert |offsets - {m}| == |offsets| - 1;
    var r := [m] + rest;
    forall i, j | 0 <= i < j < |r|
      ensures r[i] < r[j]
    {
      if i == 0 {
        assert r[j] == rest[j - 1] && rest[j - 1] in offsets - {m};
      } else {
        assert r[i] == rest[i - 1] && r[j] == rest[j - 1];
      }
    }
  }

  /** The positions of xs below len, in order. */
  function Below(xs: seq<Record>, len: int): (r: seq<Record>)
    ensures forall v :: v in r <==> v in xs && v < len
    decreases |xs|
  {
    if |xs| == 0 then []
    else (if xs[0] < len then [xs[0]] else []) + Below(xs[1..], len)
  }

  /** `BitmapSet(bitmap, i, true)` for each i of xs in turn; the first
      position past the array throws. */
  function SetEach(bitmap: seq<bv32>, xs: seq<Record>): (r: Result<seq<bv32>>)
    ensures r.Ok? <==> forall k :: 0 <= k < |xs| ==> xs[k] / 32 < |bitmap|
    ensures r.Ok? ==> |r.value| == |bitmap|
    ensures r.Err? ==> r.error == IndexOutOfRange
    decreases |xs|
  {
    if |xs| == 0 then Ok(bitmap)
    else
      var b :- BitHelper.BitmapSet(bitmap, xs[0], true);
      assert forall k :: 0 <= k < |xs| - 1 ==> xs[1..][k] == xs[k + 1];
      SetEach(b, xs[1..])
  }

  /** After SetEach, a bit is set iff it was set before or is one of xs. */
  lemma {:induction false} SetEachGet(bitmap: seq<bv32>, xs: seq<Record>, j: nat)
    requires SetEach(bitmap, xs).Ok?
    ensures BitHelper.BitmapGet(SetEach(bitmap, xs).value, j) == (j in xs || BitHelper.BitmapGet(bitmap, j))
    decreases |xs|
  {
    if |xs| > 0 {
      var b := BitHelper.BitmapSet(bitmap, xs[0], true).value;
      assert SetEach(bitmap, xs) == SetEach(b, xs[1..]);
      SetEachGet(b, xs[1..], j);
      BitHelper.BitmapSetGet(bitmap, xs[0], true, j);
      assert j in xs <==> j == xs[0] || j in xs[1..];
    }
  }

  /** No bit of an all-zero bitmap is set. */
  lemma ZerosGet(n: nat, j: nat)
    ensures !BitHelper.BitmapGet(Zeros(n), j)
  {
    if j / 32 < n {
      Codec.WordBitZero(Off(j));
    }
  }

  /** Setting the positions of xs in a fresh bitmap sets exactly those. */
  lemma FreshSetEach(n: nat, xs: seq<Record>)
    requires SetEach(Zeros(n), xs).Ok?
    ensures forall j: nat :: BitHelper.BitmapGet(SetEach(Zeros(n), xs).value, j) <==> j in xs
  {
    forall j: nat
      ensures BitHelper.BitmapGet(SetEach(Zeros(n), xs).value, j) <==> j in xs
    {
      SetEachGet(Zeros(n), xs, j);
      ZerosGet(n, j);
    }
  }

  /** `UnpackOffsets(offsets, len)`: a bitmap of `(len + 31) / 32` words
      with the offsets below len set. */
  function UnpackOffsets(offsets: seq<Record>, len: nat): (r: seq<bv32>)
    ensures |r| == (len + 31) / 32
    ensures forall j: nat :: BitHelper.BitmapGet(r, j) <==> j in offsets && j < len
  {
    var xs := Below(offsets, len);
    assert forall k :: 0 <= k < |xs| ==> xs[k] in xs;
    FreshSetEach((len + 31) / 32, xs);
    SetEach(Zeros((len + 31) / 32), xs).value
  }

  // ---------------------------------------------------------------------
  // Set and the switch from Indexes to Bitarray
  // ---------------------------------------------------------------------

  /** Every member lies at or below `currentMax`, as `Set` keeps it. */
  predicate WithinMax(x: BitArray) {
    x.state.Indexes? ==> forall i :: i in x.state.offsets ==> i <= x.currentMax
  }

  /** The condition under which `ChangeTypeIfNeeded` leaves Indexes state:
      more members than the words a bitmap up to `currentMax` needs, and
      more than `SwitchOverCount`. */
  predicate Promotes(x: BitArray) {
    x.state.Indexes? &&
    |x.state.offsets| > x.currentMax / 32 + 1 &&
    |x.state.offsets| > SwitchOverCount
  }

  /** `ChangeTypeIfNeeded()`: a bitmap of `currentMax / 32 + 1` words gets
      every member set, in the order the set yields them. */
  function ChangeTypeIfNeeded(x: BitArray): (r: Result<BitArray>)
    ensures !Promotes(x) ==> r == Ok(x)
    ensures Promotes(x) ==>
      (r.Ok? <==> forall i :: i in x.state.offsets ==> i / 32 <= x.currentMax / 32)
    ensures r.Err? ==> r.error == IndexOutOfRange
    ensures Promotes(x) && r.Ok? ==>
      r.value.state.Bitarray? && r.value == x.(state := r.value.state) &&
      |r.value.state.bitmap| == x.currentMax / 32 + 1
  {
    if !Promotes(x) then Ok(x)
    else
      var offsets := x.state.offsets;
      SortedFits(offsets, x.currentMax / 32 + 1);
      var bitmap :- SetEach(Zeros(x.currentMax / 32 + 1), GetOffsets(offsets));
      Ok(x.(state := Bitarray(bitmap)))
  }

  /** Every sorted member fits below n words exactly when every member does. */
  lemma SortedFits(offsets: set<Record>, n: int)
    ensures (forall k :: 0 <= k < |GetOffsets(offsets)| ==> GetOffsets(offsets)[k] / 32 < n)
            <==> (forall i :: i in offsets ==> i / 32 <= n - 1)
  {
    var sorted := GetOffsets(offsets);
    if forall k :: 0 <= k < |sorted| ==> sorted[k] / 32 < n {
      forall i | i in offsets
        ensures i / 32 <= n - 1
      {
        var k :| 0 <= k < |sorted| && sorted[k] == i;
      }
    }
    if forall i :: i in offsets ==> i / 32 <= n - 1 {
      forall k | 0 <= k < |sorted|
        ensures sorted[k] / 32 < n
      {
        assert sorted[k] in sorted;
        assert sorted[k] in offsets;
        assert sorted[k] / 32 <= n - 1;
      }
    }
  }

  /** After the switch the bitmap holds exactly the former members, so no
      position changes what `Get` reads. */
  lemma PromotionKeepsMembers(x: BitArray)
    requires Promotes(x) && ChangeTypeIfNeeded(x).Ok?
    ensures forall j: nat :: BitHelper.BitmapGet(ChangeTypeIfNeeded(x).value.state.bitmap, j) <==> j in x.state.offsets
    ensures forall i: Record :: Holds(ChangeTypeIfNeeded(x).value, i) == Holds(x, i)
  {
    var n := x.currentMax / 32 + 1;
    var sorted := GetOffsets(x.state.offsets);
    var bitmap := SetEach(Zeros(n), sorted).value;
    assert ChangeTypeIfNeeded(x) == Ok(x.(state := Bitarray(bitmap)));
    FreshSetEach(n, sorted);
    assert forall j: nat :: BitHelper.BitmapGet(bitmap, j) <==> j in x.state.offsets;
  }

  /** Members at or below `currentMax` always fit the bitmap. */
  lemma PromotionFits(x: BitArray)
    requires WithinMax(x)
    ensures ChangeTypeIfNeeded(x).Ok?
  {
    if Promotes(x) {
      forall i | i in x.state.offsets
        ensures i / 32 <= x.currentMax / 32
      {
        DivMonotone(i, x.currentMax);
      }
    }
  }

  lemma DivMonotone(a: nat, b: nat)
    requires a <= b
    ensures a / 32 <= b / 32
  {}

  /** The Indexes branch of `Set` before the switch: the position is added
      when val differs from def and removed otherwise; `isDirty` is raised
      when the set changes. */
  function SetOffset(x: BitArray, index: Record, val: bool): (r: BitArray)
    requires x.state.Indexes?
    ensures r.state.Indexes? && r.def == x.def
    ensures r.state.offsets == if val != x.def then x.state.offsets + {index} else x.state.offsets - {index}
    ensures r.isDirty == (x.isDirty || r.state.offsets != x.state.offsets)
    ensures val != x.def ==> r.currentMax == if index > x.currentMax then index else x.currentMax
    ensures val == x.def ==> r.currentMax == x.currentMax
    ensures WithinMax(x) ==> WithinMax(r)
  {
    var offsets := x.state.offsets;
    if val != x.def then
      x.(state := Indexes(offsets + {index}),
         isDirty := x.isDirty || index !in offsets,
         currentMax := if index > x.currentMax then index else x.currentMax)
    else
      x.(state := Indexes(offsets - {index}), isDirty := x.isDirty || index in offsets)
  }

  /** `ResizeBitmap(index)`, reached only when index is past the bitmap:
      the length doubles until it covers index, which never happens for an
      empty bitmap; then a bitmap of `index >> 5` words replaces it. */
  function ResizeBitmap(bitmap: seq<bv32>, index: Record): (r: Result<seq<bv32>>)
    ensures r.Ok? ==> |r.value| >= |bitmap| && r.value[..|bitmap|] == bitmap
    ensures index > 32 * |bitmap| ==> (r.Ok? <==> |bitmap| > 0)
    ensures index > 32 * |bitmap| && r.Ok? ==> index / 32 == |r.value|
  {
    if 32 * |bitmap| >= index then Ok(bitmap)
    else if |bitmap| == 0 then Err(Diverges)
    else Ok(bitmap + Zeros(index / 32 - |bitmap|))
  }

  /** The bitmap branch of `Set`: the position is written with val itself,
      not with `val != def`. A position past the end is ignored when val is
      def; otherwise the resized bitmap is still one word short. */
  function SetBitmap(x: BitArray, index: Record, val: bool): (r: Result<BitArray>)
    requires x.state.Bitarray?
    ensures r.Ok? <==>
      index < 32 * |x.state.bitmap| || (index > 32 * |x.state.bitmap| && val == x.def)
    ensures index > 32 * |x.state.bitmap| && val != x.def ==>
      r == Err(if |x.state.bitmap| == 0 then Diverges else IndexOutOfRange)
    ensures r.Ok? ==> r.value == x.(state := r.value.state, isDirty := true) && r.value.state.Bitarray?
    ensures r.Ok? && index > 32 * |x.state.bitmap| ==> r.value.state == x.state
  {
    var bitmap := x.state.bitmap;
    var y := x.(isDirty := true);
    if index > 32 * |bitmap| then
      if val == x.def then Ok(y)
      else
        var resized :- ResizeBitmap(bitmap, index);
        match BitHelper.BitmapSet(resized, index, val)
        case Ok(b) => Ok(y.(state := Bitarray(b)))
        case Err(e) => Err(e)
    else
      var b :- BitHelper.BitmapSet(bitmap, index, val);
      Ok(y.(state := Bitarray(b)))
  }

  /** `Set(index, val)`. In Index state the code falls through to the
      bitmap branch with no bitmap and throws. A Wah array is first
      decoded by `DecompressWah`, with the as-written `Uncompress`. */
  function Set(x: BitArray, index: Record, val: bool): (r: Result<BitArray>)
    ensures x.state.Index? ==> r == Err(NullReference)
    ensures r.Ok? ==> r.value.def == x.def
    ensures x.state.Indexes? && !Promotes(SetOffset(x, index, val)) ==> r.Ok? && r.value.state.Indexes?
    ensures x.state.Wah? && DecompressWah(x).Err? ==> r == Err(DecompressWah(x).error)
    ensures x.state.Wah? && DecompressWah(x).Ok? ==> r == SetBitmap(DecompressWah(x).value, index, val)
  {
    match x.state
    case Indexes(_) => ChangeTypeIfNeeded(SetOffset(x, index, val))
    case Index(_) => Err(NullReference)
    case Wah(_) =>
      var y :- DecompressWah(x);
      SetBitmap(y, index, val)
    case Bitarray(_) => SetBitmap(x, index, val)
  }

  /** In Indexes state, with every member at or below `currentMax`, `Set`
      succeeds, reads back what it wrote, and leaves every other position
      alone, whether or not the array switches to a bitmap. */
  lemma SetGetIndexes(x: BitArray, index: Record, val: bool)
    requires x.state.Indexes? && WithinMax(x)
    ensures Set(x, index, val).Ok?
    ensures forall j: Record :: Holds(Set(x, index, val).value, j) == if j == index then val else Holds(x, j)
  {
    var y := SetOffset(x, index, val);
    assert Set(x, index, val) == ChangeTypeIfNeeded(y);
    ChangeTypeKeeps(y);
    SetOffsetGet(x, index, val);
  }

  /** The switch, when members stay within `currentMax`, succeeds and
      changes no position. */
  lemma ChangeTypeKeeps(x: BitArray)
    requires WithinMax(x)
    ensures ChangeTypeIfNeeded(x).Ok?
    ensures forall i: Record :: Holds(ChangeTypeIfNeeded(x).value, i) == Holds(x, i)
  {
    PromotionFits(x);
    if Promotes(x) {
      PromotionKeepsMembers(x);
    }
  }

  /** Adding or removing the position changes what `Get` reads there only. */
  lemma SetOffsetGet(x: BitArray, index: Record, val: bool)
    requires x.state.Indexes?
    ensures forall j: Record :: Holds(SetOffset(x, index, val), j) == if j == index then val else Holds(x, j)
  {}

  /** In Bitarray state, inside the bitmap, `Set` writes val into the
      bitmap and `Get` reads it back XOR def: with def set, the position
      reads as the opposite of what was set. */
  lemma SetGetBitmap(x: BitArray, index: Record, val: bool)
    requires x.state.Bitarray? && index < 32 * |x.state.bitmap|
    ensures Set(x, index, val).Ok?
    ensures forall j: Record ::
      (Holds(Set(x, index, val).value, j) == if j == index then val != x.def else Holds(x, j))
  {
    forall j: Record
      ensures Holds(Set(x, index, val).value, j) == if j == index then val != x.def else Holds(x, j)
    {
      BitHelper.BitmapSetGet(x.state.bitmap, index, val, j);
    }
  }

  // ---------------------------------------------------------------------
  // Copy and Not
  // ---------------------------------------------------------------------

  /** `Copy()`: a new array built with the state's constructor and the same
      def. Built through `new WahBitArray(type, ints)`, a Wah copy holds the
      units as a plain bitmap, and an Indexes copy holds an empty bitmap
      (its offsets are assigned but never read in that state). */
  function Copy(x: BitArray): (r: BitArray)
    ensures r.def == x.def && !r.isDirty && r.currentMax == 0
    ensures x.state.Index? || x.state.Bitarray? ==> r.state == x.state
    ensures x.state.Wah? ==> r.state == Bitarray(x.state.wah)
    ensures x.state.Indexes? ==> r.state == Bitarray([])
  {
    match x.state
    case Wah(us) => FromArray(WahKind, us).value.(def := x.def)
    case Bitarray(bitmap) => FromArray(BitarrayKind, bitmap).value.(def := x.def)
    case Indexes(_) => FromArray(IndexesKind, []).value.(def := x.def)
    case Index(single) => Single(single).(def := x.def)
  }

  /** `Not(cloneBitmap)`: the same content under the flipped default bit,
      as a copy or sharing the arrays. */
  function Not(x: BitArray, cloneBitmap: bool): (r: BitArray)
    ensures r.def == !x.def && !r.isDirty
  {
    if cloneBitmap then Copy(x).(def := !x.def)
    else
      match x.state
      case Bitarray(bitmap) => FromArray(BitarrayKind, bitmap).value.(def := !x.def)
      case Wah(us) => FromArray(WahKind, us).value.(def := !x.def)
      case Indexes(offsets) => BitArray(Indexes(offsets), 0, !x.def, false)
      case Index(single) => Single(single).(def := !x.def)
  }

  /** The states in which `Not` keeps the content. */
  predicate NotKeeps(x: BitArray, cloneBitmap: bool) {
    x.state.Index? || x.state.Bitarray? || (x.state.Indexes? && !cloneBitmap)
  }

  /** Where the content is kept, `Not` flips every position, and twice
      gives back the original def and positions. */
  lemma NotFlips(x: BitArray, cloneBitmap: bool)
    requires NotKeeps(x, cloneBitmap)
    ensures forall i: Record :: Holds(Not(x, cloneBitmap), i) == !Holds(x, i)
    ensures Not(Not(x, cloneBitmap), cloneBitmap).def == x.def
    ensures forall i: Record :: Holds(Not(Not(x, cloneBitmap), cloneBitmap), i) == Holds(x, i)
  {
    assert Not(x, cloneBitmap).state == x.state;
    assert NotKeeps(Not(x, cloneBitmap), cloneBitmap);
  }

  /** The cloning `Not` of an Indexes array forgets every member: all
      positions read as the new def. */
  lemma NotIndexesLoses(x: BitArray)
    requires x.state.Indexes?
    ensures forall i: Record :: Holds(Not(x, true), i) == !x.def
  {}

  /** `Not` of a Wah array, in both modes, reads its units as bitmap words. */
  lemma NotWahRereads(x: BitArray, cloneBitmap: bool)
    requires x.state.Wah?
    ensures Not(x, cloneBitmap).state == Bitarray(x.state.wah)
  {}

  /** A single zeros group reads as all zeros; its `Not` should read as all
      ones but reads position 0 as zero, since the fill's top bit is read
      as bitmap bit 0. */
  lemma NotWahExample(x: BitArray)
    requires x == BitArray(Wah([0x8000_0001]), 0, false, false)
    ensures !Holds(x, 0) && Get(x, 0) == Ok((x.(state := Bitarray([])), false))
    ensures !Holds(Not(x, true), 0)
  {
    assert !Holds(x, 0) by {
      assert Expand([0x8000_0001]) == [0] by {
        ExpandOne(0x8000_0001);
        assert Run(false, 1) == [0];
      }
      assert Unpacked([0x8000_0001]) == [];
    }
    assert DecompressWah(x) == Ok(x.(state := Bitarray([]))) by {
      UncompressWritten.ZeroFillUncompress();
    }
    assert !Holds(Not(x, true), 0) by {
      NotWahRereads(x, true);
      assert Off(0) == 0;
    }
  }

  // ---------------------------------------------------------------------
  // Counting and listing
  // ---------------------------------------------------------------------

  /** The `c += WahHelper.BitCount(i)` loop of `CountOnes` over units, in
      C#'s wrapping `int`. */
  function BitCountSum(us: seq<bv32>): (r: int)
    ensures -0x8000_0000 <= r < 0x8000_0000
    decreases |us|
  {
    if |us| == 0 then 0
    else WahHelper.Int32(BitCountSum(us[..|us| - 1]) + WahHelper.BitCount(us[|us| - 1]))
  }

  /** Whether unit u is a ones fill. */
  predicate OnesFill(u: bv32) {
    !IsLiteral(u) && FillBit(u)
  }

  /** The number of groups the ones fills of us stand for. */
  function OnesFillGroups(us: seq<bv32>): nat
    decreases |us|
  {
    if |us| == 0 then 0
    else OnesFillGroups(us[..|us| - 1]) + (if OnesFill(us[|us| - 1]) then FillCount(us[|us| - 1]) else 0)
  }

  /** Whether every ones fill is short enough that `BitCount`'s product
      fits in an `int`. */
  predicate SmallFills(us: seq<bv32>) {
    forall k :: 0 <= k < |us| && OnesFill(us[k]) ==> FillCount(us[k]) < 0x400_0000
  }

  /** While nothing wraps, the `BitCount` sum is the number of set bits the
      units stand for plus one extra bit per group of ones. */
  lemma {:induction false} BitCountSumOnes(us: seq<bv32>)
    requires SmallFills(us)
    requires WahHelper.Ones(Expand(us)) + OnesFillGroups(us) < 0x8000_0000
    ensures BitCountSum(us) == WahHelper.Ones(Expand(us)) + OnesFillGroups(us)
    decreases |us|
  {
    if |us| > 0 {
      var n := |us| - 1;
      var p, u := us[..n], us[n];
      assert SmallFills(p) by {
        forall k | 0 <= k < |p| && OnesFill(p[k]) ensures FillCount(p[k]) < 0x400_0000 {
          assert p[k] == us[k];
        }
      }
      var extra := if OnesFill(u) then FillCount(u) else 0;
      assert WahHelper.Ones(Expand(us)) == WahHelper.Ones(Expand(p)) + WahHelper.Ones(UnitGroups(u)) by {
        assert Expand(us) == Expand(p) + UnitGroups(u);
        WahHelper.OnesAppend(Expand(p), UnitGroups(u));
      }
      assert OnesFillGroups(us) == OnesFillGroups(p) + extra;
      assert WahHelper.BitCount(u) == WahHelper.Ones(UnitGroups(u)) + extra by {
        assert us[n] == u;
        WahHelper.BitCountAgainstOnes(u);
      }
      BitCountSumOnes(p);
      SumStep(BitCountSum(p), WahHelper.BitCount(u));
    }
  }

  /** A step of the sum that stays in range does not wrap. */
  lemma SumStep(c: int, b: int)
    requires 0 <= c + b < 0x8000_0000
    ensures WahHelper.Int32(c + b) == c + b
  {}

  /** The set bits a unit array stands for, unit by unit, with a ones fill
      counted as 31 bits per group: what `CountOnes` is meant to sum. */
  function UnitsOnes(us: seq<bv32>): nat
    decreases |us|
  {
    if |us| == 0 then 0 else UnitsOnes(us[..|us| - 1]) + WahHelper.UnitOnes(us[|us| - 1])
  }

  lemma {:induction false} UnitsOnesSpec(us: seq<bv32>)
    ensures UnitsOnes(us) == WahHelper.Ones(Expand(us))
    decreases |us|
  {
    if |us| > 0 {
      var n := |us| - 1;
      UnitsOnesSpec(us[..n]);
      WahHelper.OnesAppend(Expand(us[..n]), UnitGroups(us[n]));
    }
  }

  /** The `BitHelper.BitCount` sum over the words from i on. */
  function WordsOnes(bitmap: seq<bv32>, i: nat): nat
    requires i <= |bitmap|
    decreases |bitmap| - i
  {
    if i == |bitmap| then 0 else BitHelper.BitCount(bitmap[i]) + WordsOnes(bitmap, i + 1)
  }

  lemma {:induction false} WordIndexesCount(w: bv32, base: nat, j: nat)
    requires j <= 32
    ensures |BitHelper.WordIndexes(w, base, j)| == BitHelper.LowOnes(w, 32 - j)
    decreases 32 - j
  {
    if j < 32 {
      WordIndexesCount(w >> 1, base, j + 1);
    }
  }

  lemma {:induction false} WordsOnesSpec(bitmap: seq<bv32>, i: nat)
    requires i <= |bitmap|
    ensures WordsOnes(bitmap, i) == |BitHelper.IndexesFrom(bitmap, i)|
    decreases |bitmap| - i
  {
    if i < |bitmap| {
      var part := if bitmap[i] != 0 then BitHelper.WordIndexes(bitmap[i], 32 * i, 0) else [];
      assert BitHelper.IndexesFrom(bitmap, i) == part + BitHelper.IndexesFrom(bitmap, i + 1);
      WordsOnesSpec(bitmap, i + 1);
      WordCount(bitmap[i], 32 * i);
    }
  }

  /** One word contributes as many indexes as it has set bits. */
  lemma WordCount(w: bv32, base: nat)
    ensures BitHelper.BitCount(w) == |if w != 0 then BitHelper.WordIndexes(w, base, 0) else []|
  {
    WordIndexesCount(w, base, 0);
    WahHelper.GroupOnes();
  }

  /** `CountOnes()`: in Index state 0 or 1, in Indexes state the number of
      members, in Bitarray state the set bits of the bitmap, which are as
      many as `GetBitIndexes` lists. In Wah state it is the wrapping `int`
      sum of `WahHelper.BitCount`: while nothing wraps, the set bits of the
      stream plus one per group of ones. */
  function CountOnes(x: BitArray): (r: int)
    ensures x.state.Index? ==> r == if x.state.singleIndex < 0 then 0 else 1
    ensures x.state.Indexes? ==> r == |x.state.offsets|
    ensures x.state.Wah? ==> -0x8000_0000 <= r < 0x8000_0000
    ensures (x.state.Wah? && SmallFills(x.state.wah) &&
             WahHelper.Ones(Expand(x.state.wah)) + OnesFillGroups(x.state.wah) < 0x8000_0000) ==>
      r == WahHelper.Ones(Expand(x.state.wah)) + OnesFillGroups(x.state.wah)
    ensures x.state.Bitarray? ==> r == |BitHelper.GetBitIndexes(x.state.bitmap)|
  {
    match x.state
    case Index(single) => if single < 0 then 0 else 1
    case Indexes(offsets) => |offsets|
    case Wah(us) =>
      if SmallFills(us) && WahHelper.Ones(Expand(us)) + OnesFillGroups(us) < 0x8000_0000 then
        BitCountSumOnes(us); BitCountSum(us)
      else BitCountSum(us)
    case Bitarray(bitmap) => WordsOnesSpec(bitmap, 0); WordsOnes(bitmap, 0)
  }

  /** A single group of ones stands for 31 set bits; `CountOnes` reports
      32. */
  lemma CountOnesFill(x: BitArray)
    requires x == BitArray(Wah([0xC000_0001]), 0, false, false)
    ensures CountOnes(x) == 32
    ensures WahHelper.Ones(Expand(x.state.wah)) == 31
  {
    var us: seq<bv32> := [0xC000_0001];
    assert us[..0] == [];
    WahHelper.BitCountOnesFill();
    ExpandOne(us[0]);
  }

  /** `CountOnes` with each unit counted as the set bits it stands for. */
  function CountOnesIntended(x: BitArray): (r: nat)
    ensures x.state.Wah? ==> r == WahHelper.Ones(Expand(x.state.wah))
    ensures !x.state.Wah? ==> r == CountOnes(x)
  {
    match x.state
    case Wah(us) => UnitsOnesSpec(us); UnitsOnes(us)
    case _ => CountOnes(x)
  }

  /** `GetBitIndexes()`. An Index array without an index matches no branch
      and throws. A Wah array goes through `WahHelper.BitIndexes`, which
      without ones fills lists every set bit mirrored inside its group. */
  function GetBitIndexes(x: BitArray): (r: Result<seq<nat>>)
    ensures r.Err? <==> x.state.Index? && x.state.singleIndex < 0
    ensures r.Ok? && !x.state.Wah? ==> BitHelper.Increasing(r.value)
    ensures x.state.Indexes? ==> forall v: nat :: v in r.value <==> v in x.state.offsets
    ensures x.state.Wah? && WahHelper.NoOnesFill(x.state.wah) ==>
      BitHelper.Increasing(r.value) &&
      forall v: nat :: v in r.value <==> WahHelper.PosBit(Expand(x.state.wah), WahHelper.Flip(v))
    ensures x.state.Bitarray? ==> forall v: nat :: v in r.value <==> BitHelper.BitmapGet(x.state.bitmap, BitHelper.Mirror(v))
  {
    match x.state
    case Index(single) => if single >= 0 then Ok([single]) else Err(NotSupported)
    case Indexes(offsets) => Ok(GetOffsets(offsets))
    case Wah(us) =>
      if WahHelper.NoOnesFill(us) then
        WahHelper.IndexesOfMirrors(us); Ok(WahHelper.IndexesOf(us))
      else Ok(WahHelper.IndexesOf(us))
    case Bitarray(bitmap) =>
      BitHelper.GetBitIndexesSpec(bitmap);
      assert forall v: nat :: v in BitHelper.GetBitIndexes(bitmap) <==> BitHelper.BitmapGet(bitmap, BitHelper.Mirror(v)) by {
        forall v: nat ensures v in BitHelper.GetBitIndexes(bitmap) <==> BitHelper.BitmapGet(bitmap, BitHelper.Mirror(v)) {
          BitHelper.GetBitIndexesMirror(bitmap, v);
        }
      }
      Ok(BitHelper.GetBitIndexes(bitmap))
  }

  // ---------------------------------------------------------------------
  // Bitmap and compressed forms
  // ---------------------------------------------------------------------

  /** `GetBitArray()` as written: an Indexes array is unpacked with
      `currentMax` as the length, which leaves out the largest member; any
      other array is decoded as `DecompressWah` decodes it, without leaving
      Wah state, and an Index array has no bitmap and throws. */
  function GetBitArray(x: BitArray): (r: Result<seq<bv32>>)
    ensures x.state.Index? ==> r == Err(NullReference)
    ensures x.state.Indexes? ==>
      (r.Ok? && forall j: nat :: BitHelper.BitmapGet(r.value, j) <==> j in x.state.offsets && j < x.currentMax)
    ensures x.state.Bitarray? ==> r == Ok(x.state.bitmap)
    ensures x.state.Wah? ==> (r.Ok? <==> DecompressWah(x).Ok?)
    ensures x.state.Wah? && r.Ok? ==> r.value == DecompressWah(x).value.state.bitmap
  {
    match x.state
    case Indexes(offsets) => Ok(UnpackOffsets(GetOffsets(offsets), x.currentMax))
    case Bitarray(bitmap) => Ok(bitmap)
    case Wah(us) => Decoded(us)
    case Index(_) => Err(NullReference)
  }

  /** An Indexes array whose largest member is `currentMax`, as `Set`
      leaves it, holds that member, but the bitmap `GetBitArray` returns
      does not; the intended bitmap does. */
  lemma GetBitArrayDropsMax(x: BitArray)
    requires x.state.Indexes? && x.currentMax in x.state.offsets
    ensures Holds(x, x.currentMax) == !x.def
    ensures !BitHelper.BitmapGet(GetBitArray(x).value, x.currentMax)
    ensures WithinMax(x) ==> BitHelper.BitmapGet(GetBitArrayIntended(x).value, x.currentMax)
  {}

  /** `GetBitArray` as intended: the length covers `currentMax` itself. */
  function GetBitArrayIntended(x: BitArray): (r: Result<seq<bv32>>)
    ensures x.state.Index? ==> r.Err?
    ensures x.state.Indexes? && WithinMax(x) ==>
      (r.Ok? && forall j: nat :: BitHelper.BitmapGet(r.value, j) <==> j in x.state.offsets)
    ensures !x.state.Indexes? ==> r == GetBitArray(x)
  {
    match x.state
    case Indexes(offsets) => Ok(UnpackOffsets(GetOffsets(offsets), x.currentMax + 1))
    case Bitarray(bitmap) => Ok(bitmap)
    case Wah(us) => Decoded(us)
    case Index(_) => Err(NullReference)
  }

  /** The largest of a non-empty sequence of positions. */
  function Top(xs: seq<Record>): (m: Record)
    requires |xs| > 0
    ensures m in xs && forall k :: 0 <= k < |xs| ==> xs[k] <= m
    decreases |xs|
  {
    if |xs| == 1 then xs[0]
    else
      var m := Top(xs[1..]);
      assert forall k :: 1 <= k < |xs| ==> xs[k] == xs[1..][k - 1];
      if xs[0] > m then xs[0] else m
  }

  /** The units `WahHelper.FromIndexes` is meant to build: the compressed
      bitmap whose set bits are the offsets, up to the word of the last. */
  function FromIndexesIntended(offsets: seq<Record>): (r: seq<bv32>)
    ensures forall j: nat :: BitHelper.BitmapGet(Unpacked(r), j) <==> j in offsets
  {
    var len := if |offsets| == 0 then 0 else Top(offsets) + 1;
    var bitmap := UnpackOffsets(offsets, len);
    assert forall v :: v in offsets ==> v < len;
    Codec.UncompressCompress(bitmap);
    Codec.Compress(bitmap)
  }

  /** The words of a sorted offset list, as `GetOffsets` returns them. */
  function Words(offsets: seq<Record>): (r: seq<bv32>)
    ensures |r| == |offsets|
  {
    seq(|offsets|, k requires 0 <= k < |offsets| => Word(offsets[k]))
  }

  /** Whether position j is among the content a compressed form of the
      given kind stands for. */
  predicate Stored(kind: Kind, units: seq<bv32>, j: nat) {
    match kind
    case WahKind => BitHelper.BitmapGet(Unpacked(units), j)
    case IndexesKind => exists k :: 0 <= k < |units| && Val(units[k]) == j
    case BitarrayKind => BitHelper.BitmapGet(units, j)
    case IndexKind => |units| > 0 && Val(units[0]) == j
  }

  /** `GetCompressed(out type)`: an Indexes array is written as WAH, by
      `WahHelper.FromIndexes`, when it has more than one member per 32
      positions up to `currentMax`, and as its sorted offsets otherwise; a
      bitmap is compressed; an Index array has no bitmap and throws. */
  function GetCompressed(x: BitArray): (r: Result<(Kind, seq<bv32>)>)
    ensures r.Err? <==> x.state.Index?
    ensures x.state.Indexes? ==> r.value.0 == (if |x.state.offsets| * 32 > x.currentMax then WahKind else IndexesKind)
    ensures x.state.Indexes? && r.value.0 == IndexesKind ==>
      forall j: Record :: Stored(IndexesKind, r.value.1, j) == (j in x.state.offsets)
    ensures x.state.Wah? ==> r == Ok((WahKind, x.state.wah))
    ensures x.state.Bitarray? && Codec.GroupCount(|x.state.bitmap|) < 0x4000_0000 ==>
      r.value.0 == WahKind && Unpacked(r.value.1) == x.state.bitmap
  {
    match x.state
    case Indexes(offsets) =>
      var sorted := GetOffsets(offsets);
      if |offsets| * 32 > x.currentMax then Ok((WahKind, WahHelper.FromIndexes(Words(sorted))))
      else
        assert forall j: Record :: Stored(IndexesKind, Words(sorted), j) == (j in offsets) by {
          forall j: Record ensures Stored(IndexesKind, Words(sorted), j) == (j in offsets) {
            SparseStores(offsets, j);
          }
        }
        Ok((IndexesKind, Words(sorted)))
    case Wah(us) => Ok((WahKind, us))
    case Bitarray(bitmap) =>
      if Codec.GroupCount(|bitmap|) < 0x4000_0000 then
        Codec.UncompressCompress(bitmap); Ok((WahKind, Codec.Compress(bitmap)))
      else Ok((WahKind, Codec.Compress(bitmap)))
    case Index(_) => Err(NullReference)
  }

  /** A dense Indexes array whose members all lie in the first word is
      written as no units at all: `WahHelper.FromIndexes` never flushes the
      last word it fills. */
  lemma GetCompressedLoses(x: BitArray)
    requires x.state.Indexes? && |x.state.offsets| > 0 && |x.state.offsets| * 32 > x.currentMax
    requires forall i :: i in x.state.offsets ==> i < 32
    ensures GetCompressed(x) == Ok((WahKind, []))
    ensures exists j: Record :: Holds(x, j) != x.def && !Stored(WahKind, [], j)
  {
    assert GetCompressed(x) == Ok((WahKind, [])) by {
      FirstWordWords(x.state.offsets);
    }
    var j :| j in x.state.offsets;
    assert Holds(x, j) != x.def;
    assert !Stored(WahKind, [], j) by {
      assert Unpacked([]) == [];
    }
  }

  /** Members that all lie in the first word pack to no units. */
  lemma FirstWordWords(offsets: set<Record>)
    requires forall i :: i in offsets ==> i < 32
    ensures WahHelper.FromIndexes(Words(GetOffsets(offsets))) == []
  {
    var sorted := GetOffsets(offsets);
    var ws := Words(sorted);
    forall k | 0 <= k < |ws| ensures ws[k] < 32 {
      assert sorted[k] in sorted;
      ValBelow32(ws[k]);
    }
    WahHelper.FromIndexesFirstWord(ws);
  }

  /** `GetCompressed` with the dense Indexes case built as intended. */
  function GetCompressedIntended(x: BitArray): (r: Result<(Kind, seq<bv32>)>)
    ensures r.Err? <==> x.state.Index?
    ensures r.Ok? ==> r.value.0 == GetCompressed(x).value.0
    ensures !x.state.Indexes? ==> r == GetCompressed(x)
  {
    match x.state
    case Indexes(offsets) =>
      var sorted := GetOffsets(offsets);
      if |offsets| * 32 > x.currentMax then Ok((WahKind, FromIndexesIntended(sorted)))
      else GetCompressed(x)
    case _ => GetCompressed(x)
  }

  /** What `GetCompressedIntended` returns stands for exactly the positions
      the array holds, in every state it can write. */
  lemma GetCompressedStores(x: BitArray, j: Record)
    requires !x.state.Index?
    requires x.state.Bitarray? ==> Codec.GroupCount(|x.state.bitmap|) < 0x4000_0000
    ensures Stored(GetCompressedIntended(x).value.0, GetCompressedIntended(x).value.1, j) == (Holds(x, j) != x.def)
  {
    match x.state
    case Indexes(_) =>
      if |x.state.offsets| * 32 <= x.currentMax {
        SparseStores(x.state.offsets, j);
      }
    case Wah(_) =>
    case Bitarray(bitmap) =>
      Codec.UncompressCompress(bitmap);
  }

  /** The sorted offsets, as words, hold exactly the members. */
  lemma SparseStores(offsets: set<Record>, j: Record)
    ensures Stored(IndexesKind, Words(GetOffsets(offsets)), j) == (j in offsets)
  {
    var sorted := GetOffsets(offsets);
    WordsStore(sorted, j);
  }

  lemma WordsStore(xs: seq<Record>, j: Record)
    ensures Stored(IndexesKind, Words(xs), j) == (j in xs)
  {
    var ws := Words(xs);
    if j in xs {
      var k :| 0 <= k < |xs| && xs[k] == j;
      assert Val(ws[k]) == j;
    }
    if Stored(IndexesKind, ws, j) {
      var k :| 0 <= k < |ws| && Val(ws[k]) == j;
      assert xs[k] == j;
    }
  }

  // ---------------------------------------------------------------------
  // Bit operations
  // ---------------------------------------------------------------------

  /** The four operations `GenericBitOp` serves. */
  datatype Op = AndOp | AndNotOp | OrOp | XorOp

  /** `GenericBitOp`, and with it `And`, `AndNot`, `Or` and `Xor`: every
      path ends at the unimplemented finalisation. `And` passes
      `WahHelper.WahAnd` as its WAH operation, so two Wah arrays are first
      combined by it, and an exception it throws is the one that escapes;
      fuel bounds its rounds. */
  function GenericBitOp(a: BitArray, b: BitArray, op: Op, fuel: nat): (r: Result<BitArray>)
    ensures r.Err?
    ensures op == AndOp && a.state.Wah? && b.state.Wah? ==>
      r.error == (var c := WahHelperAnd.WahAnd(a.state.wah, b.state.wah, fuel);
        if c.Err? then c.error else NotImplemented)
    ensures !(op == AndOp && a.state.Wah? && b.state.Wah?) ==> r == Err(NotImplemented)
  {
    if op == AndOp && a.state.Wah? && b.state.Wah? then
      var c :- WahHelperAnd.WahAnd(a.state.wah, b.state.wah, fuel);
      Err(NotImplemented)
    else Err(NotImplemented)
  }

  /** `And` of a zeros fill of two groups with a one-literal array throws
      `IndexOutOfRange` from `WahAnd`, which skips past the end of the
      shorter array, before the finalisation is reached. */
  lemma AndThrows(a: BitArray, b: BitArray, fuel: nat)
    requires a.state == Wah([0x8000_0002]) && b.state == Wah([0x1]) && fuel >= 1
    ensures GenericBitOp(a, b, AndOp, fuel) == Err(IndexOutOfRange)
    ensures GenericBitOp(a, b, OrOp, fuel) == Err(NotImplemented)
  {
    WahHelperAnd.WahAndSkipsPast(fuel);
  }
}

=== FILE: bithelper.dfy ===
/** The dense bitmap primitives of `BitHelper`: a bitmap is a `uint[]` whose
    bit p is bit p % 32, counted from the most significant end, of word
    p / 32. */
module BitHelper {
  import opened Bits
  import opened Results

  // ---------------------------------------------------------------------
  // Repeat
  // ---------------------------------------------------------------------

  /** `Repeat(value, len)`: a fresh array of len copies of value. A negative
      length makes `new T[len]` throw. */
  function Repeat<T>(value: T, len: int): (r: Result<seq<T>>)
    ensures r.Ok? <==> len >= 0
    ensures r.Ok? ==> |r.value| == len && forall i :: 0 <= i < len ==> r.value[i] == value
  {
    if len < 0 then Err(Overflow) else Ok(seq(len, _ => value))
  }

  // ---------------------------------------------------------------------
  // BitCount
  // ---------------------------------------------------------------------

  /** The number of set bits among the k low bits of n: the reference
      definition of a population count. */
  function LowOnes(n: bv32, k: nat): nat
    requires k <= 32
  {
    if k == 0 then 0 else (if n & 1 == 1 then 1 else 0) + LowOnes(n >> 1, k - 1)
  }

  /** The number of set bits of n. */
  function PopCount(n: bv32): nat {
    LowOnes(n, 32)
  }

  /** The three SWAR reduction steps: afterwards every byte of the word
      holds the number of set bits of the same byte of n. */
  function SwarBytes(n: bv32): bv32 {
    var n1 := n - ((n >> 1) & 0x5555_5555);
    var n2 := ((n1 >> 2) & 0x3333_3333) + (n1 & 0x3333_3333);
    ((n2 >> 4) + n2) & 0x0f0f_0f0f
  }

  /** `BitCount(n)`: the SWAR popcount, summing the four byte counts with a
      multiplication by 0x01010101 and taking the top byte. */
  function BitCount(n: bv32): (r: nat)
    ensures r == PopCount(n)
    ensures r <= 32
  {
    SwarCorrect(n);
    LowOnesBound(n, 32);
    SwarTotal(n) as nat
  }

  lemma {:induction false} LowOnesBound(n: bv32, k: nat)
    requires k <= 32
    ensures LowOnes(n, k) <= k
  {
    if k > 0 {
      LowOnesBound(n >> 1, k - 1);
    }
  }

  /** Bit k of n counted from the least significant end, as 0 or 1. */
  function LowBit(n: bv32, k: nat): bv32
    requires k < 32
  {
    (n >> k) & 1
  }

  /** The number of set bits of the low byte of n, as a word. */
  function ByteOnes(x: bv32): bv32 {
    LowBit(x, 0) + LowBit(x, 1) + LowBit(x, 2) + LowBit(x, 3) +
    LowBit(x, 4) + LowBit(x, 5) + LowBit(x, 6) + LowBit(x, 7)
  }

  function BitNat(n: bv32, k: nat): nat
    requires k < 32
  {
    if (n >> k) & 1 == 1 then 1 else 0
  }

  lemma ByteOnesNat(x: bv32)
    ensures ByteOnes(x) as int ==
      BitNat(x, 0) + BitNat(x, 1) + BitNat(x, 2) + BitNat(x, 3) +
      BitNat(x, 4) + BitNat(x, 5) + BitNat(x, 6) + BitNat(x, 7)
  {}

  lemma ByteOnesBound(x: bv32)
    ensures ByteOnes(x) <= 8
  {}

  lemma SwarByte0(n: bv32)
    ensures SwarBytes(n) & 0xff == ByteOnes(n)
  {}

  lemma SwarByte1(n: bv32)
    ensures (SwarBytes(n) >> 8) & 0xff == ByteOnes(n >> 8)
  {}

  lemma SwarByte2(n: bv32)
    ensures (SwarBytes(n) >> 16) & 0xff == ByteOnes(n >> 16)
  {}

  lemma SwarByte3(n: bv32)
    ensures (SwarBytes(n) >> 24) & 0xff == ByteOnes(n >> 24)
  {}

  /** Every byte of x holds the count of set bits of the same byte of n. */
  predicate ByteCounts(x: bv32, n: bv32) {
    x & 0xff == ByteOnes(n) && (x >> 8) & 0xff == ByteOnes(n >> 8) &&
    (x >> 16) & 0xff == ByteOnes(n >> 16) && (x >> 24) & 0xff == ByteOnes(n >> 24)
  }

  /** The SWAR steps leave each byte's count in that byte. */
  lemma SwarByteCounts(n: bv32)
    ensures ByteCounts(SwarBytes(n), n)
  {
    SwarByte0(n);
    SwarByte1(n);
    SwarByte2(n);
    SwarByte3(n);
  }

  /** Multiplying by 0x01010101 puts the sum of four small byte values in
      the top byte. */
  lemma SumOfBytes(x: bv32, n: bv32)
    requires ByteCounts(x, n)
    ensures TopByteSum(x) == ByteSum(n)
  {
    ByteBounds(n);
  }

  /** The SWAR reduction sums the four byte counts. */
  lemma SwarSum(n: bv32)
    ensures SwarTotal(n) == ByteSum(n)
  {
    SwarByteCounts(n);
    SumOfBytes(SwarBytes(n), n);
  }

  /** Eight more low bits add the byte count of the low byte; m is n with
      that byte shifted out. */
  lemma LowOnesByte(n: bv32, m: bv32, k: nat)
    requires k <= 24 && m == n >> 8
    ensures LowOnes(n, k + 8) == ByteOnes(n) as int + LowOnes(m, k)
  {
    ByteOnesNat(n);
    assert LowOnes(n >> 0, k + 8) == BitNat(n, 0) + LowOnes(n >> 1, k + 7);
    assert LowOnes(n >> 1, k + 7) == BitNat(n, 1) + LowOnes(n >> 2, k + 6);
    assert LowOnes(n >> 2, k + 6) == BitNat(n, 2) + LowOnes(n >> 3, k + 5);
    assert LowOnes(n >> 3, k + 5) == BitNat(n, 3) + LowOnes(n >> 4, k + 4);
    assert LowOnes(n >> 4, k + 4) == BitNat(n, 4) + LowOnes(n >> 5, k + 3);
    assert LowOnes(n >> 5, k + 3) == BitNat(n, 5) + LowOnes(n >> 6, k + 2);
    assert LowOnes(n >> 6, k + 2) == BitNat(n, 6) + LowOnes(n >> 7, k + 1);
    assert LowOnes(n >> 7, k + 1) == BitNat(n, 7) + LowOnes(n >> 8, k + 0);
  }

  lemma ShiftBytes(n: bv32, n8: bv32, n16: bv32, n24: bv32)
    requires n8 == n >> 8 && n16 == n >> 16 && n24 == n >> 24
    ensures n16 == n8 >> 8 && n24 == n16 >> 8
  {}

  /** The population count is the sum of the four byte counts. */
  lemma PopCountBytes(n: bv32)
    ensures PopCount(n) == ByteSumInt(n)
  {
    var n8, n16, n24 := n >> 8, n >> 16, n >> 24;
    ShiftBytes(n, n8, n16, n24);
    LowOnesByte(n, n8, 24);
    LowOnesByte(n8, n16, 16);
    LowOnesByte(n16, n24, 8);
    LowOnesByte(n24, n24 >> 8, 0);
  }

  lemma AddSmall(a: bv32, b: bv32)
    requires a <= 16 && b <= 16
    ensures (a + b) as int == a as int + b as int
  {}

  /** Four byte counts add up without wrapping. */
  lemma ByteSumNat(a: bv32, b: bv32, c: bv32, d: bv32)
    requires a <= 8 && b <= 8 && c <= 8 && d <= 8
    ensures (a + b + c + d) as int == a as int + b as int + c as int + d as int
  {
    AddSmall(a, b);
    AddSmall(c, d);
    AddSmall(a + b, c + d);
    assert a + b + c + d == (a + b) + (c + d);
  }

  /** Four counts added as a word, and as integers. */
  function Sum4(a: bv32, b: bv32, c: bv32, d: bv32): bv32 {
    a + b + c + d
  }

  function Sum4Int(a: bv32, b: bv32, c: bv32, d: bv32): nat {
    a as nat + b as nat + c as nat + d as nat
  }

  /** Four byte counts add up without wrapping. */
  lemma Sum4Value(a: bv32, b: bv32, c: bv32, d: bv32)
    requires a <= 8 && b <= 8 && c <= 8 && d <= 8
    ensures Sum4(a, b, c, d) as int == Sum4Int(a, b, c, d)
  {
    ByteSumNat(a, b, c, d);
  }

  /** The four byte counts of n added as a word, and as integers. */
  function ByteSum(n: bv32): bv32 {
    Sum4(ByteOnes(n), ByteOnes(n >> 8), ByteOnes(n >> 16), ByteOnes(n >> 24))
  }

  function ByteSumInt(n: bv32): nat {
    Sum4Int(ByteOnes(n), ByteOnes(n >> 8), ByteOnes(n >> 16), ByteOnes(n >> 24))
  }

  /** Every byte count of n is at most 8. */
  lemma ByteBounds(n: bv32)
    ensures ByteOnes(n) <= 8 && ByteOnes(n >> 8) <= 8
    ensures ByteOnes(n >> 16) <= 8 && ByteOnes(n >> 24) <= 8
  {
    ByteOnesBound(n);
    ByteOnesBound(n >> 8);
    ByteOnesBound(n >> 16);
    ByteOnesBound(n >> 24);
  }

  /** The word sum of the byte counts does not wrap. */
  lemma ByteSumValue(n: bv32)
    ensures ByteSum(n) as int == ByteSumInt(n)
  {
    ByteBounds(n);
    Sum4Value(ByteOnes(n), ByteOnes(n >> 8), ByteOnes(n >> 16), ByteOnes(n >> 24));
  }

  /** The top byte of x * 0x01010101: the sum of the four bytes of x when
      no carry leaves a byte. */
  function TopByteSum(x: bv32): bv32 {
    (x * 0x0101_0101) >> 24
  }

  /** The expression `BitCount` returns. */
  function SwarTotal(n: bv32): bv32 {
    TopByteSum(SwarBytes(n))
  }

  /** The SWAR result, as an integer, is the sum of the four byte counts. */
  lemma SwarSumInt(n: bv32)
    ensures SwarTotal(n) as int == ByteSumInt(n)
  {
    SwarSum(n);
    ByteSumValue(n);
  }

  /** The SWAR reduction computes the population count. */
  lemma SwarCorrect(n: bv32)
    ensures SwarTotal(n) as int == PopCount(n)
  {
    SwarSumInt(n);
    PopCountBytes(n);
  }

  // ---------------------------------------------------------------------
  // BitmapGet and BitmapSet
  //
  // Each access splits a position into a word index and an in-word
  // offset; the lemmas below work on that pair so that the integer
  // division and the bit-vector shifts are never reasoned about together.
  // ---------------------------------------------------------------------

  /** Bit k of word p, false past the end: `(bitmap[p] & mask) != 0`, which
      `MaskTest` shows is bit k. */
  predicate BitAt(bitmap: seq<bv32>, p: nat, k: bv5) {
    p < |bitmap| && WordBit(bitmap[p], k)
  }

  /** `BitmapGet(bitmap, index)`: word `index >> 5`, mask
      `1 << (31 - index % 32)`; positions past the end read as false. */
  predicate BitmapGet(bitmap: seq<bv32>, index: nat) {
    BitAt(bitmap, index / 32, Off(index))
  }

  /** Word p with bit k set to val. */
  function SetAt(bitmap: seq<bv32>, p: nat, k: bv5, val: bool): seq<bv32>
    requires p < |bitmap|
  {
    bitmap[p := SetBit(bitmap[p], k, val)]
  }

  /** `BitmapSet(bitmap, index, val)`: sets or clears one bit in place. An
      index past the array throws. */
  function BitmapSet(bitmap: seq<bv32>, index: nat, val: bool): (r: Result<seq<bv32>>)
    ensures r.Ok? <==> index / 32 < |bitmap|
    ensures r.Ok? ==> |r.value| == |bitmap|
  {
    var pointer := index / 32;
    if pointer >= |bitmap| then Err(IndexOutOfRange)
    else Ok(SetAt(bitmap, pointer, Off(index), val))
  }

  lemma SetAtSame(bitmap: seq<bv32>, p: nat, k: bv5, val: bool, j: bv5)
    requires p < |bitmap|
    ensures BitAt(SetAt(bitmap, p, k, val), p, j) == (if j == k then val else BitAt(bitmap, p, j))
  {
    SetBitGet(bitmap[p], k, val, j);
  }

  lemma SetAtOther(bitmap: seq<bv32>, p: nat, k: bv5, val: bool, q: nat, j: bv5)
    requires p < |bitmap| && q != p
    ensures BitAt(SetAt(bitmap, p, k, val), q, j) == BitAt(bitmap, q, j)
  {}

  /** After a set, the bit reads back as the value written and every other
      bit is unchanged. */
  lemma BitmapSetGet(bitmap: seq<bv32>, index: nat, val: bool, j: nat)
    requires index / 32 < |bitmap|
    ensures BitmapGet(BitmapSet(bitmap, index, val).value, j) ==
      (if j == index then val else BitmapGet(bitmap, j))
  {
    if j / 32 == index / 32 {
      SetAtSame(bitmap, index / 32, Off(index), val, Off(j));
      OffEq(j, index);
    } else {
      SetAtOther(bitmap, index / 32, Off(index), val, j / 32, Off(j));
    }
  }

  /** A position past the array reads as false. */
  lemma BitmapGetPastEnd(bitmap: seq<bv32>, index: nat)
    requires index >= 32 * |bitmap|
    ensures !BitmapGet(bitmap, index)
  {}

  // ---------------------------------------------------------------------
  // And/AndNot/Or/Xor arrays
  // ---------------------------------------------------------------------

  /** The four word-wise operations BitHelper applies in place. */
  datatype BitOp = And | AndNot | Or | Xor

  function ApplyWord(op: BitOp, x: bv32, y: bv32): bv32 {
    match op
    case And => x & y
    case AndNot => x & !y
    case Or => x | y
    case Xor => x ^ y
  }

  function ApplyBool(op: BitOp, x: bool, y: bool): bool {
    match op
    case And => x && y
    case AndNot => x && !y
    case Or => x || y
    case Xor => x != y
  }

  /** The word operations act bit by bit. */
  lemma ApplyWordBit(op: BitOp, x: bv32, y: bv32, k: bv5)
    ensures WordBit(ApplyWord(op, x, y), k) == ApplyBool(op, WordBit(x, k), WordBit(y, k))
  {
    match op
    case And => AndOpBit(op, x, y, k);
    case AndNot => AndNotOpBit(op, x, y, k);
    case Or => OrOpBit(op, x, y, k);
    case Xor => XorOpBit(op, x, y, k);
  }

  lemma AndOpBit(op: BitOp, x: bv32, y: bv32, k: bv5)
    requires op == And
    ensures WordBit(ApplyWord(op, x, y), k) == ApplyBool(op, WordBit(x, k), WordBit(y, k))
  {
    AndBit(x, y, k, x & y);
  }

  lemma AndNotOpBit(op: BitOp, x: bv32, y: bv32, k: bv5)
    requires op == AndNot
    ensures WordBit(ApplyWord(op, x, y), k) == ApplyBool(op, WordBit(x, k), WordBit(y, k))
  {
    AndNotBit(x, y, k, x & !y);
  }

  lemma OrOpBit(op: BitOp, x: bv32, y: bv32, k: bv5)
    requires op == Or
    ensures WordBit(ApplyWord(op, x, y), k) == ApplyBool(op, WordBit(x, k), WordBit(y, k))
  {
    OrBit(x, y, k, x | y);
  }

  lemma XorOpBit(op: BitOp, x: bv32, y: bv32, k: bv5)
    requires op == Xor
    ensures WordBit(ApplyWord(op, x, y), k) == ApplyBool(op, WordBit(x, k), WordBit(y, k))
  {
    XorBit(x, y, k, x ^ y);
  }

  lemma AndBit(x: bv32, y: bv32, k: bv5, z: bv32)
    requires z == x & y
    ensures WordBit(z, k) == (WordBit(x, k) && WordBit(y, k))
  {}

  lemma AndNotBit(x: bv32, y: bv32, k: bv5, z: bv32)
    requires z == x & !y
    ensures WordBit(z, k) == (WordBit(x, k) && !WordBit(y, k))
  {}

  lemma OrBit(x: bv32, y: bv32, k: bv5, z: bv32)
    requires z == x | y
    ensures WordBit(z, k) == (WordBit(x, k) || WordBit(y, k))
  {}

  lemma XorBit(x: bv32, y: bv32, k: bv5, z: bv32)
    requires z == x ^ y
    ensures WordBit(z, k) == (WordBit(x, k) != WordBit(y, k))
  {}

  /** `AndArray`, `AndNotArray`, `OrArray`, `XorArray`: a[i] op= b[i] for
      every i below the shorter length; a keeps its length and its tail. */
  function ArrayOp(op: BitOp, a: seq<bv32>, b: seq<bv32>): (r: seq<bv32>)
    ensures |r| == |a|
    ensures forall i :: |b| <= i < |a| ==> r[i] == a[i]
  {
    seq(|a|, i requires 0 <= i < |a| => if i < |b| then ApplyWord(op, a[i], b[i]) else a[i])
  }

  function AndArray(a: seq<bv32>, b: seq<bv32>): seq<bv32> { ArrayOp(And, a, b) }
  function AndNotArray(a: seq<bv32>, b: seq<bv32>): seq<bv32> { ArrayOp(AndNot, a, b) }
  function OrArray(a: seq<bv32>, b: seq<bv32>): seq<bv32> { ArrayOp(Or, a, b) }
  function XorArray(a: seq<bv32>, b: seq<bv32>): seq<bv32> { ArrayOp(Xor, a, b) }

  lemma ArrayOpAt(op: BitOp, a: seq<bv32>, b: seq<bv32>, q: nat, k: bv5)
    ensures BitAt(ArrayOp(op, a, b), q, k) ==
      if q < |b| then q < |a| && ApplyBool(op, BitAt(a, q, k), BitAt(b, q, k))
      else BitAt(a, q, k)
  {
    if q < |a| && q < |b| {
      ApplyWordBit(op, a[q], b[q], k);
    }
  }

  /** Bit by bit: a position in a word b covers is combined, any other keeps
      a's bit. */
  lemma ArrayOpGet(op: BitOp, a: seq<bv32>, b: seq<bv32>, p: nat)
    ensures BitmapGet(ArrayOp(op, a, b), p) ==
      if p / 32 < |b| then p / 32 < |a| && ApplyBool(op, BitmapGet(a, p), BitmapGet(b, p))
      else BitmapGet(a, p)
  {
    ArrayOpAt(op, a, b, p / 32, Off(p));
  }

  // ---------------------------------------------------------------------
  // GetBitIndexes
  // ---------------------------------------------------------------------

  /** Bit k of w counted from the least significant end: the test
      `(w & 1) > 0` after k shifts `w >>= 1`. */
  predicate LsbSet(w: bv32, k: nat)
    requires k < 32
  {
    if k == 0 then w & 1 == 1 else LsbSet(w >> 1, k - 1)
  }

  predicate Increasing(s: seq<nat>) {
    forall i, j :: 0 <= i < j < |s| ==> s[i] < s[j]
  }

  lemma IncreasingAppend(a: seq<nat>, b: seq<nat>)
    requires Increasing(a) && Increasing(b)
    requires forall u, v :: u in a && v in b ==> u < v
    ensures Increasing(a + b)
  {
    var c := a + b;
    forall i, j | 0 <= i < j < |c|
      ensures c[i] < c[j]
    {
      if i < |a| && j >= |a| {
        assert c[i] in a && c[j] in b;
      }
    }
  }

  /** The inner loop of `GetBitIndexes` from step j on, with w already
      shifted j times: base + j for each set low bit, lowest first. */
  function WordIndexes(w: bv32, base: nat, j: nat): seq<nat>
    requires j <= 32
    decreases 32 - j
  {
    if j == 32 then []
    else (if w & 1 == 1 then [base + j] else []) + WordIndexes(w >> 1, base, j + 1)
  }

  /** The indexes of one word are ascending, lie in [base + j, base + 32),
      and are exactly the positions of its set bits. */
  lemma {:induction false} WordIndexesSpec(w: bv32, base: nat, j: nat)
    requires j <= 32
    ensures Increasing(WordIndexes(w, base, j))
    ensures forall v :: v in WordIndexes(w, base, j) <==>
      base + j <= v < base + 32 && LsbSet(w, v - base - j)
    decreases 32 - j
  {
    if j < 32 {
      WordIndexesSpec(w >> 1, base, j + 1);
      var rest := WordIndexes(w >> 1, base, j + 1);
      var here: seq<nat> := if w & 1 == 1 then [base + j] else [];
      IncreasingAppend(here, rest);
      assert WordIndexes(w, base, j) == here + rest;
    }
  }

  /** A zero word yields nothing. */
  lemma {:induction false} WordIndexesZero(w: bv32, base: nat, j: nat)
    requires w == 0 && j <= 32
    ensures WordIndexes(w, base, j) == []
    decreases 32 - j
  {
    if j < 32 {
      WordIndexesZero(w >> 1, base, j + 1);
    }
  }

  /** `GetBitIndexes(bitmap)` from word i on. Words that are zero are
      skipped. */
  function IndexesFrom(bitmap: seq<bv32>, i: nat): seq<nat>
    requires i <= |bitmap|
    decreases |bitmap| - i
  {
    if i == |bitmap| then []
    else (if bitmap[i] != 0 then WordIndexes(bitmap[i], 32 * i, 0) else []) + IndexesFrom(bitmap, i + 1)
  }

  /** Position v counted low bit first: bit v % 32 from the least
      significant end of word v / 32. */
  predicate LsbAt(bitmap: seq<bv32>, v: nat) {
    v / 32 < |bitmap| && LsbSet(bitmap[v / 32], v % 32)
  }

  lemma WordOf(v: nat, i: nat)
    requires 32 * i <= v < 32 * i + 32
    ensures v / 32 == i && v % 32 == v - 32 * i
  {}

  /** Word i contributes exactly its set bits, zero or not. */
  lemma WordPart(bitmap: seq<bv32>, i: nat)
    requires i < |bitmap|
    ensures (if bitmap[i] != 0 then WordIndexes(bitmap[i], 32 * i, 0) else []) ==
      WordIndexes(bitmap[i], 32 * i, 0)
  {
    if bitmap[i] == 0 {
      WordIndexesZero(bitmap[i], 32 * i, 0);
    }
  }

  /** Word i contributes exactly its set bits, as positions of the whole
      bitmap, in ascending order. */
  lemma WordBlock(bitmap: seq<bv32>, i: nat)
    requires i < |bitmap|
    ensures Increasing(WordIndexes(bitmap[i], 32 * i, 0))
    ensures forall v :: v in WordIndexes(bitmap[i], 32 * i, 0) <==>
      32 * i <= v < 32 * i + 32 && LsbAt(bitmap, v)
  {
    WordIndexesSpec(bitmap[i], 32 * i, 0);
    forall v | 32 * i <= v < 32 * i + 32
      ensures LsbSet(bitmap[i], v - 32 * i) == LsbAt(bitmap, v)
    {
      WordOf(v, i);
    }
  }

  /** A block below every later position keeps the whole ascending. */
  lemma BlockBefore(here: seq<nat>, rest: seq<nat>, bound: nat)
    requires Increasing(here) && Increasing(rest)
    requires forall v :: v in here ==> v < bound
    requires forall v :: v in rest ==> bound <= v
    ensures Increasing(here + rest)
  {
    IncreasingAppend(here, rest);
  }

  lemma {:induction false} IndexesFromSpec(bitmap: seq<bv32>, i: nat)
    requires i <= |bitmap|
    ensures Increasing(IndexesFrom(bitmap, i))
    ensures forall v :: v in IndexesFrom(bitmap, i) <==> 32 * i <= v && LsbAt(bitmap, v)
    decreases |bitmap| - i
  {
    if i < |bitmap| {
      IndexesFromSpec(bitmap, i + 1);
      var rest := IndexesFrom(bitmap, i + 1);
      var here := WordIndexes(bitmap[i], 32 * i, 0);
      WordPart(bitmap, i);
      WordBlock(bitmap, i);
      assert IndexesFrom(bitmap, i) == here + rest;
      BlockBefore(here, rest, 32 * i + 32);
    }
  }

  /** `GetBitIndexes(bitmap)`: every position whose bit is set, ascending,
      with bit j of word i numbered (i << 5) + j from the least significant
      end. */
  function GetBitIndexes(bitmap: seq<bv32>): seq<nat> {
    IndexesFrom(bitmap, 0)
  }

  /** The yielded positions ascend and are exactly the set bits, numbered
      low bit first. */
  lemma GetBitIndexesSpec(bitmap: seq<bv32>)
    ensures Increasing(GetBitIndexes(bitmap))
    ensures forall v :: v in GetBitIndexes(bitmap) <==> LsbAt(bitmap, v)
  {
    IndexesFromSpec(bitmap, 0);
  }

  /** Shifting right moves each bit one place towards the low end. */
  lemma ShiftWordBit(w: bv32, u: bv32, j: bv5, i: bv5)
    requires u == w >> 1 && j == i + 1 && i < 31
    ensures WordBit(u, j) == WordBit(w, i)
  {}

  lemma WordBitLow(w: bv32)
    ensures WordBit(w, 31) == (w & 1 == 1)
  {}

  /** Successive offsets. */
  lemma OffNext(a: nat, b: nat)
    requires a == b + 1 && b % 32 < 31
    ensures Off(a) == Off(b) + 1 && Off(b) < 31
  {
    OffValue(a);
    OffValue(b);
    OffStep(Off(a), Off(b));
  }

  lemma OffStep(x: bv5, y: bv5)
    requires x as int == y as int + 1
    ensures x == y + 1 && y < 31
  {}

  /** Low-first bit k is most-significant-first bit 31 - k. */
  lemma {:induction false} LsbWordBit(w: bv32, k: nat)
    requires k < 32
    ensures LsbSet(w, k) == WordBit(w, Off(31 - k))
  {
    if k == 0 {
      OffValue(31);
      WordBitLow(w);
    } else {
      LsbWordBit(w >> 1, k - 1);
      OffNext(32 - k, 31 - k);
      ShiftWordBit(w, w >> 1, Off(32 - k), Off(31 - k));
    }
  }

  lemma OffCongruent(a: nat, b: nat)
    requires a % 32 == b % 32
    ensures Off(a) == Off(b)
  {}

  lemma MirrorWord(bitmap: seq<bv32>, v: nat, m: nat)
    requires m / 32 == v / 32 && m % 32 == 31 - v % 32
    ensures LsbAt(bitmap, v) == BitmapGet(bitmap, m)
  {
    if v / 32 < |bitmap| {
      LsbWordBit(bitmap[v / 32], v % 32);
      OffCongruent(m, 31 - v % 32);
    }
  }

  /** The position `BitmapGet` numbers as the bit `GetBitIndexes` numbers v:
      the same word, the other end. */
  function Mirror(v: nat): nat {
    32 * (v / 32) + (31 - v % 32)
  }

  lemma MirrorPosition(v: nat)
    ensures Mirror(v) / 32 == v / 32 && Mirror(v) % 32 == 31 - v % 32
  {}

  /** v is yielded exactly when `BitmapGet` reads the mirrored position of
      the same word as set: the two numberings disagree within a word. */
  lemma GetBitIndexesMirror(bitmap: seq<bv32>, v: nat)
    ensures v in GetBitIndexes(bitmap) <==> BitmapGet(bitmap, Mirror(v))
  {
    GetBitIndexesSpec(bitmap);
    MirrorPosition(v);
    MirrorWord(bitmap, v, Mirror(v));
  }
}

=== FILE: bits.dfy ===
/** Bit numbering and word arithmetic shared by the dense bitmap and the
    WAH codec.

    RaptorDB numbers the bits of a 32-bit word from the most significant end:
    bit k of a word is `1 << (31 - k)`, and bit p of a `uint[]` lives in word
    p / 32 at position p % 32. A WAH literal carries 31 bits numbered the same
    way, from bit 30 down to bit 0. In-word offsets are `bv5` values so that
    every shift in this module has a bit-vector amount. */
module Bits {

  /** Bit k of w, counted from the most significant end. */
  predicate WordBit(w: bv32, k: bv5) {
    (w >> (31 - k)) & 1 == 1
  }

  /** Bit j (0..30) of a 31-bit WAH group, counted from bit 30 down; j = 31
      wraps round to the flag bit. */
  predicate GroupBit(g: bv32, j: bv5) {
    (g >> (30 - j)) & 1 == 1
  }

  /** The in-word offset of bit position n, `n % 32` as C# computes it for
      a non-negative n. */
  function Off(n: nat): bv5 {
    Small5(n % 32)
  }

  /** r as a five-bit value, counted up from zero so that proofs about
      offsets never meet an integer-to-bit-vector conversion. */
  function Small5(r: nat): bv5
    requires r < 32
  {
    if r == 0 then 0 else Small5(r - 1) + 1
  }

  /** C#'s `uint << s` and `uint >> s`: the amount is taken mod 32. */
  function Shl(x: bv32, s: int): bv32 {
    x << Small5(s % 32)
  }

  function Shr(x: bv32, s: int): bv32 {
    x >> Small5(s % 32)
  }

  lemma {:induction false} Small5Value(r: nat)
    requires r < 32
    ensures Small5(r) as int == r
  {
    if r > 0 {
      Small5Value(r - 1);
      Inc5(Small5(r - 1), Small5(r), r - 1);
    }
  }

  lemma Inc5(x: bv5, y: bv5, a: nat)
    requires y == x + 1 && x as int == a && a < 31
    ensures y as int == a + 1
  {}

  lemma OffValue(n: nat)
    ensures Off(n) as int == n % 32
  {
    Small5Value(n % 32);
  }

  /** Two positions of the same word are equal exactly when their offsets
      are. */
  lemma OffEq(a: nat, b: nat)
    requires a / 32 == b / 32
    ensures a == b <==> Off(a) == Off(b)
  {
    OffValue(a);
    OffValue(b);
  }

  /** The one-bit mask BitHelper builds for an in-word offset,
      `1u << (31 - k)`. */
  function Mask(k: bv5): bv32 {
    (1 as bv32) << (31 - k)
  }

  /** Testing with the mask of offset k reads bit k. */
  lemma MaskTest(w: bv32, k: bv5)
    ensures (w & Mask(k) != 0) == WordBit(w, k)
  {}

  /** Bit k of w set to b: `w |= mask` or `w &= ~mask`. */
  function SetBit(w: bv32, k: bv5, b: bool): bv32 {
    if b then w | Mask(k) else w & !Mask(k)
  }

  /** Setting bit k changes bit k to b and no other bit. */
  lemma SetBitGet(w: bv32, k: bv5, b: bool, j: bv5)
    ensures WordBit(SetBit(w, k, b), j) == (if j == k then b else WordBit(w, j))
  {
    if b {
      MaskSet(w, k, j);
    } else {
      MaskClear(w, k, j);
    }
  }

  lemma MaskSet(w: bv32, k: bv5, j: bv5)
    ensures WordBit(w | Mask(k), j) == (j == k || WordBit(w, j))
  {}

  lemma MaskClear(w: bv32, k: bv5, j: bv5)
    ensures WordBit(w & !Mask(k), j) == (j != k && WordBit(w, j))
  {}

  // ---------------------------------------------------------------------
  // The value of a word as a natural number.
  //
  // `Val` reads a word as an unsigned number by halving. The WAH run
  // counts are `uint` fields in the source; the model keeps them as bv32
  // and uses `Val` wherever the count is a length.
  // ---------------------------------------------------------------------

  /** The unsigned value of u. */
  function Val(u: bv32): nat
    decreases u
  {
    if u == 0 then 0 else 2 * Val(u >> 1) + (if u & 1 == 1 then 1 else 0)
  }

  lemma ValUnfold(u: bv32)
    requires u != 0
    ensures Val(u) == 2 * Val(u >> 1) + (if u & 1 == 1 then 1 else 0)
  {}

  lemma ValZero()
    ensures Val(0) == 0
  {}

  /** Every non-zero word has a positive value. */
  lemma {:induction false} ValPos(u: bv32)
    requires u != 0
    ensures Val(u) >= 1
  {
    ValUnfold(u);
    if u & 1 == 0 {
      assert u >> 1 != 0;
      ValPos(u >> 1);
    }
  }

  /** A word whose value is below 32 is below 32. */
  lemma ValBelow32(w: bv32)
    requires Val(w) < 32
    ensures w < 32
  {
    if w >= 32 {
      var w1 := w >> 1;
      var w2 := w1 >> 1;
      var w3 := w2 >> 1;
      var w4 := w3 >> 1;
      var w5 := w4 >> 1;
      assert w5 != 0;
      ValUnfold(w);
      ValUnfold(w1);
      ValUnfold(w2);
      ValUnfold(w3);
      ValUnfold(w4);
      ValPos(w5);
    }
  }

  lemma EvenStep(u: bv32)
    requires u & 1 == 0
    ensures (u + 1) >> 1 == u >> 1 && (u + 1) & 1 == 1 && u + 1 != 0
  {}

  lemma OddStep(u: bv32)
    requires u & 1 == 1 && u != 0xFFFF_FFFF
    ensures (u + 1) >> 1 == (u >> 1) + 1 && (u + 1) & 1 == 0
    ensures u >> 1 != 0xFFFF_FFFF && u + 1 != 0
  {}

  lemma ValIncEven(u: bv32)
    requires u & 1 == 0
    ensures Val(u + 1) == Val(u) + 1
  {
    EvenStep(u);
    ValUnfold(u + 1);
    if u != 0 {
      ValUnfold(u);
    }
  }

  /** The carry step: incrementing an odd u increments its upper half v. */
  lemma ValIncOdd(u: bv32, v: bv32)
    requires u & 1 == 1 && u != 0xFFFF_FFFF && v == u >> 1
    requires Val(v + 1) == Val(v) + 1
    ensures Val(u + 1) == Val(u) + 1
  {
    OddStep(u);
    ValUnfold(u + 1);
    ValUnfold(u);
  }

  /** `u++` on a uint that does not wrap adds one to its value. */
  lemma {:induction false} ValInc(u: bv32)
    requires u != 0xFFFF_FFFF
    ensures Val(u + 1) == Val(u) + 1
    decreases u
  {
    if u & 1 == 0 {
      ValIncEven(u);
    } else {
      var v := u >> 1;
      OddStep(u);
      ValInc(v);
      ValIncOdd(u, v);
    }
  }

  /** Shifting right by one halves the value. */
  lemma HalfBelow(a: bv32, b: bv32, p: nat)
    requires b == a >> 1 && Val(a) < 2 * p
    ensures Val(b) < p
  {
    if a != 0 {
      ValUnfold(a);
    }
  }

  /** A value below 2^30 leaves the two top bits clear, so it fits the
      30-bit count field of a WAH fill. */
  lemma ValHigh(u: bv32)
    requires Val(u) < 0x4000_0000
    ensures u & 0xC000_0000 == 0
  {
    // Halve thirty times; what is left is the top two bits and has value 0.
    var b01 := u >> 1; HalfBelow(u, b01, 0x2000_0000);
    var b02 := b01 >> 1; HalfBelow(b01, b02, 0x1000_0000);
    var b03 := b02 >> 1; HalfBelow(b02, b03, 0x800_0000);
    var b04 := b03 >> 1; HalfBelow(b03, b04, 0x400_0000);
    var b05 := b04 >> 1; HalfBelow(b04, b05, 0x200_0000);
    var b06 := b05 >> 1; HalfBelow(b05, b06, 0x100_0000);
    var b07 := b06 >> 1; HalfBelow(b06, b07, 0x80_0000);
    var b08 := b07 >> 1; HalfBelow(b07, b08, 0x40_0000);
    var b09 := b08 >> 1; HalfBelow(b08, b09, 0x20_0000);
    var b10 := b09 >> 1; HalfBelow(b09, b10, 0x10_0000);
    var b11 := b10 >> 1; HalfBelow(b10, b11, 0x8_0000);
    var b12 := b11 >> 1; HalfBelow(b11, b12, 0x4_0000);
    var b13 := b12 >> 1; HalfBelow(b12, b13, 0x2_0000);
    var b14 := b13 >> 1; HalfBelow(b13, b14, 0x1_0000);
    var b15 := b14 >> 1; HalfBelow(b14, b15, 0x8000);
    var b16 := b15 >> 1; HalfBelow(b15, b16, 0x4000);
    var b17 := b16 >> 1; HalfBelow(b16, b17, 0x2000);
    var b18 := b17 >> 1; HalfBelow(b17, b18, 0x1000);
    var b19 := b18 >> 1; HalfBelow(b18, b19, 0x800);
    var b20 := b19 >> 1; HalfBelow(b19, b20, 0x400);
    var b21 := b20 >> 1; HalfBelow(b20, b21, 0x200);
    var b22 := b21 >> 1; HalfBelow(b21, b22, 0x100);
    var b23 := b22 >> 1; HalfBelow(b22, b23, 0x80);
    var b24 := b23 >> 1; HalfBelow(b23, b24, 0x40);
    var b25 := b24 >> 1; HalfBelow(b24, b25, 0x20);
    var b26 := b25 >> 1; HalfBelow(b25, b26, 0x10);
    var b27 := b26 >> 1; HalfBelow(b26, b27, 0x8);
    var b28 := b27 >> 1; HalfBelow(b27, b28, 0x4);
    var b29 := b28 >> 1; HalfBelow(b28, b29, 0x2);
    var b30 := b29 >> 1; HalfBelow(b29, b30, 0x1);
    if b30 != 0 {
      ValPos(b30);
    }
  }

  /** w is u shifted left by one with bit 0 set iff odd. */
  predicate Halves(w: bv32, u: bv32, odd: bool) {
    w >> 1 == u && (w & 1 == 1) == odd && (u != 0 || odd ==> w != 0)
  }

  /** Shifting a word with clear top bits left by one and putting a bit in
      bit 0 can be undone. */
  lemma ShiftIn(u: bv32, odd: bool)
    requires u & 0xC000_0000 == 0
    ensures Halves((u << 1) | (if odd then 1 else 0), u, odd)
  {}

  /** The uint whose value is v, as a cast `(uint)v` of a non-negative int
      gives it. */
  function Word(v: nat): (w: bv32)
    requires v < 0x8000_0000
    ensures Val(w) == v
    decreases v
  {
    if v == 0 then ValZero(); 0
    else
      var u := Word(v / 2);
      var odd := v % 2 == 1;
      ValHigh(u);
      ShiftIn(u, odd);
      WordValue(u, (u << 1) | (if odd then 1 else 0), v);
      (u << 1) | (if odd then 1 else 0)
  }

  /** The value of a word whose halves are known. */
  lemma WordValue(u: bv32, w: bv32, v: nat)
    requires Halves(w, u, v % 2 == 1)
    requires v > 0 && Val(u) == v / 2
    ensures Val(w) == v
  {
    if u == 0 {
      ValZero();
    } else {
      ValPos(u);
    }
    ValUnfold(w);
  }

  // ---------------------------------------------------------------------
  // 31-bit windows over a word stream and 32-bit words over a group stream.
  // ---------------------------------------------------------------------

  /** The 31 bits that start at in-word offset off of a, continuing into b:
      `((a << 32) + b) >> (33 - off) & 0x7fffffff` on a ulong. */
  function Window(a: bv32, b: bv32, off: bv5): bv32 {
    var l: bv64 := ((a as bv64) << 32) + (b as bv64);
    ((l >> (33 - off as bv64)) & 0x7fff_ffff) as bv32
  }

  /** A window is a 31-bit value: the literal flag bit is clear. */
  lemma WindowTop(a: bv32, b: bv32, off: bv5)
    ensures Window(a, b, off) & 0x8000_0000 == 0
  {}

  /** Bit j of a window is bit off + j of a, or of b once past a's end. */
  lemma WindowBit(a: bv32, b: bv32, off: bv5, j: bv5)
    requires j < 31
    ensures GroupBit(Window(a, b, off), j) ==
      (if (off as bv8) + (j as bv8) < 32 then WordBit(a, off + j) else WordBit(b, off + j))
  {
    // Four cases, each small enough for the solver on its own.
    if (off as bv8) + (j as bv8) < 32 {
      if off < 16 { WindowBitLoA(a, b, off, j); } else { WindowBitHiA(a, b, off, j); }
    } else {
      if off < 16 { WindowBitLoB(a, b, off, j); } else { WindowBitHiB(a, b, off, j); }
    }
  }

  lemma WindowBitLoA(a: bv32, b: bv32, off: bv5, j: bv5)
    requires j < 31 && (off as bv8) + (j as bv8) < 32 && off < 16
    ensures GroupBit(Window(a, b, off), j) == WordBit(a, off + j)
  {}

  lemma WindowBitHiA(a: bv32, b: bv32, off: bv5, j: bv5)
    requires j < 31 && (off as bv8) + (j as bv8) < 32 && off >= 16
    ensures GroupBit(Window(a, b, off), j) == WordBit(a, off + j)
  {}

  lemma WindowBitLoB(a: bv32, b: bv32, off: bv5, j: bv5)
    requires j < 31 && (off as bv8) + (j as bv8) >= 32 && off < 16
    ensures GroupBit(Window(a, b, off), j) == WordBit(b, off + j)
  {}

  lemma WindowBitHiB(a: bv32, b: bv32, off: bv5, j: bv5)
    requires j < 31 && (off as bv8) + (j as bv8) >= 32 && off >= 16
    ensures GroupBit(Window(a, b, off), j) == WordBit(b, off + j)
  {}

  /** The 32 bits that start at offset o of the 31-bit group a, continuing
      into the group b. */
  function Pack(a: bv32, b: bv32, o: bv5): bv32
    requires o < 31
  {
    var l: bv64 := ((a as bv64) << 31) | (b as bv64);
    ((l >> (30 - o as bv64)) & 0xffff_ffff) as bv32
  }

  /** A word that starts a group: the group at its offset 0 and the next at
      offset 31 reassemble it. */
  lemma PackAligned(x1: bv32, x2: bv32)
    ensures Pack(Window(x1, x2, 0), Window(x1, x2, 31), 0) == x1
  {}

  /** A word that starts o bits into a group: the group began 32 - o bits
      into the previous word and the next group begins 31 - o bits into this
      one. Split in two halves to keep each proof small. */
  lemma PackInnerLo(x0: bv32, x1: bv32, x2: bv32, o: bv5)
    requires 0 < o < 16
    ensures Pack(Window(x0, x1, 0 - o), Window(x1, x2, 31 - o), o) == x1
  {}

  lemma PackInnerHi(x0: bv32, x1: bv32, x2: bv32, o: bv5)
    requires 16 <= o < 31
    ensures Pack(Window(x0, x1, 0 - o), Window(x1, x2, 31 - o), o) == x1
  {}

  lemma PackInner(x0: bv32, x1: bv32, x2: bv32, o: bv5)
    requires 0 < o < 31
    ensures Pack(Window(x0, x1, 0 - o), Window(x1, x2, 31 - o), o) == x1
  {
    if o < 16 {
      PackInnerLo(x0, x1, x2, o);
    } else {
      PackInnerHi(x0, x1, x2, o);
    }
  }

  /** `new uint[n]`: n zero words. */
  function Zeros(n: nat): (r: seq<bv32>)
    ensures |r| == n && forall i :: 0 <= i < n ==> r[i] == 0
  {
    seq(n, _ => 0)
  }
}

=== FILE: boolindex.dfy ===
/** `BoolIndex`: the index of a boolean column, one `WahBitArray` whose set
    positions are the record numbers holding true, saved to a file as a
    state byte followed by the units of `GetCompressed`. Files are byte
    strings here; reading and writing them is left to the caller. */
module BoolIndex {
  import opened Bits
  import opened Results
  import opened Helper
  import opened WahBitArray
  import Codec
  import BitHelper
  import UncompressWritten

  datatype BoolIndex = BoolIndex(bits: BitArray)

  /** A new index: `new WahBitArray()`, Index state with no index. */
  function Fresh(): (ix: BoolIndex)
    ensures forall i: Record :: !Holds(ix.bits, i)
  {
    BoolIndex(Single(-1))
  }

  // ---------------------------------------------------------------------
  // The file layout
  // ---------------------------------------------------------------------

  /** The state byte written for a kind (`(byte)t`). */
  function TagByte(k: Kind): Byte {
    KindValue(k) as int
  }

  /** A unit as `BinaryWriter.Write(uint)` writes it: four bytes, least
      significant first. */
  function UnitBytes(u: bv32): (bs: seq<Byte>)
    ensures |bs| == 4
  {
    LeBytes(u as int, 4)
  }

  /** The bytes of all units, in order. */
  function UnitsBytes(us: seq<bv32>): (bs: seq<Byte>)
    ensures |bs| == 4 * |us|
  {
    if us == [] then [] else UnitBytes(us[0]) + UnitsBytes(us[1..])
  }

  /** The file content of `WriteFile`: the state byte, then the units. */
  function Layout(k: Kind, us: seq<bv32>): (bs: seq<Byte>)
    ensures |bs| == 1 + 4 * |us| && bs[0] == TagByte(k)
  {
    [TagByte(k)] + UnitsBytes(us)
  }

  /** `(uint)Helper.ToInt32(b, start)`: the signed word at start, taken
      modulo 2^32. */
  function ReadUnit(b: seq<Byte>, start: nat): bv32
    requires start + 4 <= |b|
  {
    Low32(ToInt(b, start, 4, false).value) as bv32
  }

  /** An `int` cast to `uint`. */
  function Low32(n: int): (m: nat)
    requires InRange(n, 4)
    ensures m < 0x1_0000_0000
  {
    Pow256Four();
    if n < 0 then n + 0x1_0000_0000 else n
  }

  lemma Pow256Four()
    ensures Pow256(4) == 0x1_0000_0000
  {}

  /** Casting a signed reading to `uint` gives the unsigned reading. */
  lemma Low32Signed(s: seq<Byte>)
    requires |s| == 4
    ensures Low32(Signed(s)) == Unsigned(s)
  {
    Pow256Four();
  }

  lemma UnitRoundTrip(u: bv32)
    ensures (u as int) as bv32 == u
  {}

  /** The decoding half of `ReadFile`: a length that is not a multiple of
      4 means a state byte comes first; otherwise the file is an old one
      without it and holds Wah units. Then length/4 words are read from
      byte j, 0 or 1. */
  function Parse(b: seq<Byte>): (r: (bv8, seq<bv32>))
    ensures |r.1| == |b| / 4
  {
    var tagged := |b| % 4 > 0;
    var t: bv8 := if tagged then b[0] as bv8 else KindValue(WahKind);
    var j := if tagged then 1 else 0;
    (t, seq(|b| / 4, i requires 0 <= i < |b| / 4 => ReadUnit(b, 4 * i + j)))
  }

  /** Reading back a unit's bytes gives the unit. */
  lemma ReadUnitBytes(b: seq<Byte>, start: nat, u: bv32)
    requires start + 4 <= |b| && b[start..start + 4] == UnitBytes(u)
    ensures ReadUnit(b, start) == u
  {
    Pow256Four();
    var s := b[start..start + 4];
    UnsignedLeBytes(u as int, 4);
    Low32Signed(s);
    assert Low32(ToInt(b, start, 4, false).value) == u as int;
    UnitRoundTrip(u);
  }

  lemma {:induction false} UnitsBytesAt(us: seq<bv32>, i: nat)
    requires i < |us|
    ensures UnitsBytes(us)[4 * i..4 * i + 4] == UnitBytes(us[i])
  {
    if i > 0 {
      UnitsBytesAt(us[1..], i - 1);
      assert UnitsBytes(us)[4 * i..4 * i + 4] == UnitsBytes(us[1..])[4 * (i - 1)..4 * (i - 1) + 4];
    }
  }

  /** At byte level a written file reads back as the state byte and the
      units that were written. */
  lemma ParseLayout(k: Kind, us: seq<bv32>)
    ensures Parse(Layout(k, us)) == (KindValue(k), us)
  {
    var b := Layout(k, us);
    TagRoundTrip(k);
    forall i | 0 <= i < |us|
      ensures Parse(b).1[i] == us[i]
    {
      UnitsBytesAt(us, i);
      assert b[4 * i + 1..4 * i + 5] == UnitsBytes(us)[4 * i..4 * i + 4];
      ReadUnitBytes(b, 4 * i + 1, us[i]);
    }
    assert Parse(b).1 == us;
  }

  lemma TagRoundTrip(k: Kind)
    ensures TagByte(k) as bv8 == KindValue(k)
  {
    match k
    case BitarrayKind =>
    case WahKind =>
    case IndexesKind =>
    case IndexKind =>
  }

  /** A file of whole words only, with no state byte, is read as Wah
      units from byte 0. */
  lemma ParseLegacy(us: seq<bv32>)
    ensures Parse(UnitsBytes(us)) == (KindValue(WahKind), us)
  {
    var b := UnitsBytes(us);
    forall i | 0 <= i < |us|
      ensures Parse(b).1[i] == us[i]
    {
      UnitsBytesAt(us, i);
      ReadUnitBytes(b, 4 * i, us[i]);
    }
    assert Parse(b).1 == us;
  }

  // ---------------------------------------------------------------------
  // WriteFile and ReadFile
  // ---------------------------------------------------------------------

  /** `WriteFile()`: the bytes saved for the index. An index still in
      Index state has no bitmap to compress and throws. */
  function WriteFile(ix: BoolIndex): (r: Result<seq<Byte>>)
    ensures r.Err? <==> ix.bits.state.Index?
    ensures r.Ok? ==> |r.value| % 4 == 1
    ensures r.Ok? ==>
      Parse(r.value) == (KindValue(GetCompressed(ix.bits).value.0), GetCompressed(ix.bits).value.1)
  {
    var c :- GetCompressed(ix.bits);
    ParseLayout(c.0, c.1);
    Ok(Layout(c.0, c.1))
  }

  /** `ReadFile()`: the decoded units are handed to the `(type, ints)`
      constructor, which makes them a plain bitmap whatever the state
      byte says (and rejects a byte with bit 2 set). */
  function ReadFile(b: seq<Byte>): (r: Result<BoolIndex>)
    ensures r.Ok? <==> Parse(b).0 & 4 == 0
    ensures r.Ok? ==> r.value.bits == BitArray(Bitarray(Parse(b).1), 0, false, false)
  {
    var (t, us) := Parse(b);
    var bits :- FromTag(t, us);
    Ok(BoolIndex(bits))
  }

  /** A saved index reloads as a plain bitmap made of the saved units: a
      compressed bitmap comes back with its WAH units read as bitmap
      words. */
  lemma ReloadRereads(ix: BoolIndex)
    requires ix.bits.state.Bitarray?
    ensures WriteFile(ix).Ok? && ReadFile(WriteFile(ix).value).Ok?
    ensures ReadFile(WriteFile(ix).value).value.bits.state ==
      Bitarray(Codec.Compress(ix.bits.state.bitmap))
  {
  }

  /** The word 0xFFFF_FFFE saved and reloaded: position 2 was set and
      reads as clear afterwards. */
  lemma ReloadExample(ix: BoolIndex)
    requires ix == BoolIndex(BitArray(Bitarray([0xFFFF_FFFE]), 0, false, false))
    ensures WriteFile(ix).Ok? && ReadFile(WriteFile(ix).value).Ok?
    ensures Holds(ix.bits, 2) && !Holds(ReadFile(WriteFile(ix).value).value.bits, 2)
  {
    UncompressWritten.AlignedOnesCompress(ix.bits.state.bitmap);
    assert Off(2) == 2;
  }

  /** The array a saved kind and its units stand for, rebuilt in the state
      they were written from. */
  function Restore(k: Kind, us: seq<bv32>): (x: BitArray)
    ensures !x.def
  {
    match k
    case WahKind => BitArray(Wah(us), 0, false, false)
    case BitarrayKind => BitArray(Bitarray(us), 0, false, false)
    case IndexesKind =>
      BitArray(Indexes(set i | 0 <= i < |us| && Val(us[i]) < 0x8000_0000 :: Val(us[i]) as Record), 0, false, false)
    case IndexKind => BitArray(Index(if |us| > 0 then Val(us[0]) else -1), 0, false, false)
  }

  /** A rebuilt array reads exactly the positions its units store. */
  lemma RestoreStored(k: Kind, us: seq<bv32>, j: Record)
    ensures Holds(Restore(k, us), j) == Stored(k, us, j)
  {
    if k == IndexesKind && Stored(k, us, j) {
      var i :| 0 <= i < |us| && Val(us[i]) == j;
      assert j in Restore(k, us).state.offsets;
    }
  }

  /** `ReadFile` as the file format intends it: the state byte picks the
      state the units are rebuilt in. */
  function ReadFileIntended(b: seq<Byte>): (r: Result<BoolIndex>)
    ensures r.Ok? <==> Parse(b).0 < 4
  {
    var (t, us) := Parse(b);
    if t == 0 then Ok(BoolIndex(Restore(BitarrayKind, us)))
    else if t == 1 then Ok(BoolIndex(Restore(WahKind, us)))
    else if t == 2 then Ok(BoolIndex(Restore(IndexesKind, us)))
    else if t == 3 then Ok(BoolIndex(Restore(IndexKind, us)))
    else Err(NotSupported)
  }

  lemma RestoreKind(k: Kind, us: seq<bv32>)
    ensures ReadFileIntended(Layout(k, us)) == Ok(BoolIndex(Restore(k, us)))
  {
    ParseLayout(k, us);
  }

  /** `WriteFile` with the intended `GetCompressed`; it writes the same
      bytes for a bitmap or WAH array. */
  function WriteFileIntended(ix: BoolIndex): (r: Result<seq<Byte>>)
    ensures r.Err? <==> ix.bits.state.Index?
    ensures !ix.bits.state.Indexes? ==> r == WriteFile(ix)
    ensures r.Ok? ==>
      Parse(r.value) == (KindValue(GetCompressedIntended(ix.bits).value.0), GetCompressedIntended(ix.bits).value.1)
  {
    var c :- GetCompressedIntended(ix.bits);
    ParseLayout(c.0, c.1);
    Ok(Layout(c.0, c.1))
  }

  /** With the intended writing and reading, a saved index reloads with
      every position as it was. The file keeps no default bit, which a
      `BoolIndex` never sets. */
  lemma ReloadIntended(ix: BoolIndex, j: Record)
    requires !ix.bits.def && !ix.bits.state.Index?
    requires ix.bits.state.Bitarray? ==> Codec.GroupCount(|ix.bits.state.bitmap|) < 0x4000_0000
    ensures WriteFileIntended(ix).Ok? && ReadFileIntended(WriteFileIntended(ix).value).Ok?
    ensures Holds(ReadFileIntended(WriteFileIntended(ix).value).value.bits, j) == Holds(ix.bits, j)
  {
    var c := GetCompressedIntended(ix.bits).value;
    RestoreKind(c.0, c.1);
    RestoreStored(c.0, c.1, j);
    GetCompressedStores(ix.bits, j);
  }

  /** Even with the intended reading, the word 0xFFFF_FFFE reloads as WAH
      units on which `Get` decodes position 31 as set, though the saved
      array held it clear. */
  lemma ReloadIntendedFlips(ix: BoolIndex)
    requires ix == BoolIndex(BitArray(Bitarray([0xFFFF_FFFE]), 0, false, false))
    ensures WriteFileIntended(ix).Ok? && ReadFileIntended(WriteFileIntended(ix).value).Ok?
    ensures !Holds(ix.bits, 31)
    ensures Get(ReadFileIntended(WriteFileIntended(ix).value).value.bits, 31).Ok?
    ensures Get(ReadFileIntended(WriteFileIntended(ix).value).value.bits, 31).value.1
  {
    var c := GetCompressed(ix.bits).value;
    RestoreKind(c.0, c.1);
    CompressDecompressWritten(ix.bits);
    assert Restore(c.0, c.1) == CompressBitmap(ix.bits);
  }

  // ---------------------------------------------------------------------
  // Queries and updates
  // ---------------------------------------------------------------------

  /** `QueryEquals(key)`: the bits themselves for true, their cloning
      `Not` for false. */
  function QueryEquals(ix: BoolIndex, key: bool): (r: BitArray)
    ensures key ==> r == ix.bits
    ensures !key ==> r.def == !ix.bits.def
  {
    if key then ix.bits else Not(ix.bits, true)
  }

  /** `QueryNotEquals(key)`. */
  function QueryNotEquals(ix: BoolIndex, key: bool): (r: BitArray)
    ensures r == QueryEquals(ix, !key)
  {
    QueryEquals(ix, !key)
  }

  /** In the states whose copy keeps the content, the records equal to
      false are exactly those not equal to true. */
  lemma QueriesComplement(ix: BoolIndex, i: Record)
    requires ix.bits.state.Index? || ix.bits.state.Bitarray?
    ensures Holds(QueryEquals(ix, false), i) == !Holds(QueryEquals(ix, true), i)
    ensures Holds(QueryNotEquals(ix, true), i) == !Holds(QueryNotEquals(ix, false), i)
  {
    NotFlips(ix.bits, true);
  }

  /** `Set(key, recnum)`: sets the record's bit to key. */
  function SetBit(ix: BoolIndex, key: bool, recnum: Record): (r: Result<BoolIndex>)
    ensures r.Ok? ==> r.value.bits.def == ix.bits.def
    ensures ix.bits.state.Index? ==> r == Err(NullReference)
  {
    var bits :- WahBitArray.Set(ix.bits, recnum, key);
    Ok(BoolIndex(bits))
  }

  /** In a loaded index, inside the bitmap, the record reads back as key
      and every other record is unchanged. */
  lemma SetThenQuery(ix: BoolIndex, key: bool, recnum: Record)
    requires ix.bits.state.Bitarray? && !ix.bits.def && recnum < 32 * |ix.bits.state.bitmap|
    ensures SetBit(ix, key, recnum).Ok?
    ensures forall j: Record ::
      (Holds(QueryEquals(SetBit(ix, key, recnum).value, true), j) == if j == recnum then key else Holds(ix.bits, j))
  {
    SetGetBitmap(ix.bits, recnum, key);
  }

  /** A new index can neither be set nor saved: both reach the bitmap of
      an array that is still in Index state. */
  lemma FreshIsStuck(key: bool, recnum: Record)
    ensures SetBit(Fresh(), key, recnum) == Err(NullReference)
    ensures WriteFile(Fresh()) == Err(NullReference)
  {
  }

  /** `GetKeys()`. */
  function GetKeys(): (r: seq<bool>)
    ensures |r| == 2 && forall b: bool :: b in r
  {
    [true, false]
  }

  /** `GetBits()`: a copy of the bits. */
  function GetBits(ix: BoolIndex): (r: BitArray)
    ensures ix.bits.state.Index? || ix.bits.state.Bitarray? ==>
      forall i: Record :: Holds(r, i) == Holds(ix.bits, i)
  {
    Copy(ix.bits)
  }

  /** `InPlaceOR(left)`: `Or` is a `GenericBitOp` with no WAH operation,
      so it reaches the unimplemented finalisation and throws. */
  function InPlaceOr(ix: BoolIndex, left: BitArray): (r: Result<BoolIndex>)
    ensures r == Err(NotImplemented)
  {
    match GenericBitOp(ix.bits, left, OrOp, 0)
    case Ok(bits) => Ok(BoolIndex(bits))
    case Err(e) => Err(e)
  }
}

=== FILE: codec.dfy ===
/** The WAH codec of `WAHBitarray2`: `Take31Bits`, `Compress` and the
    intended `Uncompress`.

    A dense bitmap of n words is read as GroupCount(n) groups of 31 bits,
    group g starting at bit 31 * g; bits past the array read as zero.
    `Compress` turns the group sequence into literal and fill units, and
    `Expand` (module Wah) turns the units back into groups. */
module Codec {
  import opened Bits
  import opened Results
  import opened Wah
  import BitHelper

  // ---------------------------------------------------------------------
  // Take31Bits
  // ---------------------------------------------------------------------

  /** The word after word p, or zero past the end (`l2 = 0`). */
  function NextWord(data: seq<bv32>, p: nat): bv32 {
    if p + 1 < |data| then data[p + 1] else 0
  }

  /** The 31 bits starting at offset k of word p. */
  function TakeAt(data: seq<bv32>, p: nat, k: bv5): bv32
    requires p < |data|
  {
    Window(data[p], NextWord(data, p), k)
  }

  /** `Take31Bits(data, index)`: the 31 bits from bit index on, as a
      literal. Reading `data[index >> 5]` throws when that word does not
      exist. */
  function Take31Bits(data: seq<bv32>, index: nat): (r: Result<bv32>)
    ensures r.Ok? <==> index / 32 < |data|
    ensures r.Ok? ==> IsLiteral(r.value)
  {
    var pointer := index / 32;
    if pointer >= |data| then Err(IndexOutOfRange)
    else
      WindowTop(data[pointer], NextWord(data, pointer), Off(index));
      Ok(TakeAt(data, pointer, Off(index)))
  }

  lemma WordBitZero(k: bv5)
    ensures !WordBit(0, k)
  {}

  /** The next word, as a bit source, is word p + 1 or nothing. */
  lemma NextWordBit(data: seq<bv32>, p: nat, k: bv5)
    ensures WordBit(NextWord(data, p), k) == BitHelper.BitAt(data, p + 1, k)
  {
    if p + 1 >= |data| {
      WordBitZero(k);
    }
  }

  /** Bit j of the window at offset k of word p is bit k + j of word p,
      or of word p + 1 once past the end of word p. */
  lemma TakeAtBit(data: seq<bv32>, p: nat, k: bv5, j: bv5)
    requires p < |data| && j < 31
    ensures GroupBit(TakeAt(data, p, k), j) ==
      if (k as bv8) + (j as bv8) < 32 then BitHelper.BitAt(data, p, k + j)
      else BitHelper.BitAt(data, p + 1, k + j)
  {
    if (k as bv8) + (j as bv8) < 32 {
      TakeAtBitSame(data, p, k, j);
    } else {
      TakeAtBitNext(data, p, k, j);
    }
  }

  lemma TakeAtBitSame(data: seq<bv32>, p: nat, k: bv5, j: bv5)
    requires p < |data| && j < 31 && (k as bv8) + (j as bv8) < 32
    ensures GroupBit(TakeAt(data, p, k), j) == BitHelper.BitAt(data, p, k + j)
  {
    WindowBit(data[p], NextWord(data, p), k, j);
  }

  lemma TakeAtBitNext(data: seq<bv32>, p: nat, k: bv5, j: bv5)
    requires p < |data| && j < 31 && (k as bv8) + (j as bv8) >= 32
    ensures GroupBit(TakeAt(data, p, k), j) == BitHelper.BitAt(data, p + 1, k + j)
  {
    WindowBit(data[p], NextWord(data, p), k, j);
    NextWordBit(data, p, k + j);
  }

  /** Adding a group offset j to a position: the in-word offset adds with
      wrap-around, and the word advances exactly when it wraps. */
  lemma OffSum(index: nat, j: bv5)
    requires j < 31
    ensures Off(index + j as int) == Off(index) + j
    ensures (Off(index) as bv8) + (j as bv8) < 32 <==> index % 32 + j as int < 32
    ensures index % 32 + j as int < 32 ==> (index + j as int) / 32 == index / 32
    ensures index % 32 + j as int >= 32 ==> (index + j as int) / 32 == index / 32 + 1
  {
    ModSum(index, j as int);
    if index % 32 + j as int < 32 {
      OffNoCarry(index, j);
    } else {
      OffCarry(index, j);
    }
  }

  lemma OffNoCarry(index: nat, j: bv5)
    requires index % 32 + j as int < 32
    ensures Off(index + j as int) == Off(index) + j && (Off(index) as bv8) + (j as bv8) < 32
  {
    OffSumValue(index, j);
    NoCarry(Off(index), j, Off(index + j as int));
  }

  lemma OffCarry(index: nat, j: bv5)
    requires index % 32 + j as int >= 32
    ensures Off(index + j as int) == Off(index) + j && (Off(index) as bv8) + (j as bv8) >= 32
  {
    OffSumValue(index, j);
    Carry(Off(index), j, Off(index + j as int));
  }

  /** The offsets of index and index + j as numbers. */
  lemma OffSumValue(index: nat, j: bv5)
    ensures index % 32 + j as int < 32 ==> Off(index) as int + j as int == Off(index + j as int) as int
    ensures index % 32 + j as int >= 32 ==> Off(index) as int + j as int == Off(index + j as int) as int + 32
  {
    ModSum(index, j as int);
    OffValue(index);
    OffValue(index + j as int);
  }

  lemma ModSum(index: nat, j: nat)
    requires j < 32
    ensures index % 32 + j < 32 ==> (index + j) % 32 == index % 32 + j && (index + j) / 32 == index / 32
    ensures index % 32 + j >= 32 ==> (index + j) % 32 == index % 32 + j - 32 && (index + j) / 32 == index / 32 + 1
  {}

  lemma NoCarry(x: bv5, y: bv5, z: bv5)
    requires x as int + y as int == z as int
    ensures z == x + y && (x as bv8) + (y as bv8) < 32
  {}

  lemma Carry(x: bv5, y: bv5, z: bv5)
    requires x as int + y as int == z as int + 32
    ensures z == x + y && (x as bv8) + (y as bv8) >= 32
  {}

  /** The candidate property of `Take31Bits`: bit j of the result is bit
      index + j of the bitmap, MSB first, and zero past the array. */
  lemma Take31BitsBit(data: seq<bv32>, index: nat, j: bv5)
    requires index / 32 < |data| && j < 31
    ensures GroupBit(Take31Bits(data, index).value, j) == BitHelper.BitmapGet(data, index + j as int)
  {
    OffSum(index, j);
    TakeAtBit(data, index / 32, Off(index), j);
  }

  // ---------------------------------------------------------------------
  // The group view of a dense bitmap
  // ---------------------------------------------------------------------

  /** The number of 31-bit groups `Compress` reads from n words: the loop
      visits i = 0, 31, 62, ... while i < 32 * n. */
  function GroupCount(n: nat): (g: nat)
    ensures 31 * g >= 32 * n && 31 * (g - 1) < 32 * n
  {
    (32 * n + 30) / 31
  }

  /** Group g of a dense bitmap: the 31 bits at bit 31 * g. */
  function GroupAt(data: seq<bv32>, g: nat): (r: bv32)
    requires 31 * g < 32 * |data|
    ensures IsLiteral(r)
  {
    Take31Bits(data, 31 * g).value
  }

  /** All groups of a dense bitmap, in order. */
  function GroupsOf(data: seq<bv32>): (r: seq<bv32>)
    ensures |r| == GroupCount(|data|)
    ensures forall g :: 0 <= g < |r| ==> 31 * g < 32 * |data| && r[g] == GroupAt(data, g)
  {
    seq(GroupCount(|data|), g requires 0 <= g < GroupCount(|data|) => GroupAt(data, g))
  }

  // ---------------------------------------------------------------------
  // Compress
  // ---------------------------------------------------------------------

  /** `FlushOnes`: append the pending ones fill, if any. */
  function FlushOnes(acc: seq<bv32>, ones: bv32): seq<bv32> {
    if ones != 0 then acc + [0xC000_0000 | ones] else acc
  }

  /** `FlushZeros`: append the pending zeros fill, if any. */
  function FlushZeros(acc: seq<bv32>, zeros: bv32): seq<bv32> {
    if zeros != 0 then acc + [0x8000_0000 | zeros] else acc
  }

  /** The loop of `Compress` from group g on, over the groups gs the loop
      reads one by one with `Take31Bits`, with the uint run counters `zeros`
      and `ones` and the units `acc` emitted so far. */
  function CompressFrom(gs: seq<bv32>, g: nat, zeros: bv32, ones: bv32, acc: seq<bv32>): seq<bv32>
    decreases |gs| - g
  {
    if g >= |gs| then
      FlushZeros(FlushOnes(acc, ones), zeros)
    else
      var num := gs[g];
      if num == 0 then
        CompressFrom(gs, g + 1, zeros + 1, 0, FlushOnes(acc, ones))
      else if num == OnesGroup then
        CompressFrom(gs, g + 1, 0, ones + 1, FlushZeros(acc, zeros))
      else
        CompressFrom(gs, g + 1, 0, 0, FlushZeros(FlushOnes(acc, ones), zeros) + [num])
  }

  /** `WAHBitarray2.Compress`: the loop visits i = 31 * g for every group g
      of the bitmap. */
  function Compress(data: seq<bv32>): seq<bv32> {
    CompressFrom(GroupsOf(data), 0, 0, 0, [])
  }

  /** Every element is a 31-bit group. */
  predicate AllLiteral(gs: seq<bv32>) {
    forall i :: 0 <= i < |gs| ==> IsLiteral(gs[i])
  }

  /** The shape half of the `Compress` loop invariant, with the pending run
      lengths z and o as numbers: at most one run is pending, the units
      emitted so far are canonical, and the pending run cannot extend the
      last emitted fill. */
  ghost predicate LoopShape(acc: seq<bv32>, z: nat, o: nat) {
    (z == 0 || o == 0) &&
    Canonical(acc) &&
    (z == 0 && o == 0 ==> |acc| == 0 || IsLiteral(acc[|acc| - 1])) &&
    (z != 0 ==> !EndsWithFill(acc, false)) &&
    (o != 0 ==> !EndsWithFill(acc, true))
  }

  /** The content half: the emitted units followed by the pending run stand
      for the first g groups of gs. */
  ghost predicate LoopContent(gs: seq<bv32>, g: nat, z: nat, o: nat, acc: seq<bv32>) {
    Covers(gs, g, z, o, Expand(acc))
  }

  /** The groups e followed by the pending run are the first g of gs. */
  ghost predicate Covers(gs: seq<bv32>, g: nat, z: nat, o: nat, e: seq<bv32>) {
    g <= |gs| && e + Run(false, z) + Run(true, o) == gs[..g]
  }

  /** The loop invariant over the uint counters of the source. */
  ghost predicate CompressInv(gs: seq<bv32>, g: nat, zeros: bv32, ones: bv32, acc: seq<bv32>) {
    LoopShape(acc, Val(zeros), Val(ones)) && LoopContent(gs, g, Val(zeros), Val(ones), acc)
  }

  /** Appending one unit appends its groups. */
  lemma ExpandSnoc(acc: seq<bv32>, u: bv32)
    ensures Expand(acc + [u]) == Expand(acc) + UnitGroups(u)
  {
    ExpandAppend(acc, [u]);
    ExpandOne(u);
  }

  /** Appending a fill of value b and positive count n that does not extend
      a trailing fill of the same value keeps the array canonical and
      appends the run it stands for. */
  lemma AppendFill(acc: seq<bv32>, u: bv32, b: bool, n: nat)
    requires Canonical(acc) && !EndsWithFill(acc, b)
    requires !IsLiteral(u) && FillBit(u) == b && FillCount(u) == n && n >= 1
    ensures Canonical(acc + [u]) && EndsWithFill(acc + [u], b)
    ensures Expand(acc + [u]) == Expand(acc) + Run(b, n)
  {
    ExpandSnoc(acc, u);
    CoalescedAppend(acc, u);
  }

  /** The unit `FlushOnes` emits is a ones fill of the pending count. */
  lemma OnesUnit(ones: bv32)
    requires ones & 0xC000_0000 == 0
    ensures !IsLiteral(0xC000_0000 | ones) && FillBit(0xC000_0000 | ones)
    ensures FillCount(0xC000_0000 | ones) == Val(ones)
  {
    OnesUnitFlags(ones);
    OnesUnitCount(ones);
  }

  lemma OnesUnitFlags(ones: bv32)
    ensures !IsLiteral(0xC000_0000 | ones) && FillBit(0xC000_0000 | ones)
  {}

  lemma OnesUnitCount(ones: bv32)
    requires ones & 0xC000_0000 == 0
    ensures (0xC000_0000 | ones) & CountBitMask == ones
  {}

  /** The unit `FlushZeros` emits is a zeros fill of the pending count. */
  lemma ZerosUnit(zeros: bv32)
    requires zeros & 0xC000_0000 == 0
    ensures !IsLiteral(0x8000_0000 | zeros) && !FillBit(0x8000_0000 | zeros)
    ensures FillCount(0x8000_0000 | zeros) == Val(zeros)
  {
    ZerosUnitFlags(zeros);
    ZerosUnitCount(zeros);
  }

  lemma ZerosUnitFlags(zeros: bv32)
    requires zeros & 0xC000_0000 == 0
    ensures !IsLiteral(0x8000_0000 | zeros) && !FillBit(0x8000_0000 | zeros)
  {}

  lemma ZerosUnitCount(zeros: bv32)
    requires zeros & 0xC000_0000 == 0
    ensures (0x8000_0000 | zeros) & CountBitMask == zeros
  {}

  /** Flushing a pending ones run of fewer than 2^30 groups emits one fill
      that stands for exactly that run. */
  lemma FlushOnesSpec(acc: seq<bv32>, ones: bv32)
    requires Canonical(acc) && Val(ones) < 0x4000_0000
    requires Val(ones) != 0 ==> !EndsWithFill(acc, true)
    ensures Canonical(FlushOnes(acc, ones))
    ensures Expand(FlushOnes(acc, ones)) == Expand(acc) + Run(true, Val(ones))
    ensures Val(ones) != 0 ==> EndsWithFill(FlushOnes(acc, ones), true)
    ensures Val(ones) == 0 ==> FlushOnes(acc, ones) == acc
  {
    if ones == 0 {
      ValZero();
    } else {
      ValHigh(ones);
      ValPos(ones);
      OnesUnit(ones);
      AppendFill(acc, 0xC000_0000 | ones, true, Val(ones));
    }
  }

  /** The same for a pending zeros run. */
  lemma FlushZerosSpec(acc: seq<bv32>, zeros: bv32)
    requires Canonical(acc) && Val(zeros) < 0x4000_0000
    requires Val(zeros) != 0 ==> !EndsWithFill(acc, false)
    ensures Canonical(FlushZeros(acc, zeros))
    ensures Expand(FlushZeros(acc, zeros)) == Expand(acc) + Run(false, Val(zeros))
    ensures Val(zeros) != 0 ==> EndsWithFill(FlushZeros(acc, zeros), false)
    ensures Val(zeros) == 0 ==> FlushZeros(acc, zeros) == acc
  {
    if zeros == 0 {
      ValZero();
    } else {
      ValHigh(zeros);
      ValPos(zeros);
      ZerosUnit(zeros);
      AppendFill(acc, 0x8000_0000 | zeros, false, Val(zeros));
    }
  }

  /** A prefix grows by one element at its end. */
  lemma TakeSnoc<T>(xs: seq<T>, n: nat)
    requires n < |xs|
    ensures xs[..n + 1] == xs[..n] + [xs[n]]
  {}

  /** A run grows by one group at its end. */
  lemma RunSnoc(b: bool, n: nat)
    ensures Run(b, n + 1) == Run(b, n) + [FillGroup(b)]
  {}

  /** The pending runs never exceed the number of groups read. */
  lemma LoopBound(gs: seq<bv32>, g: nat, z: nat, o: nat, e: seq<bv32>)
    requires Covers(gs, g, z, o, e)
    ensures z + o <= g
  {
    assert |e + Run(false, z) + Run(true, o)| == g;
  }

  /** A uint counter below 2^30 - 1 counts up without wrapping. */
  lemma CountUp(c: bv32)
    requires Val(c) < 0x3FFF_FFFF
    ensures Val(c + 1) == Val(c) + 1
  {
    ValHigh(c);
    ValInc(c);
  }

  /** A zero group: the ones run is flushed into acc1 and the zeros run
      grows; the shape is kept. */
  lemma ZeroShape(acc: seq<bv32>, z: nat, o: nat, acc1: seq<bv32>)
    requires LoopShape(acc, z, o)
    requires Canonical(acc1)
    requires o != 0 ==> EndsWithFill(acc1, true)
    requires o == 0 ==> acc1 == acc
    ensures LoopShape(acc1, z + 1, 0)
  {}

  /** ... and the content. */
  lemma ZeroContent(gs: seq<bv32>, g: nat, z: nat, o: nat, e: seq<bv32>, e1: seq<bv32>)
    requires Covers(gs, g, z, o, e) && (z == 0 || o == 0) && g < |gs| && gs[g] == 0
    requires e1 == e + Run(true, o)
    ensures Covers(gs, g + 1, z + 1, 0, e1)
  {
    RunSnoc(false, z);
    TakeSnoc(gs, g);
    if o != 0 {
      assert Run(false, z) == [];
    }
    assert e1 + Run(false, z + 1) + Run(true, 0) == gs[..g + 1];
  }

  /** An all-ones group: the zeros run is flushed into acc1 and the ones run
      grows; the shape is kept. */
  lemma OnesShape(acc: seq<bv32>, z: nat, o: nat, acc1: seq<bv32>)
    requires LoopShape(acc, z, o)
    requires Canonical(acc1)
    requires z != 0 ==> EndsWithFill(acc1, false)
    requires z == 0 ==> acc1 == acc
    ensures LoopShape(acc1, 0, o + 1)
  {}

  /** ... and the content. */
  lemma OnesContent(gs: seq<bv32>, g: nat, z: nat, o: nat, e: seq<bv32>, e1: seq<bv32>)
    requires Covers(gs, g, z, o, e) && (z == 0 || o == 0) && g < |gs| && gs[g] == OnesGroup
    requires e1 == e + Run(false, z)
    ensures Covers(gs, g + 1, 0, o + 1, e1)
  {
    RunSnoc(true, o);
    TakeSnoc(gs, g);
    if z != 0 {
      assert Run(true, o) == [];
    }
    assert e1 + Run(false, 0) + Run(true, o + 1) == gs[..g + 1];
  }

  /** A mixed group: both runs are flushed into acc2 and the group follows
      as a literal; the shape is kept. */
  lemma LiteralShape(acc2: seq<bv32>, num: bv32)
    requires Canonical(acc2) && IsLiteral(num) && num != 0 && num != OnesGroup
    ensures LoopShape(acc2 + [num], 0, 0)
  {
    CoalescedAppend(acc2, num);
  }

  /** ... and the content. */
  lemma LiteralContent(gs: seq<bv32>, g: nat, z: nat, o: nat, e: seq<bv32>, e2: seq<bv32>)
    requires Covers(gs, g, z, o, e) && (z == 0 || o == 0) && g < |gs|
    requires e2 == e + Run(true, o) + Run(false, z) + [gs[g]]
    ensures Covers(gs, g + 1, 0, 0, e2)
  {
    if o != 0 {
      assert Run(false, z) == [];
    }
    TakeSnoc(gs, g);
    assert e2 + Run(false, 0) + Run(true, 0) == gs[..g + 1];
  }

  /** The loop ends: both runs are flushed and e2 is all of gs. */
  lemma FinalContent(gs: seq<bv32>, z: nat, o: nat, e: seq<bv32>, e2: seq<bv32>)
    requires Covers(gs, |gs|, z, o, e) && (z == 0 || o == 0)
    requires e2 == e + Run(true, o) + Run(false, z)
    ensures e2 == gs
  {
    if o != 0 {
      assert Run(false, z) == [];
    }
    assert gs[..|gs|] == gs;
  }

  /** A zero group extends the zeros run. */
  lemma ZeroStep(gs: seq<bv32>, g: nat, zeros: bv32, ones: bv32, acc: seq<bv32>)
    requires |gs| < 0x4000_0000
    requires g < |gs| && gs[g] == 0
    ensures CompressInv(gs, g, zeros, ones, acc) ==> CompressInv(gs, g + 1, zeros + 1, 0, FlushOnes(acc, ones))
  {
    if CompressInv(gs, g, zeros, ones, acc) {
      LoopBound(gs, g, Val(zeros), Val(ones), Expand(acc));
      FlushOnesSpec(acc, ones);
      CountUp(zeros);
      ValZero();
      ZeroShape(acc, Val(zeros), Val(ones), FlushOnes(acc, ones));
      ZeroContent(gs, g, Val(zeros), Val(ones), Expand(acc), Expand(FlushOnes(acc, ones)));
    }
  }

  /** An all-ones group extends the ones run. */
  lemma OnesStep(gs: seq<bv32>, g: nat, zeros: bv32, ones: bv32, acc: seq<bv32>)
    requires |gs| < 0x4000_0000
    requires g < |gs| && gs[g] == OnesGroup
    ensures CompressInv(gs, g, zeros, ones, acc) ==> CompressInv(gs, g + 1, 0, ones + 1, FlushZeros(acc, zeros))
  {
    if CompressInv(gs, g, zeros, ones, acc) {
      LoopBound(gs, g, Val(zeros), Val(ones), Expand(acc));
      FlushZerosSpec(acc, zeros);
      CountUp(ones);
      ValZero();
      OnesShape(acc, Val(zeros), Val(ones), FlushZeros(acc, zeros));
      OnesContent(gs, g, Val(zeros), Val(ones), Expand(acc), Expand(FlushZeros(acc, zeros)));
    }
  }

  /** A mixed group flushes both runs and is emitted as a literal. */
  lemma LiteralStep(gs: seq<bv32>, g: nat, zeros: bv32, ones: bv32, acc: seq<bv32>)
    requires |gs| < 0x4000_0000
    requires g < |gs| && IsLiteral(gs[g]) && gs[g] != 0 && gs[g] != OnesGroup
    ensures CompressInv(gs, g, zeros, ones, acc) ==> CompressInv(gs, g + 1, 0, 0, FlushZeros(FlushOnes(acc, ones), zeros) + [gs[g]])
  {
    if CompressInv(gs, g, zeros, ones, acc) {
      LoopBound(gs, g, Val(zeros), Val(ones), Expand(acc));
      FlushOnesSpec(acc, ones);
      FlushZerosSpec(FlushOnes(acc, ones), zeros);
      ValZero();
      var acc2 := FlushZeros(FlushOnes(acc, ones), zeros);
      LiteralShape(acc2, gs[g]);
      ExpandSnoc(acc2, gs[g]);
      LiteralContent(gs, g, Val(zeros), Val(ones), Expand(acc), Expand(acc2 + [gs[g]]));
    }
  }

  /** After the last group both runs are flushed and the result stands for
      every group. */
  lemma FinalStep(gs: seq<bv32>, g: nat, zeros: bv32, ones: bv32, acc: seq<bv32>)
    requires |gs| < 0x4000_0000
    requires g >= |gs|
    ensures CompressInv(gs, g, zeros, ones, acc) ==> Encodes(gs, FlushZeros(FlushOnes(acc, ones), zeros))
  {
    if CompressInv(gs, g, zeros, ones, acc) {
      LoopBound(gs, g, Val(zeros), Val(ones), Expand(acc));
      FlushOnesSpec(acc, ones);
      FlushZerosSpec(FlushOnes(acc, ones), zeros);
      FinalContent(gs, Val(zeros), Val(ones), Expand(acc), Expand(FlushZeros(FlushOnes(acc, ones), zeros)));
    }
  }

  /** r is a lossless canonical encoding of the groups gs. */
  ghost predicate Encodes(gs: seq<bv32>, r: seq<bv32>) {
    Canonical(r) && Expand(r) == gs
  }

  /** From any state satisfying the loop invariant, the loop ends with a
      canonical unit array that stands for every group. The invariant is an
      antecedent rather than a precondition so that each step proof sees it
      as one fact. */
  lemma {:induction false} CompressFromSpec(gs: seq<bv32>, g: nat, zeros: bv32, ones: bv32, acc: seq<bv32>)
    requires |gs| < 0x4000_0000 && AllLiteral(gs)
    ensures CompressInv(gs, g, zeros, ones, acc) ==> Encodes(gs, CompressFrom(gs, g, zeros, ones, acc))
    decreases |gs| - g, 1
  {
    if g >= |gs| {
      FinalStep(gs, g, zeros, ones, acc);
    } else if gs[g] == 0 {
      ZeroBranch(gs, g, zeros, ones, acc);
    } else if gs[g] == OnesGroup {
      OnesBranch(gs, g, zeros, ones, acc);
    } else {
      LiteralBranch(gs, g, zeros, ones, acc);
    }
  }

  lemma {:induction false} ZeroBranch(gs: seq<bv32>, g: nat, zeros: bv32, ones: bv32, acc: seq<bv32>)
    requires |gs| < 0x4000_0000 && AllLiteral(gs)
    requires g < |gs| && gs[g] == 0
    ensures CompressInv(gs, g, zeros, ones, acc) ==> Encodes(gs, CompressFrom(gs, g, zeros, ones, acc))
    decreases |gs| - g, 0
  {
    ZeroStep(gs, g, zeros, ones, acc);
    CompressFromSpec(gs, g + 1, zeros + 1, 0, FlushOnes(acc, ones));
  }

  lemma {:induction false} OnesBranch(gs: seq<bv32>, g: nat, zeros: bv32, ones: bv32, acc: seq<bv32>)
    requires |gs| < 0x4000_0000 && AllLiteral(gs)
    requires g < |gs| && gs[g] == OnesGroup
    ensures CompressInv(gs, g, zeros, ones, acc) ==> Encodes(gs, CompressFrom(gs, g, zeros, ones, acc))
    decreases |gs| - g, 0
  {
    OnesStep(gs, g, zeros, ones, acc);
    CompressFromSpec(gs, g + 1, 0, ones + 1, FlushZeros(acc, zeros));
  }

  lemma {:induction false} LiteralBranch(gs: seq<bv32>, g: nat, zeros: bv32, ones: bv32, acc: seq<bv32>)
    requires |gs| < 0x4000_0000 && AllLiteral(gs)
    requires g < |gs| && gs[g] != 0 && gs[g] != OnesGroup
    ensures CompressInv(gs, g, zeros, ones, acc) ==> Encodes(gs, CompressFrom(gs, g, zeros, ones, acc))
    decreases |gs| - g, 0
  {
    LiteralStep(gs, g, zeros, ones, acc);
    CompressFromSpec(gs, g + 1, 0, 0, FlushZeros(FlushOnes(acc, ones), zeros) + [gs[g]]);
  }

  /** `Compress` is lossless and canonical: its units expand to exactly the
      groups of the bitmap, every fill has a positive count, adjacent fills
      differ in value, and no literal is all zeros or all ones. Needs fewer
      than 2^30 groups, where the uint counters still fit the 30-bit count
      field. */
  lemma CompressSpec(data: seq<bv32>)
    requires GroupCount(|data|) < 0x4000_0000
    ensures Canonical(Compress(data))
    ensures Expand(Compress(data)) == GroupsOf(data)
  {
    CompressGroups(GroupsOf(data));
  }

  /** The loop of `Compress` encodes any stream of fewer than 2^30 groups
      canonically and without loss. */
  lemma CompressGroups(gs: seq<bv32>)
    requires |gs| < 0x4000_0000 && AllLiteral(gs)
    ensures Canonical(CompressFrom(gs, 0, 0, 0, []))
    ensures Expand(CompressFrom(gs, 0, 0, 0, [])) == gs
  {
    ValZero();
    assert Expand([]) == [];
    assert gs[..0] == [];
    CompressFromSpec(gs, 0, 0, 0, []);
  }

  // ---------------------------------------------------------------------
  // Uncompress, as intended
  // ---------------------------------------------------------------------

  /** Group g of gs, or an all-zero group past the end. */
  function GroupOrZero(gs: seq<bv32>, g: nat): bv32 {
    if g < |gs| then gs[g] else 0
  }

  /** Word w starts at bit 32 * w = 31 * (w + w / 31) + w % 31: in group
      w + w / 31, at offset w % 31. */
  function WordOffset(w: nat): (o: bv5)
    ensures o < 31
  {
    Small5Value(w % 31);
    Small5(w % 31)
  }

  /** Word w of the bitmap a group sequence stands for. */
  function PackWord(gs: seq<bv32>, w: nat): bv32 {
    var g := w + w / 31;
    Pack(GroupOrZero(gs, g), GroupOrZero(gs, g + 1), WordOffset(w))
  }

  /** `Uncompress` as its design intends: null stays null; otherwise the
      units are expanded into groups and the groups re-cut into 32-bit words,
      as many as the groups fill completely (the final `index / 32`). */
  function Uncompress(data: Option<seq<bv32>>): (r: Option<seq<bv32>>)
    ensures r.None? <==> data.None?
    ensures data.Some? ==> |r.value| == |Expand(data.value)| * 31 / 32
  {
    match data
    case None => None
    case Some(us) =>
      Some(PackWords(Expand(us)))
  }

  /** The words a group sequence fills completely. */
  function PackWords(gs: seq<bv32>): (r: seq<bv32>)
    ensures |r| == |gs| * 31 / 32
    ensures forall w :: 0 <= w < |r| ==> r[w] == PackWord(gs, w)
  {
    seq(|gs| * 31 / 32, w requires 0 <= w => PackWord(gs, w))
  }

  /** A position whose offset is known as a number has that offset. */
  lemma OffIs(n: nat, x: bv5)
    requires n % 32 == x as int
    ensures Off(n) == x
  {
    OffValue(n);
  }

  lemma NegValue(y: bv5)
    requires y != 0
    ensures (0 - y) as int == 32 - y as int
  {}

  lemma SubValue(y: bv5)
    requires y < 31
    ensures (31 - y) as int == 31 - y as int
  {}

  /** Group g read through the words: the window at its bit position. */
  lemma GroupWindow(data: seq<bv32>, g: nat, p: nat, k: bv5)
    requires 31 * g < 32 * |data| && p == 31 * g / 32 && k == Off(31 * g)
    ensures p < |data| && GroupsOf(data)[g] == Window(data[p], NextWord(data, p), k)
  {}

  /** n words are 31 * GroupCount(n) / 32 words again. */
  lemma WordCountOfGroups(n: nat)
    ensures GroupCount(n) * 31 / 32 == n
  {
    var g := GroupCount(n);
    assert 32 * n <= g * 31 < 32 * n + 32;
  }

  /** Where word w lies among the groups. */
  lemma WordGroup(w: nat)
    ensures 31 * (w + w / 31) + w % 31 == 32 * w
  {}

  /** The two groups under a word w that starts group g = w + w / 31:
      g at offset 0 of word w, and g + 1 at offset 31 of it. */
  lemma AlignedOffsets(w: nat)
    requires w % 31 == 0
    ensures WordOffset(w) == 0
    ensures 31 * (w + w / 31) / 32 == w && Off(31 * (w + w / 31)) == 0
    ensures 31 * (w + w / 31 + 1) / 32 == w && Off(31 * (w + w / 31 + 1)) == 31
  {
    WordGroup(w);
    OffIs(31 * (w + w / 31), 0);
    OffIs(31 * (w + w / 31 + 1), 31);
  }

  /** A word that starts a group comes back from that group and the next. */
  lemma PackWordAligned(data: seq<bv32>, w: nat)
    requires w < |data| && w % 31 == 0
    ensures PackWord(GroupsOf(data), w) == data[w]
  {
    var g := w + w / 31;
    WordGroup(w);
    AlignedOffsets(w);
    GroupWindow(data, g, w, 0);
    GroupWindow(data, g + 1, w, 31);
    PackAligned(data[w], NextWord(data, w));
  }

  /** The two groups under a word that starts o = w % 31 bits into group
      g = w + w / 31: g began 32 - o bits into word w - 1, and g + 1 begins
      31 - o bits into word w. */
  lemma InnerOffsets(w: nat)
    requires w % 31 != 0
    ensures WordOffset(w) != 0
    ensures 31 * (w + w / 31) / 32 == w - 1 && Off(31 * (w + w / 31)) == 0 - WordOffset(w)
    ensures 31 * (w + w / 31 + 1) / 32 == w && Off(31 * (w + w / 31 + 1)) == 31 - WordOffset(w)
  {
    var o := WordOffset(w);
    WordGroup(w);
    Small5Value(w % 31);
    NegValue(o);
    SubValue(o);
    OffIs(31 * (w + w / 31), 0 - o);
    OffIs(31 * (w + w / 31 + 1), 31 - o);
  }

  /** The group under the start of a word w that starts inside a group:
      it began in word w - 1. */
  lemma InnerLowGroup(data: seq<bv32>, w: nat)
    requires w < |data| && w % 31 != 0
    ensures GroupOrZero(GroupsOf(data), w + w / 31) == Window(data[w - 1], data[w], 0 - WordOffset(w))
  {
    WordGroup(w);
    InnerOffsets(w);
    GroupWindow(data, w + w / 31, w - 1, 0 - WordOffset(w));
  }

  /** The next group, which begins inside word w. */
  lemma InnerHighGroup(data: seq<bv32>, w: nat)
    requires w < |data| && w % 31 != 0
    ensures GroupOrZero(GroupsOf(data), w + w / 31 + 1) == Window(data[w], NextWord(data, w), 31 - WordOffset(w))
  {
    WordGroup(w);
    InnerOffsets(w);
    GroupWindow(data, w + w / 31 + 1, w, 31 - WordOffset(w));
  }

  /** A word that starts inside a group comes back from that group, which
      began in the previous word, and the next. */
  lemma PackWordInner(data: seq<bv32>, w: nat)
    requires w < |data| && w % 31 != 0
    ensures PackWord(GroupsOf(data), w) == data[w]
  {
    assert WordOffset(w) != 0 by {
      InnerOffsets(w);
    }
    InnerLowGroup(data, w);
    InnerHighGroup(data, w);
    PackInner(data[w - 1], data[w], NextWord(data, w), WordOffset(w));
  }

  /** Uncompressing the groups of a bitmap gives the bitmap back. */
  lemma PackGroups(data: seq<bv32>)
    ensures PackWords(GroupsOf(data)) == data
  {
    WordCountOfGroups(|data|);
    forall w | 0 <= w < |data|
      ensures PackWord(GroupsOf(data), w) == data[w]
    {
      if w % 31 == 0 {
        PackWordAligned(data, w);
      } else {
        PackWordInner(data, w);
      }
    }
  }

  /** The round trip: `Uncompress(Compress(data))` is data, word for word,
      for bitmaps of fewer than 2^30 groups. */
  lemma UncompressCompress(data: seq<bv32>)
    requires GroupCount(|data|) < 0x4000_0000
    ensures Uncompress(Some(Compress(data))) == Some(data)
  {
    CompressSpec(data);
    PackGroups(data);
  }
}

=== FILE: helper.dfy ===
/** The small arithmetic and byte helpers of `RaptorDB.Common.Helper`:
    `Log2`, the byte-array comparison `Cmp`, and the conversions between
    16-, 32- and 64-bit integers and their bytes. Integers are stored
    little-endian, the byte order of the machines the unsafe pointer code
    runs on; `reverse` turns that into big-endian. */
module Helper {
  import opened Results

  type Byte = b: int | 0 <= b < 256

  /** A C# `int`. */
  type Int32 = n: int | -0x8000_0000 <= n < 0x8000_0000

  /** The elements of s in the opposite order (`Array.Reverse`). */
  function Reverse<T>(s: seq<T>): (r: seq<T>)
    ensures |r| == |s|
    ensures forall k :: 0 <= k < |s| ==> r[k] == s[|s| - 1 - k]
  {
    if s == [] then [] else Reverse(s[1..]) + [s[0]]
  }

  lemma ReverseReverse<T>(s: seq<T>)
    ensures Reverse(Reverse(s)) == s
  {
    var r := Reverse(Reverse(s));
    assert forall k :: 0 <= k < |s| ==> r[k] == s[k];
  }

  // ---------------------------------------------------------------------
  // Log2
  // ---------------------------------------------------------------------

  function Pow2(k: nat): (p: nat)
    ensures p >= 1
  {
    if k == 0 then 1 else 2 * Pow2(k - 1)
  }

  /** The number of binary digits of n: the reference for `Log2`. */
  function BitLength(n: nat): nat {
    if n == 0 then 0 else 1 + BitLength(n / 2)
  }

  /** A positive number has BitLength(n) digits exactly when it lies
      between the two powers of two around it. */
  lemma {:induction false} BitLengthBounds(n: nat)
    requires n > 0
    ensures BitLength(n) >= 1
    ensures Pow2(BitLength(n) - 1) <= n < Pow2(BitLength(n))
  {
    if n > 1 {
      BitLengthBounds(n / 2);
    }
  }

  lemma {:induction false} PowMonotone(a: nat, b: nat)
    requires a <= b
    ensures Pow2(a) <= Pow2(b)
    decreases b
  {
    if a < b {
      PowMonotone(a, b - 1);
    }
  }

  /** Powers of two multiply by adding their exponents. */
  lemma {:induction false} Pow2Add(a: nat, b: nat)
    ensures Pow2(a + b) == Pow2(a) * Pow2(b)
    decreases b
  {
    if b > 0 {
      Pow2Add(a, b - 1);
      assert Pow2(a + b) == 2 * Pow2(a + b - 1);
    }
  }

  /** n shifted right by k binary digits (`n >>= k` on a non-negative n). */
  function Shr(n: nat, k: nat): nat {
    if k == 0 then n else Shr(n / 2, k - 1)
  }

  /** Dropping k low digits of a number with at least k digits removes k
      from its length. */
  lemma {:induction false} BitLengthShift(n: nat, k: nat)
    requires k >= 1 && n >= Pow2(k - 1)
    ensures BitLength(n) == k + BitLength(Shr(n, k))
  {
    if k > 1 {
      BitLengthShift(n / 2, k - 1);
    }
  }

  /** A number below c times 2^k keeps below c after a shift by k. */
  lemma {:induction false} ShrBelow(n: nat, k: nat, c: nat)
    requires n < c * Pow2(k)
    ensures Shr(n, k) < c
  {
    if k > 0 {
      assert n / 2 < c * Pow2(k - 1);
      ShrBelow(n / 2, k - 1, c);
    }
  }

  /** The powers of two the shift stages of `Log2` use. */
  lemma Powers()
    ensures Pow2(1) == 2 && Pow2(2) == 4 && Pow2(3) == 8 && Pow2(4) == 16
    ensures Pow2(7) == 128 && Pow2(8) == 256 && Pow2(15) == 32768 && Pow2(16) == 65536
  {
    assert Pow2(1) == 2;
    assert Pow2(2) == 4;
    assert Pow2(3) == 8;
    assert Pow2(4) == 16;
    assert Pow2(5) == 32;
    assert Pow2(6) == 64;
    assert Pow2(7) == 128;
    assert Pow2(8) == 256;
    assert Pow2(9) == 512;
    assert Pow2(10) == 1024;
    assert Pow2(11) == 2048;
    assert Pow2(12) == 4096;
    assert Pow2(13) == 8192;
    assert Pow2(14) == 16384;
    assert Pow2(15) == 32768;
    assert Pow2(16) == 65536;
  }

  /** One `if (n > threshold) { n >>= k; bits += k; }` of `Log2`. */
  function Stage(n: nat, bits: nat, threshold: nat, k: nat): (nat, nat) {
    if n > threshold then (Shr(n, k), bits + k) else (n, bits)
  }

  /** A stage whose threshold is 2^(k-1) - 1 moves digits from n to bits
      without losing any, and leaves n at most the threshold when n had at
      most 2k - 1 digits. */
  lemma StageCounts(n: nat, bits: nat, threshold: nat, k: nat)
    requires k >= 1 && threshold + 1 == Pow2(k - 1)
    requires n < Pow2(k - 1) * Pow2(k)
    ensures bits + BitLength(n) == Stage(n, bits, threshold, k).1 + BitLength(Stage(n, bits, threshold, k).0)
    ensures Stage(n, bits, threshold, k).0 <= threshold
    ensures Stage(n, bits, threshold, k).1 <= bits + k
  {
    if n > threshold {
      BitLengthShift(n, k);
      ShrBelow(n, k, Pow2(k - 1));
    }
  }

  /** The four shift stages of `Log2`, by 16, 8, 4 and 2 digits, and the
      final test for the last digit. */
  function Staged(n: nat): nat {
    var s1 := Stage(n, 0, 32767, 16);
    var s2 := Stage(s1.0, s1.1, 127, 8);
    var s3 := Stage(s2.0, s2.1, 7, 4);
    var s4 := Stage(s3.0, s3.1, 1, 2);
    if s4.0 > 0 then s4.1 + 1 else s4.1
  }

  /** Below 2^31 the stages count every binary digit. */
  lemma StagedCounts(n: nat)
    requires n < 0x8000_0000
    ensures Staged(n) == BitLength(n) && Staged(n) <= 31
  {
    Powers();
    var s1 := Stage(n, 0, 32767, 16);
    StageCounts(n, 0, 32767, 16);
    var s2 := Stage(s1.0, s1.1, 127, 8);
    StageCounts(s1.0, s1.1, 127, 8);
    var s3 := Stage(s2.0, s2.1, 7, 4);
    StageCounts(s2.0, s2.1, 7, 4);
    var s4 := Stage(s3.0, s3.1, 1, 2);
    StageCounts(s3.0, s3.1, 1, 2);
    assert BitLength(s4.0) == s4.0;
  }

  /** `Log2(n)`: the number of binary digits of n; 0 for n <= 0, where no
      stage fires. */
  function Log2(n: Int32): (r: nat)
    ensures n <= 0 ==> r == 0
    ensures n > 0 ==> 1 <= r <= 31 && Pow2(r - 1) <= n < Pow2(r)
  {
    if n <= 0 then 0
    else
      StagedCounts(n);
      BitLengthBounds(n);
      Staged(n)
  }

  // ---------------------------------------------------------------------
  // Integers and their bytes
  // ---------------------------------------------------------------------

  function Pow256(w: nat): (p: nat)
    ensures p >= 1
  {
    if w == 0 then 1 else 256 * Pow256(w - 1)
  }

  /** The widths of `short`, `int` and `long` in bytes. */
  predicate Width(w: nat) {
    w == 2 || w == 4 || w == 8
  }

  /** n fits a signed integer of w bytes. */
  predicate InRange(n: int, w: nat) {
    0 <= Pow256(w) + 2 * n && 2 * n < Pow256(w)
  }

  /** The value of bytes read little-endian, as an unsigned number. */
  function Unsigned(bs: seq<Byte>): (u: nat)
    ensures u < Pow256(|bs|)
  {
    if bs == [] then 0 else bs[0] + 256 * Unsigned(bs[1..])
  }

  /** The value of bytes read little-endian as a two's-complement number:
      what dereferencing a `short*`, `int*` or `long*` gives. */
  function Signed(bs: seq<Byte>): (n: int)
    ensures InRange(n, |bs|)
  {
    var u := Unsigned(bs);
    if 2 * u >= Pow256(|bs|) then u - Pow256(|bs|) else u
  }

  /** The w low bytes of u, least significant first. */
  function LeBytes(u: nat, w: nat): (bs: seq<Byte>)
    ensures |bs| == w
  {
    if w == 0 then [] else [u % 256] + LeBytes(u / 256, w - 1)
  }

  lemma {:induction false} UnsignedLeBytes(u: nat, w: nat)
    requires u < Pow256(w)
    ensures Unsigned(LeBytes(u, w)) == u
  {
    if w > 0 {
      UnsignedLeBytes(u / 256, w - 1);
      assert LeBytes(u, w)[1..] == LeBytes(u / 256, w - 1);
    }
  }

  lemma {:induction false} LeBytesUnsigned(bs: seq<Byte>)
    ensures LeBytes(Unsigned(bs), |bs|) == bs
  {
    if bs != [] {
      LeBytesUnsigned(bs[1..]);
      var u := Unsigned(bs);
      assert u % 256 == bs[0] && u / 256 == Unsigned(bs[1..]);
    }
  }

  /** What storing n through a pointer of w bytes writes. */
  function Store(n: int, w: nat): (bs: seq<Byte>)
    requires InRange(n, w)
    ensures |bs| == w
  {
    LeBytes(if n < 0 then n + Pow256(w) else n, w)
  }

  lemma StoreSigned(n: int, w: nat)
    requires InRange(n, w)
    ensures Signed(Store(n, w)) == n
  {
    UnsignedLeBytes(if n < 0 then n + Pow256(w) else n, w);
  }

  lemma SignedStore(bs: seq<Byte>)
    ensures Store(Signed(bs), |bs|) == bs
  {
    LeBytesUnsigned(bs);
  }

  /** Two byte strings of the same length with the same signed value are
      equal: comparing `long`s or `int`s compares their bytes. */
  lemma SignedInjective(a: seq<Byte>, b: seq<Byte>)
    requires |a| == |b| && Signed(a) == Signed(b)
    ensures a == b
  {
    SignedStore(a);
    SignedStore(b);
  }

  /** `GetBytes(num, reverse)` for the `short`, `int` and `long` overloads
      (width w): the bytes of num, reversed on request. */
  function GetBytes(num: int, w: nat, reverse: bool): (r: seq<Byte>)
    requires Width(w) && InRange(num, w)
    ensures |r| == w
  {
    var bs := Store(num, w);
    if reverse then Reverse(bs) else bs
  }

  /** `ToInt16`, `ToInt32` and `ToInt64(value, startIndex, reverse)`
      (width w). Without `reverse` the pointer code dereferences
      `&value[startIndex]`, which throws outside the array and reads past
      its end when fewer than w bytes follow; the model asks callers not
      to do the latter. With `reverse` the bytes are first copied out,
      which checks the whole range. */
  function ToInt(value: seq<Byte>, start: int, w: nat, reverse: bool): (r: Result<int>)
    requires Width(w)
    requires !reverse && 0 <= start < |value| ==> start + w <= |value|
    ensures r.Ok? <==> 0 <= start && start + w <= |value|
    ensures r.Err? && !reverse ==> r.error == IndexOutOfRange
    ensures r.Err? && reverse ==> r.error == (if start < 0 then ArgumentOutOfRange else Argument)
    ensures r.Ok? ==> InRange(r.value, w)
  {
    if reverse then
      if start < 0 then Err(ArgumentOutOfRange)
      else if start + w > |value| then Err(Argument)
      else Ok(Signed(Reverse(value[start..start + w])))
    else if start < 0 || start >= |value| then Err(IndexOutOfRange)
    else Ok(Signed(value[start..start + w]))
  }

  /** Reading back what `GetBytes` wrote, in the same byte order, gives
      the number. */
  lemma ToIntGetBytes(num: int, w: nat, reverse: bool)
    requires Width(w) && InRange(num, w)
    ensures ToInt(GetBytes(num, w, reverse), 0, w, reverse) == Ok(num)
  {
    var bs := Store(num, w);
    StoreSigned(num, w);
    if reverse {
      ReverseReverse(bs);
      assert Reverse(bs)[0..w] == Reverse(bs);
    } else {
      assert bs[0..w] == bs;
    }
  }

  /** Writing back what `ToInt` read, in the same byte order, gives the
      bytes. */
  lemma GetBytesToInt(bs: seq<Byte>, reverse: bool)
    requires Width(|bs|)
    ensures ToInt(bs, 0, |bs|, reverse).Ok?
    ensures GetBytes(ToInt(bs, 0, |bs|, reverse).value, |bs|, reverse) == bs
  {
    assert bs[0..|bs|] == bs;
    if reverse {
      SignedStore(Reverse(bs));
      ReverseReverse(bs);
    } else {
      SignedStore(bs);
    }
  }

  // ---------------------------------------------------------------------
  // Cmp
  // ---------------------------------------------------------------------

  /** `Cmp(a, b)`: unequal lengths differ; otherwise the bytes are compared
      eight at a time as `long`s, then four at a time as `int`s, then one
      at a time. */
  method Cmp(a: seq<Byte>, b: seq<Byte>) returns (r: bool)
    ensures r <==> a == b
  {
    if |a| != |b| {
      return false;
    }
    var pos, len := 0, |a|;
    while len >= 8
      invariant 0 <= len && pos + len == |a| && a[..pos] == b[..pos]
    {
      var x := ToInt(a, pos, 8, false);
      var y := ToInt(b, pos, 8, false);
      if x.value != y.value {
        return false;
      }
      SignedInjective(a[pos..pos + 8], b[pos..pos + 8]);
      Extend(a, b, pos, 8);
      pos, len := pos + 8, len - 8;
    }
    while len >= 4
      invariant 0 <= len && pos + len == |a| && a[..pos] == b[..pos]
    {
      var x := ToInt(a, pos, 4, false);
      var y := ToInt(b, pos, 4, false);
      if x.value != y.value {
        return false;
      }
      SignedInjective(a[pos..pos + 4], b[pos..pos + 4]);
      Extend(a, b, pos, 4);
      pos, len := pos + 4, len - 4;
    }
    while len > 0
      invariant 0 <= len && pos + len == |a| && a[..pos] == b[..pos]
    {
      if a[pos] != b[pos] {
        return false;
      }
      Extend(a, b, pos, 1);
      pos, len := pos + 1, len - 1;
    }
    assert a == a[..pos] && b == b[..pos];
    return true;
  }

  lemma Extend(a: seq<Byte>, b: seq<Byte>, pos: nat, w: nat)
    requires pos + w <= |a| && pos + w <= |b|
    requires a[..pos] == b[..pos] && a[pos..pos + w] == b[pos..pos + w]
    ensures a[..pos + w] == b[..pos + w]
  {
    assert a[..pos + w] == a[..pos] + a[pos..pos + w];
    assert b[..pos + w] == b[..pos] + b[pos..pos + w];
  }
}

=== FILE: indexroot.dfy ===
/** `SortedListIndexRoot`: the in-memory root of a paged index, a sorted
    list mapping the first key of every page to that page's number. Keys
    are compared by their natural order; they are modelled as `int`. */
module IndexRoot {
  import opened Results
  import opened Helper

  /** The sorted list: `keys[i]` is the first key of page `values[i]`. */
  datatype Root = Root(keys: seq<int>, values: seq<int>) {

    /** What `SortedList` maintains: one value per key, keys strictly
        ascending (duplicates are rejected on insertion). */
    predicate Valid() {
      |keys| == |values| && Ascending(keys)
    }
  }

  predicate Ascending(s: seq<int>) {
    forall i, j :: 0 <= i < j < |s| ==> s[i] < s[j]
  }

  /** The key/value pairs a root holds, regardless of their positions. */
  function Pairs(root: Root): set<(int, int)>
    requires root.Valid()
  {
    set i | 0 <= i < |root.keys| :: (root.keys[i], root.values[i])
  }

  // ---------------------------------------------------------------------
  // GetPageIndex
  // ---------------------------------------------------------------------

  /** r is the floor position of key: the last position whose key is at
      most key, or 0 when every key is larger. */
  predicate IsFloor(keys: seq<int>, key: int, r: nat) {
    (r > 0 ==> r < |keys| && keys[r] <= key)
    && (forall i :: r < i < |keys| ==> key < keys[i])
  }

  /** `GetPageIndex(key)`: a binary search that rounds the midpoint up, so
      that the lower bound always advances. */
  method GetPageIndex(root: Root, key: int) returns (r: nat)
    requires root.Valid()
    ensures |root.keys| <= 1 ==> r == 0
    ensures |root.keys| > 0 ==> r < |root.keys|
    ensures IsFloor(root.keys, key, r)
  {
    var keys := root.keys;
    if |keys| <= 1 {
      return 0;
    }
    var first, last := 0, |keys| - 1;
    while first < last
      invariant 0 <= first <= last < |keys|
      invariant first > 0 ==> keys[first] < key
      invariant forall i :: last < i < |keys| ==> key < keys[i]
      decreases last - first
    {
      // first + last - 1 >= 0 here, so the source's `>> 1` is a halving
      var mid := (first + last - 1) / 2 + 1;
      if keys[mid] < key {
        first := mid;
      } else if keys[mid] == key {
        return mid;
      } else {
        last := mid - 1;
      }
    }
    return first;
  }

  /** There is only one floor position: together with `GetPageIndex`'s
      contract this says the search returns the position of key when key
      is present, and otherwise the last position with a smaller key, or 0
      when there is none. */
  lemma FloorUnique(keys: seq<int>, key: int, r: nat, s: nat)
    requires Ascending(keys) && |keys| > 0
    requires r < |keys| && s < |keys|
    requires IsFloor(keys, key, r) && IsFloor(keys, key, s)
    ensures r == s
  {
  }

  /** A key that is present is found at its own position. */
  lemma FloorOfPresentKey(keys: seq<int>, key: int, p: nat, r: nat)
    requires Ascending(keys) && p < |keys| && keys[p] == key
    requires IsFloor(keys, key, r)
    ensures r == p
  {
  }

  /** An absent key lands on the last smaller key, or on 0 when no key is
      smaller. */
  lemma FloorOfAbsentKey(keys: seq<int>, key: int, r: nat)
    requires Ascending(keys) && |keys| > 0 && key !in keys
    requires IsFloor(keys, key, r)
    ensures (exists i :: 0 <= i < |keys| && keys[i] < key) ==>
      keys[r] < key && forall i :: r < i < |keys| ==> keys[i] > key
    ensures (forall i :: 0 <= i < |keys| ==> keys[i] > key) ==> r == 0
  {
    if exists i :: 0 <= i < |keys| && keys[i] < key {
      var i :| 0 <= i < |keys| && keys[i] < key;
      if r == 0 {
        assert keys[0] <= keys[i];
      }
      assert keys[r] != key;
    }
  }

  // ---------------------------------------------------------------------
  // GetLowerPagesIndexes / GetUpperPagesIndexes
  // ---------------------------------------------------------------------

  /** The values at positions i, i-1, ..., 0. */
  function Down(values: seq<int>, i: int): seq<int>
    requires i < |values|
    decreases i + 1
  {
    if i < 0 then [] else [values[i]] + Down(values, i - 1)
  }

  /** The first position `GetLowerPagesIndexes(index)` reads: the `int`
      `index - 1`, which wraps from `int.MinValue` to `int.MaxValue`. */
  function LowerStart(index: Int32): (i: Int32)
    ensures index > -0x8000_0000 ==> i == index - 1
    ensures index == -0x8000_0000 ==> i == 0x7FFF_FFFF
  {
    if index == -0x8000_0000 then 0x7FFF_FFFF else index - 1
  }

  /** `GetLowerPagesIndexes(index)`: the page numbers from position
      index-1 down to 0. Reading `Values[index-1]` beyond the list throws,
      and so does `int.MinValue`, whose start wraps past any list a
      `SortedList` can hold. */
  function LowerPages(root: Root, index: Int32): (r: Result<seq<int>>)
    ensures index > -0x8000_0000 ==> (r.Err? <==> index > |root.values|)
    ensures index == -0x8000_0000 && |root.values| <= 0x7FFF_FFFF ==> r.Err?
    ensures r.Err? ==> r.error == ArgumentOutOfRange
    ensures r.Ok? ==> |r.value| == (if LowerStart(index) < 0 then 0 else LowerStart(index) + 1)
    ensures r.Ok? ==> forall k :: 0 <= k < |r.value| ==> r.value[k] == root.values[LowerStart(index) - k]
  {
    var i := LowerStart(index);
    if i >= |root.values| then Err(ArgumentOutOfRange)
    else DownIndexes(root.values, i); Ok(Down(root.values, i))
  }

  lemma {:induction false} DownIndexes(values: seq<int>, i: int)
    requires i < |values|
    ensures |Down(values, i)| == (if i < 0 then 0 else i + 1)
    ensures forall k :: 0 <= k < |Down(values, i)| ==> Down(values, i)[k] == values[i - k]
    decreases i + 1
  {
    if i >= 0 {
      DownIndexes(values, i - 1);
    }
  }

  /** The first position `GetUpperPagesIndexes(index)` reads: the `int`
      `index + 1`, which wraps from `int.MaxValue` to `int.MinValue`. */
  function UpperStart(index: Int32): (i: Int32)
    ensures index < 0x7FFF_FFFF ==> i == index + 1
    ensures index == 0x7FFF_FFFF ==> i == -0x8000_0000
  {
    if index == 0x7FFF_FFFF then -0x8000_0000 else index + 1
  }

  /** `GetUpperPagesIndexes(index)`: the page numbers from position
      index+1 up to the end. A start below 0 is below `pages.Count` and
      throws on its first read; `int.MaxValue` wraps to such a start. */
  function UpperPages(root: Root, index: Int32): (r: Result<seq<int>>)
    ensures r.Err? <==> index < -1 || index == 0x7FFF_FFFF
    ensures r.Err? ==> r.error == ArgumentOutOfRange
    ensures r.Ok? ==> |r.value| == (if index + 1 >= |root.values| then 0 else |root.values| - index - 1)
    ensures r.Ok? ==> forall k :: 0 <= k < |r.value| ==> r.value[k] == root.values[index + 1 + k]
  {
    var i := UpperStart(index);
    if i < 0 then Err(ArgumentOutOfRange)
    else if i >= |root.values| then Ok([])
    else Ok(root.values[i..])
  }

  /** The pages below a position, read back in ascending order, then the
      page at the position, then the pages above it, are all the pages,
      for any list a `SortedList` can hold (its `Count` is an `int`). */
  lemma PagesAround(root: Root, index: Int32)
    requires 0 <= index < |root.values| <= 0x7FFF_FFFF
    ensures LowerPages(root, index).Ok? && UpperPages(root, index).Ok?
    ensures Reverse(LowerPages(root, index).value) + [root.values[index]]
            + UpperPages(root, index).value == root.values
  {
    var lo := LowerPages(root, index).value;
    var up := UpperPages(root, index).value;
    var all := Reverse(lo) + [root.values[index]] + up;
    assert |all| == |root.values|;
    forall k | 0 <= k < |all|
      ensures all[k] == root.values[k]
    {
      if k < index {
        assert all[k] == lo[index - 1 - k];
      } else if k > index {
        assert all[k] == up[k - index - 1];
      }
    }
  }

  // ---------------------------------------------------------------------
  // CreateTable
  // ---------------------------------------------------------------------

  /** The number of keys smaller than key: where `SortedList` inserts it. */
  function Rank(keys: seq<int>, key: int): (p: nat)
    requires Ascending(keys)
    ensures p <= |keys|
    ensures forall i :: 0 <= i < p ==> keys[i] < key
    ensures forall i :: p <= i < |keys| ==> key <= keys[i]
  {
    if keys == [] || key <= keys[0] then 0 else 1 + Rank(keys[1..], key)
  }

  /** `CreateTable(firstKey)`: registers a new page, numbered by the
      current page count, under its first key. `SortedList.Add` throws on
      a key that is already present. */
  function CreateTable(root: Root, firstKey: int): (r: Result<(Root, int)>)
    requires root.Valid()
    ensures r.Err? <==> firstKey in root.keys
    ensures r.Err? ==> r.error == DuplicateKey
    ensures r.Ok? ==> r.value.1 == |root.keys| && r.value.0.Valid()
    ensures r.Ok? ==> Pairs(r.value.0) == Pairs(root) + {(firstKey, |root.keys|)}
  {
    if firstKey in root.keys then Err(DuplicateKey)
    else
      var p := Rank(root.keys, firstKey);
      var next := Root(root.keys[..p] + [firstKey] + root.keys[p..],
                       root.values[..p] + [|root.keys|] + root.values[p..]);
      InsertKeeps(root, firstKey, p, next);
      Ok((next, |root.keys|))
  }

  /** What inserting key at its rank p builds, as `InsertKeeps` assumes. */
  predicate Inserted(root: Root, key: int, p: nat, next: Root) {
    root.Valid() && key !in root.keys && p <= |root.keys|
    && (forall i :: 0 <= i < p ==> root.keys[i] < key)
    && (forall i :: p <= i < |root.keys| ==> key < root.keys[i])
    && next == Root(root.keys[..p] + [key] + root.keys[p..],
                    root.values[..p] + [|root.keys|] + root.values[p..])
  }

  lemma InsertKeeps(root: Root, key: int, p: nat, next: Root)
    requires Inserted(root, key, p, next)
    ensures next.Valid()
    ensures Pairs(next) == Pairs(root) + {(key, |root.keys|)}
  {
    InsertAscending(root, key, p, next);
    InsertPairsOld(root, key, p, next);
    InsertPairsNew(root, key, p, next);
  }

  /** The positions of next around the insertion point. */
  lemma InsertShape(root: Root, key: int, p: nat, next: Root)
    requires Inserted(root, key, p, next)
    ensures |next.keys| == |next.values| == |root.keys| + 1
    ensures next.keys[p] == key && next.values[p] == |root.keys|
    ensures forall i :: 0 <= i < p ==> next.keys[i] == root.keys[i] && next.values[i] == root.values[i]
    ensures forall i :: p < i <= |root.keys| ==>
      next.keys[i] == root.keys[i - 1] && next.values[i] == root.values[i - 1]
  {
  }

  lemma InsertAscending(root: Root, key: int, p: nat, next: Root)
    requires Inserted(root, key, p, next)
    ensures next.Valid()
  {
    InsertShape(root, key, p, next);
    forall i, j | 0 <= i < j < |next.keys|
      ensures next.keys[i] < next.keys[j]
    {
      if i < p && j > p {
        assert root.keys[i] < key < root.keys[j - 1];
      }
    }
  }

  lemma InsertPairsOld(root: Root, key: int, p: nat, next: Root)
    requires Inserted(root, key, p, next)
    ensures next.Valid()
    ensures Pairs(root) + {(key, |root.keys|)} <= Pairs(next)
  {
    InsertAscending(root, key, p, next);
    InsertShape(root, key, p, next);
    var n := |root.keys|;
    assert (key, n) == (next.keys[p], next.values[p]);
    forall e | e in Pairs(root)
      ensures e in Pairs(next)
    {
      var i :| 0 <= i < n && e == (root.keys[i], root.values[i]);
      if i >= p {
        assert e == (next.keys[i + 1], next.values[i + 1]);
      } else {
        assert e == (next.keys[i], next.values[i]);
      }
    }
  }

  lemma InsertPairsNew(root: Root, key: int, p: nat, next: Root)
    requires Inserted(root, key, p, next)
    ensures next.Valid()
    ensures Pairs(next) <= Pairs(root) + {(key, |root.keys|)}
  {
    InsertAscending(root, key, p, next);
    InsertShape(root, key, p, next);
    forall e | e in Pairs(next)
      ensures e in Pairs(root) + {(key, |root.keys|)}
    {
      var i :| 0 <= i < |next.keys| && e == (next.keys[i], next.values[i]);
      if i > p {
        assert e == (root.keys[i - 1], root.values[i - 1]);
      } else if i < p {
        assert e == (root.keys[i], root.values[i]);
      }
    }
  }
}

=== FILE: mmftable.dfy ===
/** `MmfTableIndexFileManager`: hash-table pages of a fixed size kept in a
    series of memory-mapped files whose page counts double, so that page p
    lives in file Log2(p+1)-1. Only the page arithmetic is modelled: a file
    is its first page, page count and byte size, and opening it is left
    out. */
module MmfTable {
  import opened Results
  import opened Helper
  import WahHelper

  /** `MmFileInfo`: the first page a file holds, how many (both `int`s),
      and its size in bytes (a `long`). */
  datatype FileInfo = FileInfo(firstPageIndex: int, count: int, size: int)

  /** The manager: the size of one page, an `int`, and the files opened so
      far; an entry is `None` between `Array.Resize` and its `InitFile`. */
  datatype Manager = Manager(pageSize: Int32, capacity: int, files: seq<Option<FileInfo>>)

  /** The constructor: a page holds capacity entries of entrySize bytes
      behind a 4-byte entry count, computed in `int` arithmetic, so the
      size is exact while it fits and otherwise agrees with it modulo
      2^32; no file is open yet. */
  function New(capacity: Int32, entrySize: Int32): (m: Manager)
    ensures -0x8000_0000 <= capacity * entrySize + 4 < 0x8000_0000 ==> m.pageSize - 4 == capacity * entrySize
    ensures (m.pageSize - 4 - capacity * entrySize) % 0x1_0000_0000 == 0
    ensures m.capacity == capacity && |m.files| == 0
  {
    var x := capacity * entrySize + 4;
    var q := (x + 0x8000_0000) / 0x1_0000_0000;
    assert WahHelper.Int32(x) - x == -0x1_0000_0000 * q;
    Manager(WahHelper.Int32(x), capacity, [])
  }

  // ---------------------------------------------------------------------
  // The intended layout
  // ---------------------------------------------------------------------

  /** File k as the doubling scheme lays it out: 2^k pages from page
      2^k - 1 on. */
  function Expected(k: nat, pageSize: int): (f: FileInfo)
    ensures f.count >= 1 && f.size == f.count * pageSize
  {
    FileInfo(Pow2(k) - 1, Pow2(k), Pow2(k) * pageSize)
  }

  /** File 0 holds page 0 alone, and each file starts where the one
      before it ends and holds twice its pages. */
  lemma FilesAdjacent(k: nat, pageSize: int)
    ensures Expected(0, pageSize).firstPageIndex == 0 && Expected(0, pageSize).count == 1
    ensures Expected(k, pageSize).firstPageIndex + Expected(k, pageSize).count ==
            Expected(k + 1, pageSize).firstPageIndex
    ensures Expected(k + 1, pageSize).count == 2 * Expected(k, pageSize).count
  {
  }

  /** Every open file is where the doubling scheme puts it. */
  predicate Doubling(files: seq<Option<FileInfo>>, pageSize: int) {
    forall k :: 0 <= k < |files| ==> files[k] == Some(Expected(k, pageSize))
  }

  /** The file a page lives in: `Log2(index + 1) - 1`, with the `int`
      addition wrapping at 2^31 - 1. A negative result is -1. */
  function FileOf(index: Int32): (fi: int)
    ensures index >= 0 && index < 0x7FFF_FFFF ==>
      0 <= fi && Pow2(fi) - 1 <= index < Pow2(fi + 1) - 1
    ensures index < 0 || index == 0x7FFF_FFFF ==> fi == -1
  {
    var next: Int32 := if index == 0x7FFF_FFFF then -0x8000_0000 else index + 1;
    Log2(next) - 1
  }

  /** Page p is in file k exactly when it lies in file k's range. */
  lemma FileOfCovers(index: Int32, k: nat)
    requires 0 <= index < 0x7FFF_FFFF
    ensures FileOf(index) == k <==>
      Expected(k, 0).firstPageIndex <= index < Expected(k, 0).firstPageIndex + Expected(k, 0).count
  {
    var fi := FileOf(index);
    if fi < k {
      PowMonotone(fi + 1, k);
    } else if k < fi {
      PowMonotone(k + 1, fi);
    }
  }

  // ---------------------------------------------------------------------
  // InitFile / InitFiles
  // ---------------------------------------------------------------------

  /** File k's page count and its byte size `Pow2(k) * pageSize` are both
      non-negative `int`s. */
  predicate Fits(k: nat, pageSize: int) {
    k <= 30 && 0 <= pageSize && Pow2(k) * pageSize < 0x8000_0000
  }

  /** The powers of two the file sizes below use. */
  lemma LargePowers()
    ensures Pow2(18) == 0x4_0000 && Pow2(19) == 0x8_0000
    ensures Pow2(30) == 0x4000_0000 && Pow2(31) == 0x8000_0000
  {
    Powers();
    Pow2Add(15, 15);
    Pow2Add(16, 2);
    assert Pow2(15) * Pow2(15) == 0x4000_0000;
  }

  /** `int` arithmetic on a value between 2^31 and 2^32 + 2^31: it wraps
      down by 2^32. */
  lemma WrapsDown(x: int)
    requires 0x8000_0000 <= x < 0x1_8000_0000
    ensures WahHelper.Int32(x) == x - 0x1_0000_0000
  {
  }

  /** The page count and byte size `InitFile` computes for file k after
      file k - 1 of the doubling layout: exactly that layout's file when it
      fits, and something else when it does not. */
  lemma SizeFits(k: nat, pageSize: Int32, size: int, bytes: int)
    requires size == if k == 0 then 1 else WahHelper.Int32(Pow2(k - 1) * 2)
    requires bytes == WahHelper.Int32(size * pageSize)
    ensures Fits(k, pageSize) <==>
      (0 <= bytes && FileInfo(WahHelper.Int32(size - 1), size, bytes) == Expected(k, pageSize))
  {
    if Fits(k, pageSize) {
      FitSize(k, pageSize, size);
    } else {
      MadeFits(k, pageSize, size, bytes);
    }
  }

  /** The other direction: a file built as the doubling layout's fits. */
  lemma MadeFits(k: nat, pageSize: Int32, size: int, bytes: Int32)
    requires -0x8000_0000 <= size < 0x8000_0000
    ensures 0 <= bytes && FileInfo(WahHelper.Int32(size - 1), size, bytes) == Expected(k, pageSize) ==>
      Fits(k, pageSize)
  {
    if 0 <= bytes && FileInfo(WahHelper.Int32(size - 1), size, bytes) == Expected(k, pageSize) {
      SizeFit(k, pageSize, size, bytes);
    }
  }

  /** A file that fits gets its doubling-layout page count. */
  lemma FitSize(k: nat, pageSize: Int32, size: int)
    requires Fits(k, pageSize)
    requires size == if k == 0 then 1 else WahHelper.Int32(Pow2(k - 1) * 2)
    ensures size == Pow2(k) && WahHelper.Int32(size * pageSize) == Pow2(k) * pageSize
    ensures 0 <= Pow2(k) * pageSize && WahHelper.Int32(size - 1) == Pow2(k) - 1
  {
    assert size == Pow2(k) by {
      LargePowers();
      PowMonotone(k, 30);
      assert k > 0 ==> Pow2(k) == Pow2(k - 1) * 2;
    }
    assert 0 <= size * pageSize < 0x8000_0000;
  }

  /** A page count and size of the doubling layout, both `int`s, make the
      file fit. */
  lemma SizeFit(k: nat, pageSize: Int32, size: int, bytes: int)
    requires size == Pow2(k) && size < 0x8000_0000
    requires bytes == Pow2(k) * pageSize && 0 <= bytes < 0x8000_0000
    ensures Fits(k, pageSize)
  {
    if k > 30 {
      LargePowers();
      PowMonotone(31, k);
    }
    PositiveFactor(Pow2(k), pageSize);
  }

  lemma PositiveFactor(p: int, q: int)
    requires p >= 1
    ensures p * q >= 0 ==> q >= 0
  {
    if q < 0 {
      assert p * q <= q;
    }
  }

  /** `InitFile(fileIndex)`: file 0 holds one page, any other file twice
      the pages of the file before it, which must be open. The page count
      and the byte size `size * PageSize` are `int`s, the product widened
      to the `long` parameter only after it has wrapped, and
      `CreateFromFile` refuses a negative size. */
  function InitFile(files: seq<Option<FileInfo>>, fileIndex: nat, pageSize: Int32): (r: Result<seq<Option<FileInfo>>>)
    requires fileIndex < |files|
    ensures fileIndex > 0 && files[fileIndex - 1].None? ==> r == Err(NullReference)
    ensures r.Err? ==> r.error == NullReference || r.error == ArgumentOutOfRange
    ensures r.Ok? ==> |r.value| == |files| && r.value[fileIndex].Some? && 0 <= r.value[fileIndex].value.size
    ensures r.Ok? ==> forall k :: 0 <= k < |files| && k != fileIndex ==> r.value[k] == files[k]
    ensures fileIndex == 0 || files[fileIndex - 1] == Some(Expected(fileIndex - 1, pageSize)) ==>
      (Fits(fileIndex, pageSize) <==> r.Ok? && r.value[fileIndex] == Some(Expected(fileIndex, pageSize)))
  {
    if fileIndex > 0 && files[fileIndex - 1].None? then Err(NullReference)
    else
      var size := if fileIndex == 0 then 1 else WahHelper.Int32(files[fileIndex - 1].value.count * 2);
      var bytes := WahHelper.Int32(size * pageSize);
      if fileIndex == 0 || files[fileIndex - 1] == Some(Expected(fileIndex - 1, pageSize)) then
        SizeFits(fileIndex, pageSize, size, bytes);
        if bytes < 0 then Err(ArgumentOutOfRange)
        else Ok(files[fileIndex := Some(FileInfo(WahHelper.Int32(size - 1), size, bytes))])
      else if bytes < 0 then Err(ArgumentOutOfRange)
      else Ok(files[fileIndex := Some(FileInfo(WahHelper.Int32(size - 1), size, bytes))])
  }

  /** The loop of `InitFiles` from i to fileIndex, which, as written,
      initialises file fileIndex on every round rather than file i. */
  function InitLoop(files: seq<Option<FileInfo>>, i: nat, fileIndex: nat, pageSize: Int32): (r: Result<seq<Option<FileInfo>>>)
    requires fileIndex < |files|
    ensures r.Ok? ==> |r.value| == |files|
    decreases fileIndex + 1 - i
  {
    if i > fileIndex then Ok(files)
    else
      var next :- InitFile(files, fileIndex, pageSize);
      InitLoop(next, i + 1, fileIndex, pageSize)
  }

  /** The array grown to fileIndex + 1 entries, the new ones empty. */
  function Resize(files: seq<Option<FileInfo>>, fileIndex: nat): (r: seq<Option<FileInfo>>)
    requires |files| <= fileIndex
    ensures |r| == fileIndex + 1 && r[..|files|] == files
    ensures forall k :: |files| <= k < |r| ==> r[k].None?
  {
    files + seq(fileIndex + 1 - |files|, _ => None)
  }

  /** `InitFiles(fileIndex)`: opens the files up to fileIndex. */
  function InitFiles(m: Manager, fileIndex: nat): (r: Result<Manager>)
    ensures |m.files| > fileIndex ==> r == Ok(m)
    ensures r.Ok? ==> r.value.pageSize == m.pageSize && r.value.capacity == m.capacity
  {
    if |m.files| > fileIndex then Ok(m)
    else
      var files :- InitLoop(Resize(m.files, fileIndex), |m.files|, fileIndex, m.pageSize);
      Ok(m.(files := files))
  }

  /** Opening exactly the next file extends the doubling layout by one file
      exactly when that file's size fits an `int`. */
  lemma InitFilesNext(m: Manager)
    requires Doubling(m.files, m.pageSize)
    ensures Fits(|m.files|, m.pageSize) <==>
      InitFiles(m, |m.files|).Ok? && Doubling(InitFiles(m, |m.files|).value.files, m.pageSize)
    ensures InitFiles(m, |m.files|).Ok? ==> |InitFiles(m, |m.files|).value.files| == |m.files| + 1
  {
    var n := |m.files|;
    var grown := Resize(m.files, n);
    assert n > 0 ==> grown[n - 1] == m.files[n - 1];
    var once := InitFile(grown, n, m.pageSize);
    if once.Ok? {
      assert InitLoop(grown, n, n, m.pageSize) == InitLoop(once.value, n + 1, n, m.pageSize);
      assert forall k :: 0 <= k < n ==> once.value[k] == m.files[k];
    }
  }

  /** The size of the first file that does not fit: the doubled page
      count times the page size lies between 2^31 and 2^32, or the page
      count itself reaches 2^31, and either wraps to a negative `int`. */
  lemma TooLargeWraps(n: nat, pageSize: Int32)
    requires pageSize >= 1 && 0 < n && Fits(n - 1, pageSize) && !Fits(n, pageSize)
    ensures WahHelper.Int32(WahHelper.Int32(Pow2(n - 1) * 2) * pageSize) < 0
  {
    var p := Pow2(n - 1);
    LargePowers();
    if n <= 30 {
      PowMonotone(n, 30);
      assert Pow2(n) == 2 * p;
      DoubledWraps(p, pageSize);
    } else {
      assert p == 0x4000_0000 && pageSize == 1;
    }
  }

  /** A page count p below 2^30 whose size fits but whose doubled size
      does not: the doubled count is exact and its size wraps negative. */
  lemma DoubledWraps(p: int, pageSize: int)
    requires 1 <= p <= 0x2000_0000 && pageSize >= 1
    requires p * pageSize < 0x8000_0000 <= (2 * p) * pageSize
    ensures WahHelper.Int32(WahHelper.Int32(p * 2) * pageSize) < 0
  {
    var x := (2 * p) * pageSize;
    assert x == 2 * (p * pageSize);
    WrapsDown(x);
  }

  /** The first file whose size does not fit an `int` makes creating it
      throw. */
  lemma InitFilesTooLarge(m: Manager)
    requires Doubling(m.files, m.pageSize) && m.pageSize >= 1
    requires 0 < |m.files| && Fits(|m.files| - 1, m.pageSize) && !Fits(|m.files|, m.pageSize)
    ensures InitFiles(m, |m.files|) == Err(ArgumentOutOfRange)
  {
    var n := |m.files|;
    var grown := Resize(m.files, n);
    assert grown[n - 1] == Some(Expected(n - 1, m.pageSize));
    TooLargeWraps(n, m.pageSize);
    assert InitFile(grown, n, m.pageSize) == Err(ArgumentOutOfRange);
  }

  /** Skipping ahead fails: the first round initialises the last file,
      whose predecessor is one of the new, still empty entries. */
  lemma InitFilesSkipFails(m: Manager, fileIndex: nat)
    requires |m.files| < fileIndex
    ensures InitFiles(m, fileIndex) == Err(NullReference)
  {
    var grown := Resize(m.files, fileIndex);
    assert grown[fileIndex - 1].None?;
  }

  /** `InitFile` as intended: the byte size computed as a `long`, which
      does not wrap for any page count and `int` page size. */
  function InitFileWide(files: seq<Option<FileInfo>>, fileIndex: nat, pageSize: int): (r: Result<seq<Option<FileInfo>>>)
    requires fileIndex < |files|
    ensures r.Err? <==> fileIndex > 0 && files[fileIndex - 1].None?
    ensures r.Err? ==> r.error == NullReference
    ensures r.Ok? ==> |r.value| == |files|
    ensures r.Ok? ==> forall k :: 0 <= k < |files| && k != fileIndex ==> r.value[k] == files[k]
    ensures r.Ok? && fileIndex > 0 && files[fileIndex - 1] == Some(Expected(fileIndex - 1, pageSize)) ==>
      r.value[fileIndex] == Some(Expected(fileIndex, pageSize))
    ensures r.Ok? && fileIndex == 0 ==> r.value[0] == Some(Expected(0, pageSize))
  {
    if fileIndex > 0 && files[fileIndex - 1].None? then Err(NullReference)
    else
      var size := if fileIndex == 0 then 1 else files[fileIndex - 1].value.count * 2;
      Ok(files[fileIndex := Some(FileInfo(size - 1, size, size * pageSize))])
  }

  /** The loop as intended: round i opens file i. */
  function InitLoopIntended(files: seq<Option<FileInfo>>, i: nat, fileIndex: nat, pageSize: int): (r: Result<seq<Option<FileInfo>>>)
    requires fileIndex < |files|
    requires i <= fileIndex + 1 && Doubling(files[..i], pageSize)
    ensures r.Ok?
    ensures |r.value| == |files|
    ensures Doubling(r.value[..fileIndex + 1], pageSize)
    decreases fileIndex + 1 - i
  {
    if i > fileIndex then Ok(files)
    else
      var next := InitFileWide(files, i, pageSize);
      assert i > 0 ==> files[i - 1] == Some(Expected(i - 1, pageSize));
      assert Doubling(next.value[..i + 1], pageSize) by {
        assert forall k :: 0 <= k < i ==> next.value[..i + 1][k] == files[..i][k];
      }
      InitLoopIntended(next.value, i + 1, fileIndex, pageSize)
  }

  /** `InitFiles` with the loop and the size as intended. */
  function InitFilesIntended(m: Manager, fileIndex: nat): (r: Result<Manager>)
    requires Doubling(m.files, m.pageSize)
    ensures r.Ok? && r.value.pageSize == m.pageSize && r.value.capacity == m.capacity
    ensures Doubling(r.value.files, m.pageSize)
    ensures |r.value.files| == if |m.files| > fileIndex then |m.files| else fileIndex + 1
  {
    if |m.files| > fileIndex then Ok(m)
    else
      var grown := Resize(m.files, fileIndex);
      assert grown[..|m.files|] == m.files;
      var files := InitLoopIntended(grown, |m.files|, fileIndex, m.pageSize).value;
      assert files[..fileIndex + 1] == files;
      Ok(m.(files := files))
  }

  // ---------------------------------------------------------------------
  // LoadHashtable
  // ---------------------------------------------------------------------

  /** Where a page is: the file index and the byte offset of the page in
      that file. */
  datatype Location = Location(file: nat, offset: int)

  /** The lookup half of `LoadHashtable(index)`, given the files after
      `InitFiles`. A negative file index reads outside the array. The
      offset `PageSize * (index - FirstPageIndex)` is an `int` product. */
  function Locate(files: seq<Option<FileInfo>>, pageSize: Int32, index: Int32): (r: Result<Location>)
    ensures r.Ok? ==> r.value.file == FileOf(index) && r.value.file < |files|
    ensures r.Ok? ==> -0x8000_0000 <= r.value.offset < 0x8000_0000
  {
    var fi := FileOf(index);
    if fi < 0 || fi >= |files| then Err(IndexOutOfRange)
    else if files[fi].None? then Err(NullReference)
    else Ok(Location(fi, WahHelper.Int32(pageSize * WahHelper.Int32(index - files[fi].value.firstPageIndex))))
  }

  /** The lookup with the offset computed as a `long`. */
  function LocateWide(files: seq<Option<FileInfo>>, pageSize: int, index: Int32): (r: Result<Location>)
    ensures r.Ok? ==> r.value.file == FileOf(index) && r.value.file < |files|
  {
    var fi := FileOf(index);
    if fi < 0 || fi >= |files| then Err(IndexOutOfRange)
    else if files[fi].None? then Err(NullReference)
    else Ok(Location(fi, pageSize * (index - files[fi].value.firstPageIndex)))
  }

  /** `LoadHashtable(index)`: opens the files up to the page's file when
      needed, then locates the page. */
  function LoadHashtable(m: Manager, index: Int32): (r: Result<(Manager, Location)>)
    ensures r.Ok? ==> r.value.1.file == FileOf(index)
  {
    var fi := FileOf(index);
    var m' :- if fi >= 0 && fi >= |m.files| then InitFiles(m, fi) else Ok(m);
    var loc :- Locate(m'.files, m'.pageSize, index);
    Ok((m', loc))
  }

  /** With `long` offsets, a page's bytes lie inside its file when the
      files follow the doubling scheme. */
  lemma LocateWideWithin(files: seq<Option<FileInfo>>, pageSize: nat, index: Int32)
    requires Doubling(files, pageSize) && 0 <= index < 0x7FFF_FFFF
    requires FileOf(index) < |files|
    ensures LocateWide(files, pageSize, index).Ok?
    ensures 0 <= LocateWide(files, pageSize, index).value.offset
    ensures LocateWide(files, pageSize, index).value.offset + pageSize <= files[FileOf(index)].value.size
  {
    var fi := FileOf(index);
    var f := Expected(fi, pageSize);
    assert files[fi] == Some(f);
    var d := index - f.firstPageIndex;
    MulBelow(pageSize, d, f.count);
  }

  lemma MulBelow(c: nat, a: nat, b: nat)
    requires a < b
    ensures 0 <= c * a && c * a + c <= b * c
  {
    assert c * a + c == c * (a + 1);
    assert b * c == c * b;
  }

  /** As written, a page's bytes lie inside its file when the files follow
      the doubling scheme and the page's file fits an `int`, as every file
      `InitFile` can create does: the `int` offset does not wrap there. */
  lemma LocateWithin(files: seq<Option<FileInfo>>, pageSize: Int32, index: Int32)
    requires Doubling(files, pageSize) && 0 <= index < 0x7FFF_FFFF
    requires FileOf(index) < |files| && Fits(FileOf(index), pageSize)
    ensures Locate(files, pageSize, index).Ok?
    ensures 0 <= Locate(files, pageSize, index).value.offset
    ensures Locate(files, pageSize, index).value.offset + pageSize <= files[FileOf(index)].value.size
  {
    var fi := FileOf(index);
    var f := Expected(fi, pageSize);
    assert files[fi] == Some(f);
    LocateWideWithin(files, pageSize, index);
    var d := index - f.firstPageIndex;
    MulBelow(pageSize, d, f.count);
    assert pageSize * d < 0x8000_0000;
    assert Locate(files, pageSize, index).value.offset == LocateWide(files, pageSize, index).value.offset;
  }

  /** Pages visited in ascending order never skip a file: the lookup as
      written succeeds and lands inside the file when the page's file fits
      an `int`, and throws at the first file that does not. */
  lemma LoadInOrder(m: Manager, index: Int32)
    requires Doubling(m.files, m.pageSize) && m.pageSize >= 0
    requires 0 <= index < 0x7FFF_FFFF && FileOf(index) <= |m.files|
    ensures Fits(FileOf(index), m.pageSize) ==>
      LoadHashtable(m, index).Ok? && Doubling(LoadHashtable(m, index).value.0.files, m.pageSize)
    ensures Fits(FileOf(index), m.pageSize) ==>
      var (m', loc) := LoadHashtable(m, index).value;
      0 <= loc.offset && loc.offset + m.pageSize <= m'.files[loc.file].value.size
    ensures FileOf(index) == |m.files| > 0 && Fits(FileOf(index) - 1, m.pageSize) &&
            !Fits(FileOf(index), m.pageSize) && m.pageSize >= 1 ==>
      LoadHashtable(m, index) == Err(ArgumentOutOfRange)
  {
    var fi := FileOf(index);
    if fi >= |m.files| {
      InitFilesNext(m);
      if Fits(fi, m.pageSize) {
        LocateWithin(InitFiles(m, fi).value.files, m.pageSize, index);
      } else if fi > 0 && Fits(fi - 1, m.pageSize) && m.pageSize >= 1 {
        InitFilesTooLarge(m);
      }
    } else if Fits(fi, m.pageSize) {
      LocateWithin(m.files, m.pageSize, index);
    }
  }

  /** Files 0 to 18 of 4100-byte pages (256 entries of 16 bytes), then
      page 524287, the first page of file 19: its 2^19 pages take
      2,149,580,800 bytes, which wraps to a negative `int`, and creating
      the file throws. */
  lemma LargePageThrows(m: Manager)
    requires m.pageSize == 4100 && |m.files| == 19 && Doubling(m.files, 4100)
    ensures LoadHashtable(m, 524287) == Err(ArgumentOutOfRange)
  {
    LargePowers();
    FileOfCovers(524287, 19);
    LoadInOrder(m, 524287);
  }

  /** A fresh manager asked for page 1 first throws: file 1 is opened
      before file 0. */
  lemma LoadSkipFails(capacity: Int32, entrySize: Int32)
    ensures LoadHashtable(New(capacity, entrySize), 1) == Err(NullReference)
  {
    assert FileOf(1) == 1 by {
      assert Pow2(1) == 2 && Pow2(2) == 4;
    }
    InitFilesSkipFails(New(capacity, entrySize), 1);
  }

  /** `LoadHashtable` with the intended `InitFiles` and `long` sizes and
      offsets: every page of a non-negative index below 2^31 - 1 is found
      inside its file. */
  function LoadHashtableIntended(m: Manager, index: Int32): (r: Result<(Manager, Location)>)
    requires Doubling(m.files, m.pageSize) && m.pageSize >= 0
    ensures r.Ok? <==> 0 <= index < 0x7FFF_FFFF
    ensures r.Ok? ==> Doubling(r.value.0.files, m.pageSize) && r.value.1.file == FileOf(index)
    ensures r.Ok? ==> r.value.1.file < |r.value.0.files|
    ensures r.Ok? ==>
      0 <= r.value.1.offset && r.value.1.offset + m.pageSize <= r.value.0.files[r.value.1.file].value.size
  {
    var fi := FileOf(index);
    if fi < 0 then Err(IndexOutOfRange)
    else
      var m' := InitFilesIntended(m, fi).value;
      LocateWideWithin(m'.files, m.pageSize, index);
      var loc := LocateWide(m'.files, m'.pageSize, index).value;
      Ok((m', loc))
  }
}

=== FILE: results.dfy ===
/** The exceptions RaptorDB's bitmap layer can raise, and a result type that
    carries either a value or the exception the C# code would have thrown. */
module Results {

  /** .NET exceptions the modelled code can raise. `Diverges` stands for a
      loop that never terminates. */
  datatype Error =
    | IndexOutOfRange
    | NullReference
    | Overflow
    | ArgumentOutOfRange
    | DuplicateKey
    | KeyNotFound
    | Argument
    | NotImplemented
    | NotSupported
    | Diverges

  /** Either a value or the exception that aborted the computation. */
  datatype Result<+T> = Ok(value: T) | Err(error: Error) {

    predicate IsFailure() {
      Err?
    }

    function PropagateFailure<U>(): Result<U>
      requires Err?
    {
      Err(error)
    }

    function Extract(): T
      requires Ok?
    {
      value
    }
  }

  /** An optional value; `None` models a null reference or a missing entry. */
  datatype Option<+T> = None | Some(value: T)
}

=== FILE: safedict.dfy ===
/** `SafeDictionary<TKey, TValue>`: a `Dictionary` whose every access is
    taken under one lock. Accesses are therefore atomic, and the dictionary
    is modelled as a map that each operation maps to its successor. */
module SafeDictionary {
  import opened Results

  /** `TryGetValue(key, out value)`: the stored value, or none when the key
      is absent. */
  function TryGetValue<K, V>(d: map<K, V>, key: K): (r: Option<V>)
    ensures r.Some? <==> key in d
    ensures r.Some? ==> r.value == d[key]
  {
    if key in d then Some(d[key]) else None
  }

  /** The indexer's getter: the stored value; an absent key throws
      `KeyNotFoundException`. */
  function Get<K, V>(d: map<K, V>, key: K): (r: Result<V>)
    ensures r.Ok? <==> TryGetValue(d, key).Some?
    ensures r.Ok? ==> r.value == TryGetValue(d, key).value
    ensures r.Err? ==> r.error == KeyNotFound
  {
    if key in d then Ok(d[key]) else Err(KeyNotFound)
  }

  /** The indexer's setter: stores value under key, new or not. */
  function Put<K(!new), V>(d: map<K, V>, key: K, value: V): (r: map<K, V>)
    ensures TryGetValue(r, key) == Some(value)
    ensures forall k :: k != key ==> TryGetValue(r, k) == TryGetValue(d, k)
  {
    d[key := value]
  }

  /** `Add(key, value)`: inserts a new key and overwrites an existing one,
      never throwing as `Dictionary.Add` would. */
  function Add<K(!new), V>(d: map<K, V>, key: K, value: V): (r: map<K, V>)
    ensures r == Put(d, key, value)
    ensures r.Keys == d.Keys + {key}
    ensures |r| == if key in d then |d| else |d| + 1
  {
    if key !in d then d[key := value] else d[key := value]
  }

  /** After `Add(k, v)`, `TryGetValue(k)` finds v, whether k was new or
      overwritten, and every other key reads as before. */
  lemma AddThenGet<K(!new), V>(d: map<K, V>, key: K, value: V, other: K)
    ensures TryGetValue(Add(d, key, value), key) == Some(value)
    ensures other != key ==> TryGetValue(Add(d, key, value), other) == TryGetValue(d, other)
  {
  }

  /** `Count`: the number of keys; zero exactly for the empty dictionary. */
  function Count<K, V>(d: map<K, V>): (r: nat)
    ensures r == |d.Keys|
    ensures r == 0 <==> d == map[]
  {
    |d|
  }

  /** `Remove(key)`: whether the key was present, and the dictionary
      without it. */
  function Remove<K(!new), V>(d: map<K, V>, key: K): (r: (bool, map<K, V>))
    ensures r.0 <==> key in d
    ensures TryGetValue(r.1, key) == None
    ensures forall k :: k != key ==> TryGetValue(r.1, k) == TryGetValue(d, k)
    ensures |r.1| == if r.0 then |d| - 1 else |d|
  {
    (key in d, d - {key})
  }

  /** Removing a key that was just added restores a dictionary that did
      not hold it. */
  lemma AddThenRemove<K(!new), V>(d: map<K, V>, key: K, value: V)
    requires key !in d
    ensures Remove(Add(d, key, value), key) == (true, d)
  {
    assert Add(d, key, value) - {key} == d;
  }

  /** `Keys()`: the keys copied into a fresh array, in the dictionary's
      enumeration order, which the model leaves open. */
  method Keys<K, V>(d: map<K, V>) returns (ks: seq<K>)
    ensures |ks| == |d|
    ensures forall i, j :: 0 <= i < j < |ks| ==> ks[i] != ks[j]
    ensures forall k :: k in ks <==> k in d
  {
    ks := [];
    var rest := d.Keys;
    while rest != {}
      invariant forall k :: k in d <==> k in ks || k in rest
      invariant forall k :: k in ks ==> k !in rest
      invariant forall i, j :: 0 <= i < j < |ks| ==> ks[i] != ks[j]
      invariant |ks| + |rest| == |d|
      decreases |rest|
    {
      var k :| k in rest;
      ks := ks + [k];
      rest := rest - {k};
    }
  }
}

=== FILE: uncompress.dfy ===
/** `WAHBitarray2.Uncompress` exactly as the C# code writes it, with its
    helpers `EnsureLength`, `Write31Bits` and `WriteOnes` over a growing
    `List<uint>`.

    Two of its branches disagree with the format: a ones fill that starts on
    a word boundary always sets all 32 bits of that word, and `WriteOnes`
    sizes its padding as `list.Count - index / 32`, which is negative as soon
    as a ones fill follows zero fills that reach past the list. The intended
    behaviour is `Codec.Uncompress`; the lemmas at the end exhibit inputs
    that `Codec.Compress` produces on which the two differ. */
module UncompressWritten {
  import opened Bits
  import opened Results
  import opened Wah
  import Codec

  /** `new uint[n]`: n zero words; a negative n throws. */
  function NewZeros(n: int): (r: Result<seq<bv32>>)
    ensures r.Ok? <==> n >= 0
    ensures r.Ok? ==> r.value == Zeros(n)
  {
    if n < 0 then Err(Overflow) else Ok(Zeros(n))
  }



  /** `EnsureLength(l, index)`: grow to `index / 31 + 1` words when the list
      holds fewer than index bits, counting 31 bits per word. */
  function EnsureLength(l: seq<bv32>, index: nat): (r: seq<bv32>)
    ensures |r| >= |l| && r[..|l|] == l
    ensures |r| * 31 >= index
  {
    if |l| * 31 < index then l + Zeros(index / 31 - |l| + 1) else l
  }

  /** `Write31Bits(list, index, val)`: OR the 31-bit val into the list at
      bit index, most significant bit first, through a ulong over the two
      words it touches. */
  function Write31Bits(list: seq<bv32>, index: nat, val: bv32): (r: Result<seq<bv32>>)
    ensures r.Ok? && |r.value| >= |list| && |r.value| > (index + 31) / 32
  {
    var l1 := EnsureLength(list, index + 31);
    var off := Off(index);
    var pointer := index / 32;
    var l2 := if pointer >= |l1| - 1 then l1 + [0] else l1;
    if pointer + 1 >= |l2| then Err(IndexOutOfRange)
    else
      var l: bv64 := ((l2[pointer] as bv64) << 32) + (l2[pointer + 1] as bv64);
      var l' := l | ((val as bv64) << (33 - off as bv64));
      Ok(l2[pointer := (l' >> 32) as bv32][pointer + 1 := (l' & 0xffff_ffff) as bv32])
  }

  /** The `while (ccount >= 32)` loop of `WriteOnes`: the first pass drops a
      trailing zero word, then every pass appends a full word. */
  function FullWords(list: seq<bv32>, ccount: int, indx: nat, checklast: bool): (r: (seq<bv32>, int, nat))
    requires |list| > 0
    ensures |r.0| > 0 && r.1 < 32
    ensures r.1 >= 0 ==> r.1 == ccount % 32 && r.2 == indx + 32 * (ccount / 32)
    decreases ccount
  {
    if ccount < 32 then (list, ccount, indx)
    else
      var trimmed := checklast && list[|list| - 1] == 0;
      var l1 := if trimmed then list[..|list| - 1] else list;
      FullWords(l1 + [0xFFFF_FFFF], ccount - 32, indx + 32, checklast && !trimmed)
  }

  /** `WriteOnes(list, index, count)`. */
  function WriteOnes(list: seq<bv32>, index: nat, count: nat): (r: Result<seq<bv32>>)
    ensures r.Err? <==> index / 32 > |list|
    ensures r.Err? ==> r.error == Overflow
  {
    var padded :- if |list| * 32 < index then
        var z :- NewZeros(|list| - index / 32); Ok(list + z)
      else Ok(list);
    var off := index % 32;
    var pointer := index / 32;
    var x := 32 - off;
    var l1 := if pointer >= |padded| then padded + [0] else padded;
    if pointer >= |l1| then Err(IndexOutOfRange)
    else
      var (l2, ccount, indx) :=
        if count > x || x == 32 then
          (l1[pointer := l1[pointer] | Shr(0xFFFF_FFFF, off)], count - x, index + x)
        else
          (l1[pointer := l1[pointer] | Shr(Shl(0xFFFF_FFFF, count), off)], 0, index);
      var (l3, rest, indx') := FullWords(l2, ccount, indx, true);
      var p := indx' / 32;
      var off' := indx' % 32;
      if rest > 0 then
        var i := Shl(0xFFFF_FFFF, 32 - rest);
        if p > |l3| - 1 then Ok(l3 + [i])
        else Ok(l3[p := l3[p] | Shr(i, off')])
      else Ok(l3)
  }

  /** The `foreach` of `Uncompress` from unit k on, at bit index `index`. */
  function UncompressFrom(data: seq<bv32>, k: nat, list: seq<bv32>, index: nat): Result<seq<bv32>>
    requires k <= |data|
    decreases |data| - k
  {
    if k == |data| then
      if |list| * 32 < index then
        var z :- NewZeros(index / 32 - |list|); Ok(list + z)
      else Ok(list)
    else
      var ci := data[k];
      if IsLiteral(ci) then
        var l :- Write31Bits(list, index, ci);
        UncompressFrom(data, k + 1, l, index + 31)
      else
        var count := FillCount(ci) * 31;
        var l :- if FillBit(ci) then WriteOnes(list, index, count) else Ok(list);
        UncompressFrom(data, k + 1, l, index + count)
  }

  /** `WAHBitarray2.Uncompress` as written: null gives null. */
  function Uncompress(data: Option<seq<bv32>>): (r: Result<Option<seq<bv32>>>)
    ensures data.None? ==> r == Ok(None)
    ensures data.Some? && r.Ok? ==> r.value.Some?
  {
    match data
    case None => Ok(None)
    case Some(us) =>
      var words :- UncompressFrom(us, 0, [], 0);
      Ok(Some(words))
  }

  /** A single zeros group stands for 31 bits, less than one word: the
      decoder returns no words. */
  lemma ZeroFillUncompress()
    ensures Uncompress(Some([0x8000_0001])) == Ok(Some([]))
  {
    var data: seq<bv32> := [0x8000_0001];
    assert FillCount(data[0]) == 1 by {
      assert data[0] & CountBitMask == 1;
      assert Val(1) == 1 by { ValUnfold(1); ValZero(); }
    }
    assert !IsLiteral(data[0]) && !FillBit(data[0]);
    var e: seq<bv32> := [];
    assert NewZeros(0) == Ok(e) && e + e == e;
    assert UncompressFrom(data, 1, e, 31) == Ok(e);
    assert UncompressFrom(data, 0, e, 0) == UncompressFrom(data, 1, e, 31);
  }

  /** One group of ones written at bit 0 of an empty list sets 32 bits:
      the `x == 32` test sends a count of 31 down the full-word branch. */
  lemma WriteOnesAligned()
    ensures WriteOnes([], 0, 31) == Ok([0xFFFF_FFFF])
  {
    var r := WriteOnes([], 0, 31);
    assert Shr(0xFFFF_FFFF, 0) == 0xFFFF_FFFF;
    assert r.Ok?;
    assert r.value[0] == 0xFFFF_FFFF;
    assert r.value == [0xFFFF_FFFF];
  }

  /** Group g of a bitmap is the window its two words give at its offset. */
  lemma GroupFrom(data: seq<bv32>, g: nat, p: nat, k: nat, x: bv32, y: bv32)
    requires p == 31 * g / 32 && p < |data| && k == 31 * g % 32
    requires x == data[p] && y == Codec.NextWord(data, p)
    ensures 31 * g < 32 * |data|
    ensures Codec.GroupAt(data, g) == Window(x, y, Small5(k))
  {
    OffValue(31 * g);
    Small5Value(k);
  }

  /** The groups of the one word 0xFFFF_FFFE: 31 ones, then a zero. */
  lemma AlignedOnesGroups(data: seq<bv32>)
    requires data == [0xFFFF_FFFE]
    ensures Codec.GroupsOf(data) == [0x7FFF_FFFF, 0]
  {
    GroupFrom(data, 0, 0, 0, 0xFFFF_FFFE, 0);
    GroupFrom(data, 1, 0, 31, 0xFFFF_FFFE, 0);
    assert Small5(0) == 0 && Small5(31) == 31 by {
      Small5Value(0);
      Small5Value(31);
    }
  }

  /** `Compress` of 0xFFFF_FFFE: a ones fill and a zeros fill of one group. */
  lemma AlignedOnesCompress(data: seq<bv32>)
    requires data == [0xFFFF_FFFE]
    ensures Codec.Compress(data) == [0xC000_0001, 0x8000_0001]
  {
    AlignedOnesGroups(data);
    var gs := Codec.GroupsOf(data);
    assert Codec.CompressFrom(gs, 2, 1, 0, [0xC000_0001]) == [0xC000_0001, 0x8000_0001];
    assert Codec.CompressFrom(gs, 1, 0, 1, []) == [0xC000_0001, 0x8000_0001];
  }

  /** The ones fill of [0xC000_0001, 0x8000_0001] starts at bit 0 and comes
      back as 32 ones. */
  lemma AlignedOnesUncompress(us: seq<bv32>)
    requires us == [0xC000_0001, 0x8000_0001]
    ensures Uncompress(Some(us)) == Ok(Some([0xFFFF_FFFF]))
  {
    assert FillCount(us[0]) == 1 && FillCount(us[1]) == 1 by {
      assert us[0] & CountBitMask == 1 && us[1] & CountBitMask == 1;
      assert Val(1) == 1;
    }
    WriteOnesAligned();
    assert UncompressFrom(us, 2, [0xFFFF_FFFF], 62) == Ok([0xFFFF_FFFF]) by {
      var l: seq<bv32> := [0xFFFF_FFFF];
      assert Zeros(0) == [] && l + [] == l;
    }
    assert UncompressFrom(us, 1, [0xFFFF_FFFF], 31) == Ok([0xFFFF_FFFF]);
    assert UncompressFrom(us, 0, [], 0) == Ok([0xFFFF_FFFF]);
  }

  /** A word of 31 ones followed by a zero bit: Compress stores one ones
      group and one zero group, and the ones fill, starting on a word
      boundary, comes back as a full word of ones. */
  lemma AlignedOnesFill(data: seq<bv32>)
    requires data == [0xFFFF_FFFE]
    ensures Codec.Compress(data) == [0xC000_0001, 0x8000_0001]
    ensures Uncompress(Some(Codec.Compress(data))) == Ok(Some([0xFFFF_FFFF]))
    ensures Codec.Uncompress(Some(Codec.Compress(data))) == Some(data)
  {
    AlignedOnesCompress(data);
    AlignedOnesUncompress(Codec.Compress(data));
    Codec.UncompressCompress(data);
  }

  /** The groups of [0, 3, 0xFFFF_FFF8]: two zero groups, 31 ones across
      words 1 and 2, then three zero bits. */
  lemma PaddingGroups(data: seq<bv32>)
    requires data == [0, 3, 0xFFFF_FFF8]
    ensures Codec.GroupsOf(data) == [0, 0, 0x7FFF_FFFF, 0]
  {
    GroupFrom(data, 0, 0, 0, 0, 3);
    GroupFrom(data, 1, 0, 31, 0, 3);
    GroupFrom(data, 2, 1, 30, 3, 0xFFFF_FFF8);
    GroupFrom(data, 3, 2, 29, 0xFFFF_FFF8, 0);
    assert Small5(0) == 0 && Small5(31) == 31 && Small5(30) == 30 && Small5(29) == 29 by {
      Small5Value(0);
      Small5Value(31);
      Small5Value(30);
      Small5Value(29);
    }
  }

  /** `Compress` of [0, 3, 0xFFFF_FFF8]. */
  lemma PaddingCompress(data: seq<bv32>)
    requires data == [0, 3, 0xFFFF_FFF8]
    ensures Codec.Compress(data) == [0x8000_0002, 0xC000_0001, 0x8000_0001]
  {
    PaddingGroups(data);
    var gs := Codec.GroupsOf(data);
    var acc: seq<bv32> := [0x8000_0002, 0xC000_0001];
    assert Codec.CompressFrom(gs, 4, 1, 0, acc) == acc + [0x8000_0001];
    assert Codec.CompressFrom(gs, 3, 0, 1, [0x8000_0002]) == acc + [0x8000_0001];
    assert gs[2] == OnesGroup && Codec.FlushZeros([], 2) == [0x8000_0002];
    assert Codec.CompressFrom(gs, 2, 2, 0, []) == acc + [0x8000_0001];
    assert Codec.CompressFrom(gs, 1, 1, 0, []) == acc + [0x8000_0001];
  }

  /** The ones fill of [0x8000_0002, 0xC000_0001, 0x8000_0001] reaches
      `WriteOnes` at bit 62 with an empty list. */
  lemma PaddingUncompress(us: seq<bv32>)
    requires us == [0x8000_0002, 0xC000_0001, 0x8000_0001]
    ensures Uncompress(Some(us)) == Err(Overflow)
  {
    assert FillCount(us[0]) == 2 by {
      assert us[0] & CountBitMask == 2;
      assert Val(1) == 1;
      assert Val(2) == 2;
    }
    assert UncompressFrom(us, 1, [], 62) == Err(Overflow) by {
      assert FillCount(us[1]) == 1 by {
        assert us[1] & CountBitMask == 1;
        assert Val(1) == 1;
      }
      assert WriteOnes([], 62, 31) == Err(Overflow);
    }
    assert UncompressFrom(us, 0, [], 0) == Err(Overflow);
  }

  /** Two zero groups, one ones group straddling words 1 and 2, one zero
      group: `WriteOnes` is reached with an empty list at bit 62 and asks
      for an array of -1 words. */
  lemma NegativePadding(data: seq<bv32>)
    requires data == [0, 3, 0xFFFF_FFF8]
    ensures Codec.Compress(data) == [0x8000_0002, 0xC000_0001, 0x8000_0001]
    ensures Uncompress(Some(Codec.Compress(data))) == Err(Overflow)
    ensures Codec.Uncompress(Some(Codec.Compress(data))) == Some(data)
  {
    PaddingCompress(data);
    PaddingUncompress(Codec.Compress(data));
    Codec.UncompressCompress(data);
  }
}

=== FILE: wah.dfy ===
/** The word-aligned hybrid (WAH) unit format RaptorDB stores bitmaps in.

    A bitmap is cut into 31-bit groups. Each 32-bit unit is either
    - a literal: bit 31 clear, the low 31 bits are one group verbatim; or
    - a fill: bit 31 set, bit 30 the fill value, the low 30 bits a count of
      groups that are all zeros or all ones.

    `Expand` gives the meaning of a unit array as its sequence of groups;
    every codec operation is specified against it. */
module Wah {
  import opened Bits

  /** `1u << 31`: set on fills. */
  const FirstBitMask: bv32 := 0x8000_0000
  /** `1u << 30`: the fill value. */
  const SecondBitMask: bv32 := 0x4000_0000
  /** `~(3 << 30)`: the run count of a fill. */
  const CountBitMask: bv32 := 0x3FFF_FFFF
  /** A group of 31 ones. */
  const OnesGroup: bv32 := 0x7FFF_FFFF

  /** The three masks split a unit into flag, fill value and count. */
  lemma MaskLayout()
    ensures FirstBitMask == 1 << 31 && SecondBitMask == 1 << 30 && CountBitMask == !(3 << 30)
    ensures FirstBitMask | SecondBitMask | CountBitMask == 0xFFFF_FFFF
    ensures FirstBitMask & SecondBitMask == 0 && FirstBitMask & CountBitMask == 0
    ensures SecondBitMask & CountBitMask == 0
  {}

  predicate IsLiteral(u: bv32) {
    u & FirstBitMask == 0
  }

  /** The fill value of a fill unit. */
  predicate FillBit(u: bv32) {
    u & SecondBitMask != 0
  }

  /** The run length of a fill unit, in groups. */
  function FillCount(u: bv32): nat {
    Val(u & CountBitMask)
  }

  /** The group a fill repeats. */
  function FillGroup(b: bool): bv32 {
    if b then OnesGroup else 0
  }

  /** n copies of the fill group of b. */
  function Run(b: bool, n: nat): (r: seq<bv32>)
    ensures |r| == n
    ensures forall i :: 0 <= i < n ==> r[i] == FillGroup(b)
  {
    seq(n, _ => FillGroup(b))
  }

  /** The fill unit `(1u << 31) | (b << 30) | c`. */
  function FillOf(b: bool, c: bv32): bv32 {
    FirstBitMask | (if b then SecondBitMask else 0) | c
  }

  /** A fill built from a count that fits in 30 bits reads back as a fill of
      value b and length Val(c). */
  function MakeFill(b: bool, c: bv32): (u: bv32)
    requires c & 0xC000_0000 == 0
    ensures !IsLiteral(u) && FillBit(u) == b && FillCount(u) == Val(c)
  {
    FillFields(b, c);
    FillOf(b, c)
  }

  lemma FillFields(b: bool, c: bv32)
    requires c & 0xC000_0000 == 0
    ensures !IsLiteral(FillOf(b, c)) && FillBit(FillOf(b, c)) == b
    ensures FillOf(b, c) & CountBitMask == c
  {
    if b { OnesFillFields(c); } else { ZerosFillFields(c); }
  }

  lemma OnesFillFields(c: bv32)
    requires c & 0xC000_0000 == 0
    ensures (0xC000_0000 | c) & 0x8000_0000 != 0 && (0xC000_0000 | c) & 0x4000_0000 != 0
    ensures (0xC000_0000 | c) & 0x3FFF_FFFF == c
  {}

  lemma ZerosFillFields(c: bv32)
    requires c & 0xC000_0000 == 0
    ensures (0x8000_0000 | c) & 0x8000_0000 != 0 && (0x8000_0000 | c) & 0x4000_0000 == 0
    ensures (0x8000_0000 | c) & 0x3FFF_FFFF == c
  {}

  /** The groups one unit stands for. */
  function UnitGroups(u: bv32): seq<bv32> {
    if IsLiteral(u) then [u] else Run(FillBit(u), FillCount(u))
  }

  /** The group sequence a unit array stands for. */
  function Expand(us: seq<bv32>): seq<bv32>
    decreases |us|
  {
    if |us| == 0 then [] else Expand(us[..|us| - 1]) + UnitGroups(us[|us| - 1])
  }

  /** Expansion distributes over concatenation. */
  lemma {:induction false} ExpandAppend(a: seq<bv32>, b: seq<bv32>)
    ensures Expand(a + b) == Expand(a) + Expand(b)
    decreases |b|
  {
    if |b| == 0 {
      assert a + b == a;
    } else {
      var b' := b[..|b| - 1];
      assert (a + b)[..|a + b| - 1] == a + b';
      ExpandAppend(a, b');
    }
  }

  lemma ExpandOne(u: bv32)
    ensures Expand([u]) == UnitGroups(u)
  {
    assert [u][..0] == [];
  }

  /** Every expanded element is a 31-bit group. */
  lemma {:induction false} ExpandGroups(us: seq<bv32>)
    ensures forall i :: 0 <= i < |Expand(us)| ==> IsLiteral(Expand(us)[i])
    decreases |us|
  {
    if |us| > 0 {
      ExpandGroups(us[..|us| - 1]);
    }
  }

  /** The shape Compress and the writer promise: every fill has a positive
      count and two adjacent fills never carry the same value. */
  predicate Coalesced(us: seq<bv32>) {
    (forall i :: 0 <= i < |us| && !IsLiteral(us[i]) ==> FillCount(us[i]) >= 1) &&
    (forall i :: 0 <= i < |us| - 1 && !IsLiteral(us[i]) && !IsLiteral(us[i + 1]) ==>
      FillBit(us[i]) != FillBit(us[i + 1]))
  }

  /** The last unit of a non-empty array is a fill of value b. */
  predicate EndsWithFill(us: seq<bv32>, b: bool) {
    |us| > 0 && !IsLiteral(us[|us| - 1]) && FillBit(us[|us| - 1]) == b
  }

  /** Appending a unit keeps an array coalesced when the unit is a literal
      or a positive fill whose value differs from a trailing fill. */
  lemma CoalescedAppend(us: seq<bv32>, u: bv32)
    requires Coalesced(us)
    requires !IsLiteral(u) ==> FillCount(u) >= 1 && !EndsWithFill(us, FillBit(u))
    ensures Coalesced(us + [u])
  {
    var r := us + [u];
    forall i | 0 <= i < |r| - 1 && !IsLiteral(r[i]) && !IsLiteral(r[i + 1])
      ensures FillBit(r[i]) != FillBit(r[i + 1])
    {
      if i + 1 < |us| {
        assert r[i] == us[i] && r[i + 1] == us[i + 1];
      }
    }
  }

  /** The shape `Compress` produces: coalesced, and no literal is a group
      a fill could have carried. */
  predicate Canonical(us: seq<bv32>) {
    Coalesced(us) &&
    forall i :: 0 <= i < |us| && IsLiteral(us[i]) ==> us[i] != 0 && us[i] != OnesGroup
  }
}

=== FILE: wahand.dfy ===
/** `WahHelper.WahAnd` and its `IterState` cursor, as the C# code writes
    them.

    Two details of the code shape its behaviour. First, `SecondBitMask >> 30`
    binds tighter than `&`, so a fill's value is read from bit 0 of its count
    rather than from bit 30, and `0x3fffffff - 1` binds tighter than `&` in
    `Skip`. Second, `IterState` and `WahWriter` are structs: `CopyTo` gets a
    copy of the writer, so its index and last-fill state are lost on return,
    while the words it wrote into the shared current chunk stay there. */
module WahHelperAnd {
  import opened Bits
  import opened Results
  import opened Wah
  import opened WahWriter
  import Codec
  import WahHelper

  /** `struct IterState`: a cursor over a unit array. `count` is how many
      more groups of the current fill `TakeWord` hands out before it reads
      the next unit; `value` is the group it hands out. `count` is a C#
      `int`: the two updates that can leave its range, `Count--` and
      `Count -= len`, wrap. */
  datatype IterState = IterState(arr: seq<bv32>, index: nat, count: int, value: bv32)

  /** `new IterState(arr)`. */
  function Start(arr: seq<bv32>): (s: IterState)
    ensures s.arr == arr && s.index == 0 && s.count == 0
  {
    IterState(arr, 0, 0, 0)
  }

  /** The group value a fill unit gives as written:
      `(ai & SecondBitMask >> 30) * 0x7fffffff`, that is bit 0 of ai. */
  function FillValue(ai: bv32): bv32 {
    (ai & (SecondBitMask >> 30)) * 0x7FFF_FFFF
  }

  /** `TakeWord()`: the next group. A fill read here leaves `count - 1` of
      its groups to hand out; a count field of 0 leaves -1, and from then on
      the cursor counts down without reading, until the count wraps from
      `int.MinValue` to `int.MaxValue`. */
  function TakeWord(s: IterState): (r: Result<(IterState, bv32)>)
    ensures r.Ok? ==> r.value.0.arr == s.arr && r.value.1 == r.value.0.value
    ensures r.Ok? && s.count != 0 && -0x8000_0000 < s.count < 0x8000_0000 ==>
      r.value.0 == s.(count := s.count - 1)
    ensures r.Ok? && s.count == -0x8000_0000 ==> r.value.0 == s.(count := 0x7FFF_FFFF)
    ensures r.Err? <==> s.count == 0 && s.index >= |s.arr|
  {
    if s.count == 0 then
      if s.index >= |s.arr| then Err(IndexOutOfRange)
      else
        var ai := s.arr[s.index];
        if ai >> 31 == 1 then
          var v := FillValue(ai);
          Ok((s.(index := s.index + 1, count := AsInt((ai & 0x3FFF_FFFF) - 1), value := v), v))
        else
          Ok((s.(index := s.index + 1, value := ai), ai))
    else
      Ok((s.(count := WahHelper.Int32(s.count - 1)), s.value))
  }

  /** The `while (Count < 0)` loop of `Skip`. */
  function SkipLoop(s: IterState): (r: Result<IterState>)
    ensures r.Ok? ==> r.value.arr == s.arr && r.value.count >= 0 && r.value.index >= s.index
    decreases |s.arr| - s.index
  {
    if s.count >= 0 then Ok(s)
    else if s.index >= |s.arr| then Err(IndexOutOfRange)
    else
      var ai := s.arr[s.index];
      if ai & FirstBitMask != 0 then
        var c := s.count + Val(ai & 0x3FFF_FFFE);
        SkipLoop(s.(index := s.index + 1, count := c,
                    value := if c >= 0 then FillValue(ai) else s.value))
      else
        SkipLoop(s.(index := s.index + 1, count := s.count + 1, value := ai))
  }

  /** `Skip(len)`: pass over len groups without writing them. */
  function Skip(s: IterState, len: int): (r: Result<IterState>)
    ensures r.Ok? ==> r.value.arr == s.arr && r.value.count >= 0
  {
    SkipLoop(s.(count := WahHelper.Int32(s.count - len)))
  }

  /** The `while (len > 0)` loop of `CopyTo`, writing to the writer copy w. */
  function CopyLoop(s: IterState, w: Writer, len: int): (r: Result<(IterState, Writer, int)>)
    requires Valid(w)
    ensures r.Ok? ==> r.value.0.arr == s.arr && Valid(r.value.1) && r.value.1.len == w.len
    ensures r.Ok? ==> r.value.2 <= 0
    decreases |s.arr| - s.index
  {
    if len <= 0 then Ok((s, w, len))
    else if s.index >= |s.arr| then Err(IndexOutOfRange)
    else
      var ai := s.arr[s.index];
      if ai >> 31 == 1 then
        var count := ai & 0x3FFF_FFFF;
        var value := ai & (SecondBitMask >> 30);
        var w1 :- WriteSum(w, count, value);
        CopyLoop(s.(index := s.index + 1, count := Val(count), value := value * 0x7FFF_FFFF), w1, len - Val(count))
      else
        var w1 :- WriteLit(w, ai);
        CopyLoop(s.(index := s.index + 1, count := 0, value := ai), w1, len - 1)
  }

  /** What the caller's writer sees after a struct copy c of it was written
      to: the words c wrote into the shared chunk. When c had to start a
      new chunk the caller's chunk list and array diverge from c's in ways
      a value model does not follow, and the model stops. */
  function CopyBack(w: Writer, c: Writer): (r: Result<Writer>)
    requires Valid(w) && Valid(c) && c.len == w.len
    ensures r.Ok? <==> |c.bits| == |w.bits|
    ensures r.Ok? ==> Valid(r.value) && r.value.len == w.len && r.value.index == w.index
  {
    if |c.bits| != |w.bits| then Err(NotSupported)
    else
      var r := w.(arr := c.arr);
      assert Valid(r);
      Ok(r)
  }

  /** `CopyTo(w, len)`: copy len groups to the writer, passed by value. */
  function CopyTo(s: IterState, w: Writer, len: int): (r: Result<(IterState, Writer)>)
    requires Valid(w)
    ensures r.Ok? ==> r.value.0.arr == s.arr && Valid(r.value.1) && r.value.1.len == w.len
  {
    var t :- CopyLoop(s, w, len);
    var w1 :- CopyBack(w, t.1);
    Ok((t.0.(count := t.0.count + t.2), w1))
  }

  /** The `if (x.Count > 0)` step after each written group: a zeros run of
      x makes y skip as many groups, any other run is copied from y. */
  function Catch(x: IterState, y: IterState, w: Writer): (r: Result<(IterState, IterState, Writer)>)
    requires Valid(w)
    ensures r.Ok? ==> r.value.0.arr == x.arr && r.value.1.arr == y.arr
    ensures r.Ok? ==> Valid(r.value.2) && r.value.2.len == w.len
    ensures x.count <= 0 ==> r == Ok((x, y, w))
  {
    if x.count > 0 then
      if x.value == 0 then
        var y1 :- Skip(y, x.count);
        Ok((x.(count := 0), y1, w))
      else
        var t :- CopyTo(y, w, x.count);
        Ok((x.(count := 0), t.0, t.1))
    else Ok((x, y, w))
  }

  /** The `while` loop of `WahAnd`, for at most fuel more rounds: a round
      that would go past them gives `Diverges`. */
  function AndLoop(a: IterState, b: IterState, w: Writer, fuel: nat): (r: Result<Writer>)
    requires Valid(w)
    ensures r.Ok? ==> Valid(r.value) && r.value.len == w.len
    decreases fuel, 0
  {
    if !(a.index < |a.arr| && b.index < |b.arr|) then Ok(w)
    else if fuel == 0 then Err(Diverges)
    else AndRound(a, b, w, fuel - 1)
  }

  /** One round of the loop body: write the AND of the next two groups,
      then let a pending run of either cursor act on the other. */
  function AndRound(a: IterState, b: IterState, w: Writer, fuel: nat): (r: Result<Writer>)
    requires Valid(w) && a.index < |a.arr| && b.index < |b.arr|
    ensures r.Ok? ==> Valid(r.value) && r.value.len == w.len
    decreases fuel, 1
  {
    var ta := TakeWord(a).value;
    var tb := TakeWord(b).value;
    var w1 :- WriteLit(w, ta.1 & tb.1);
    var s1 :- Catch(ta.0, tb.0, w1);
    var s2 :- Catch(s1.1, s1.0, s1.2);
    AndLoop(s2.1, s2.0, s2.2, fuel)
  }

  /** `WahHelper.WahAnd(ap, bp)`, run for at most fuel rounds of its loop. */
  function WahAnd(ap: seq<bv32>, bp: seq<bv32>, fuel: nat): Result<seq<bv32>> {
    var w :- AndLoop(Start(ap), Start(bp), New(|ap|), fuel);
    Ok(ToArray(w))
  }

  // ---------------------------------------------------------------------
  // What WahAnd computes
  // ---------------------------------------------------------------------

  /** The AND of two group streams, over the shorter one: past its end
      every bit reads as zero. */
  function AndGroups(x: seq<bv32>, y: seq<bv32>): (r: seq<bv32>)
    ensures |r| == if |x| < |y| then |x| else |y|
    ensures forall i, j :: 0 <= i < |r| && j < 31 ==>
      (GroupBit(r[i], j) <==> GroupBit(x[i], j) && GroupBit(y[i], j))
  {
    var n := if |x| < |y| then |x| else |y|;
    seq(n, i requires 0 <= i < n => x[i] & y[i])
  }

  lemma AndLiteral(x: bv32, y: bv32)
    requires IsLiteral(x) && IsLiteral(y)
    ensures IsLiteral(x & y)
  {}

  lemma AndGroupsLiteral(x: seq<bv32>, y: seq<bv32>)
    requires Codec.AllLiteral(x) && Codec.AllLiteral(y)
    ensures Codec.AllLiteral(AndGroups(x, y))
  {
    forall i | 0 <= i < |AndGroups(x, y)|
      ensures IsLiteral(AndGroups(x, y)[i])
    {
      AndLiteral(x[i], y[i]);
    }
  }

  /** The AND as intended: the AND of the two expansions, written group by
      group through a `WahWriter`, which makes it canonical. */
  function AndIntended(ap: seq<bv32>, bp: seq<bv32>): (r: seq<bv32>)
    requires |Expand(ap)| < 0x4000_0000
    ensures Canonical(r) && Expand(r) == AndGroups(Expand(ap), Expand(bp))
  {
    var gs := AndGroups(Expand(ap), Expand(bp));
    ExpandGroups(ap);
    ExpandGroups(bp);
    AndGroupsLiteral(Expand(ap), Expand(bp));
    WriteGroupsEncode(4096, gs);
    Units(WriteFrom(New(4096), gs, 0).value)
  }

  /** A literal unit: its top bit is clear. */
  lemma LiteralTop(u: bv32)
    requires IsLiteral(u)
    ensures u >> 31 != 1
  {}

  /** A stream of literals expands to itself. */
  lemma {:induction false} ExpandLiterals(us: seq<bv32>)
    requires Codec.AllLiteral(us)
    ensures Expand(us) == us
    decreases |us|
  {
    if |us| > 0 {
      ExpandLiterals(us[..|us| - 1]);
    }
  }

  /** `TakeWord` on a literal with no run pending: the literal itself. */
  lemma TakeLiteral(s: IterState)
    requires s.count == 0 && s.index < |s.arr| && IsLiteral(s.arr[s.index])
    ensures TakeWord(s) == Ok((s.(index := s.index + 1, value := s.arr[s.index]), s.arr[s.index]))
  {
    LiteralTop(s.arr[s.index]);
  }

  /** The body of a round over two literals: write their AND, hold no run. */
  lemma LiteralAndRound(a: seq<bv32>, b: seq<bv32>, i: nat, va: bv32, vb: bv32, w: Writer, v: bv32, f: nat)
    requires i < |a| && i < |b| && IsLiteral(a[i]) && IsLiteral(b[i]) && v == a[i] & b[i]
    requires Valid(w) && w.len > 0
    ensures WriteLit(w, v).Ok?
    ensures AndRound(IterState(a, i, 0, va), IterState(b, i, 0, vb), w, f) ==
      AndLoop(IterState(a, i + 1, 0, a[i]), IterState(b, i + 1, 0, b[i]), WriteLit(w, v).value, f)
  {
    TakeLiteral(IterState(a, i, 0, va));
    TakeLiteral(IterState(b, i, 0, vb));
  }

  /** One round over two literals. */
  lemma LiteralRound(a: seq<bv32>, b: seq<bv32>, i: nat, va: bv32, vb: bv32, w: Writer, fuel: nat, v: bv32, f: nat)
    requires i < |a| && i < |b| && IsLiteral(a[i]) && IsLiteral(b[i]) && v == a[i] & b[i]
    requires fuel > 0 && f == fuel - 1 && Valid(w) && w.len > 0
    ensures WriteLit(w, v).Ok?
    ensures AndLoop(IterState(a, i, 0, va), IterState(b, i, 0, vb), w, fuel) ==
      AndLoop(IterState(a, i + 1, 0, a[i]), IterState(b, i + 1, 0, b[i]), WriteLit(w, v).value, f)
  {
    LiteralAndRound(a, b, i, va, vb, w, v, f);
  }

  /** From unit i of two literal-only operands on, the loop writes exactly
      what writing their ANDed groups from i would. */
  predicate RoundsAgree(a: seq<bv32>, b: seq<bv32>, i: nat, va: bv32, vb: bv32, w: Writer, fuel: nat)
    requires Valid(w)
  {
    AndLoop(IterState(a, i, 0, va), IterState(b, i, 0, vb), w, fuel) == WriteFrom(w, AndGroups(a, b), i)
  }

  /** Past the last unit the loop stops and the writer is unchanged. */
  lemma LiteralRoundsEnd(a: seq<bv32>, b: seq<bv32>, va: bv32, vb: bv32, w: Writer, fuel: nat)
    requires |a| == |b| && Valid(w) && w.len > 0
    ensures RoundsAgree(a, b, |a|, va, vb, w, fuel)
  {}

  /** One round, joined to the rounds after it. */
  lemma LiteralRoundsStep(a: seq<bv32>, b: seq<bv32>, i: nat, va: bv32, vb: bv32, w: Writer, fuel: nat,
                          v: bv32, w1: Writer, f: nat)
    requires Codec.AllLiteral(a) && Codec.AllLiteral(b) && |a| == |b|
    requires i < |a| && fuel > 0 && f == fuel - 1 && Valid(w) && w.len > 0 && v == a[i] & b[i]
    requires WriteLit(w, v) == Ok(w1) && Valid(w1)
    requires RoundsAgree(a, b, i + 1, a[i], b[i], w1, f)
    ensures RoundsAgree(a, b, i, va, vb, w, fuel)
  {
    LiteralRound(a, b, i, va, vb, w, fuel, v, f);
    WriteFromStep(w, AndGroups(a, b), i);
  }

  /** On literal-only inputs of equal length the cursors never hold a
      run: every round ANDs one unit of each and writes the result. */
  lemma {:induction false} LiteralRounds(a: seq<bv32>, b: seq<bv32>, i: nat, va: bv32, vb: bv32, w: Writer, fuel: nat)
    requires Codec.AllLiteral(a) && Codec.AllLiteral(b) && |a| == |b|
    requires i <= |a| && fuel >= |a| - i && Valid(w) && w.len > 0
    ensures RoundsAgree(a, b, i, va, vb, w, fuel)
    decreases |a| - i
  {
    if i < |a| {
      var v := a[i] & b[i];
      var w1 := WriteLit(w, v).value;
      var f: nat := fuel - 1;
      LiteralRounds(a, b, i + 1, a[i], b[i], w1, f);
      LiteralRoundsStep(a, b, i, va, vb, w, fuel, v, w1, f);
    } else {
      LiteralRoundsEnd(a, b, va, vb, w, fuel);
    }
  }

  /** On literal-only operands of equal length `WahAnd` writes their ANDed
      groups one by one. */
  lemma WahAndWrites(a: seq<bv32>, b: seq<bv32>, fuel: nat)
    requires Codec.AllLiteral(a) && Codec.AllLiteral(b) && 0 < |a| == |b|
    requires fuel >= |a|
    ensures WahAnd(a, b, fuel) == Ok(Units(WriteFrom(New(|a|), AndGroups(a, b), 0).value))
  {
    LiteralRounds(a, b, 0, 0, 0, New(|a|), fuel);
  }

  /** `WahAnd` of two literal-only arrays of the same non-zero length is
      the canonical form of their AND. */
  lemma WahAndLiterals(a: seq<bv32>, b: seq<bv32>, fuel: nat)
    requires Codec.AllLiteral(a) && Codec.AllLiteral(b) && 0 < |a| == |b| < 0x4000_0000
    requires fuel >= |a|
    ensures WahAnd(a, b, fuel).Ok?
    ensures Canonical(WahAnd(a, b, fuel).value)
    ensures Expand(WahAnd(a, b, fuel).value) == AndGroups(Expand(a), Expand(b))
  {
    WahAndWrites(a, b, fuel);
    ExpandLiterals(a);
    ExpandLiterals(b);
    AndGroupsLiteral(a, b);
    WriteGroupsEncode(|a|, AndGroups(a, b));
  }

  // ---------------------------------------------------------------------
  // Where WahAnd departs from the AND
  // ---------------------------------------------------------------------

  /** The round `WahAnd([0x8000_0001], [0x1234])` runs: the fill reads as
      a ones group, so the literal is written as it is. */
  lemma SwappedRound(ap: seq<bv32>, bp: seq<bv32>, w: Writer, fuel: nat)
    requires ap == [0x8000_0001] && bp == [0x1234] && Valid(w) && w.len > 0
    ensures WriteLit(w, 0x1234).Ok?
    ensures AndRound(Start(ap), Start(bp), w, fuel) == Ok(WriteLit(w, 0x1234).value)
  {
    var ta := TakeWord(Start(ap)).value;
    assert FillValue(0x8000_0001) == 0x7FFF_FFFF;
    assert ta == (IterState(ap, 1, 0, 0x7FFF_FFFF), 0x7FFF_FFFF);
    LiteralTop(0x1234);
  }

  /** `WahAnd([0x8000_0001], [0x1234])` returns the literal unchanged. */
  lemma SwappedResult(ap: seq<bv32>, bp: seq<bv32>, fuel: nat)
    requires ap == [0x8000_0001] && bp == [0x1234] && fuel >= 1
    ensures WahAnd(ap, bp, fuel) == Ok([0x1234])
  {
    var w := New(1);
    SwappedRound(ap, bp, w, fuel - 1);
    LiteralTop(0x1234);
    assert Units(WriteLit(w, 0x1234).value) == [0x1234];
  }

  /** What the two operands stand for, and their AND. */
  lemma SwappedGroups(ap: seq<bv32>, bp: seq<bv32>)
    requires ap == [0x8000_0001] && bp == [0x1234]
    ensures Expand(ap) == [0] && Expand(bp) == [0x1234]
    ensures AndGroups(Expand(ap), Expand(bp)) == [0]
  {
    assert Expand(ap) == Expand([]) + UnitGroups(0x8000_0001);
    assert Expand(bp) == Expand([]) + UnitGroups(0x1234);
  }

  /** The fill 0x8000_0001 is one zero group, but its bit 0 is set, so
      `TakeWord` hands out a ones group for it and the AND keeps the other
      operand's literal instead of clearing it. */
  lemma FillValueSwapped(ap: seq<bv32>, bp: seq<bv32>, fuel: nat)
    requires ap == [0x8000_0001] && bp == [0x1234] && fuel >= 1
    ensures Expand(ap) == [0] && Expand(bp) == [0x1234]
    ensures WahAnd(ap, bp, fuel) == Ok(bp)
    ensures Expand(AndIntended(ap, bp)) == [0]
  {
    SwappedResult(ap, bp, fuel);
    SwappedGroups(ap, bp);
  }

  /** The body of a round with both cursors counting down below zero: AND
      their held groups, write it, and count down once more. */
  lemma StuckRound(a: IterState, b: IterState, w: Writer, v: bv32, f: nat)
    requires a.index < |a.arr| && b.index < |b.arr|
    requires -0x8000_0000 < a.count < 0 && -0x8000_0000 < b.count < 0
    requires Valid(w) && w.len > 0 && v == a.value & b.value
    ensures WriteLit(w, v).Ok?
    ensures AndRound(a, b, w, f) ==
      AndLoop(a.(count := a.count - 1), b.(count := b.count - 1), WriteLit(w, v).value, f)
  {
    var ta := TakeWord(a).value;
    var tb := TakeWord(b).value;
    assert ta.0 == a.(count := a.count - 1) && ta.1 == a.value;
    assert tb.0 == b.(count := b.count - 1) && tb.1 == b.value;
  }

  /** Once both cursors hold a negative count, `TakeWord` only counts down
      and never reads a unit again until the count wraps, so the loop runs
      out of any fuel that ends before the wrap. */
  lemma {:induction false} StuckCursors(a: IterState, b: IterState, w: Writer, fuel: nat)
    requires a.index < |a.arr| && b.index < |b.arr| && a.count < 0 && b.count < 0
    requires fuel <= a.count + 0x8000_0000 && fuel <= b.count + 0x8000_0000
    requires Valid(w) && w.len > 0
    ensures AndLoop(a, b, w, fuel) == Err(Diverges)
    decreases fuel
  {
    if fuel > 0 {
      var v := a.value & b.value;
      var f: nat := fuel - 1;
      var a', b' := a.(count := a.count - 1), b.(count := b.count - 1);
      assert WriteLit(w, v).Ok? && AndLoop(a, b, w, fuel) == AndLoop(a', b', WriteLit(w, v).value, f) by {
        StuckRound(a, b, w, v, f);
      }
      StuckCursors(a', b', WriteLit(w, v).value, f);
    }
  }

  /** A loop that fails makes `WahAnd` fail the same way. */
  lemma AndLoopFails(ap: seq<bv32>, bp: seq<bv32>, fuel: nat, e: Error)
    requires AndLoop(Start(ap), Start(bp), New(|ap|), fuel) == Err(e)
    ensures WahAnd(ap, bp, fuel) == Err(e)
  {}

  /** The first round over [0x8000_0000, 0x1]: the fill with count field 0
      leaves both cursors at -1 on unit 1. */
  lemma ZeroCountRound(ap: seq<bv32>, w: Writer, f: nat)
    requires ap == [0x8000_0000, 0x1] && Valid(w) && w.len > 0
    ensures WriteLit(w, 0).Ok?
    ensures AndRound(Start(ap), Start(ap), w, f) ==
      AndLoop(IterState(ap, 1, -1, 0), IterState(ap, 1, -1, 0), WriteLit(w, 0).value, f)
  {
    var t := TakeWord(Start(ap)).value;
    ValUnfold(1);
    ValZero();
    assert t.0 == IterState(ap, 1, -1, 0);
  }

  /** From the start, the loop over [0x8000_0000, 0x1] twice runs out of
      any fuel up to 2^31 rounds. */
  lemma ZeroCountLoop(ap: seq<bv32>, w: Writer, fuel: nat)
    requires ap == [0x8000_0000, 0x1] && Valid(w) && w.len > 0
    requires fuel <= 0x8000_0000
    ensures AndLoop(Start(ap), Start(ap), w, fuel) == Err(Diverges)
  {
    if fuel > 0 {
      var f: nat := fuel - 1;
      var s := IterState(ap, 1, -1, 0);
      ZeroCountRound(ap, w, f);
      StuckCursors(s, s, WriteLit(w, 0).value, f);
    }
  }

  /** A fill whose count field is 0 leaves the cursor at -1: with another
      unit after it in both operands, `WahAnd` on a two-unit array runs
      more than 2^31 rounds, writing a group in each. */
  lemma ZeroCountRunsOn(ap: seq<bv32>, fuel: nat)
    requires ap == [0x8000_0000, 0x1] && fuel <= 0x8000_0000
    ensures WahAnd(ap, ap, fuel) == Err(Diverges)
  {
    ZeroCountLoop(ap, New(|ap|), fuel);
    AndLoopFails(ap, ap, fuel, Diverges);
  }

  /** A zeros fill of two groups against a single literal: after the first
      round the fill has one group left, and `Skip` reads past the end of
      the other operand to pass it. */
  lemma WahAndSkipsPast(fuel: nat)
    requires fuel >= 1
    ensures WahAnd([0x8000_0002], [0x1], fuel) == Err(IndexOutOfRange)
  {
    var a, b := Start([0x8000_0002]), Start([0x1]);
    var w := New(1);
    var ta := TakeWord(a).value;
    assert Val(1) == 1 by { ValUnfold(1); ValZero(); }
    assert ta.0 == IterState([0x8000_0002], 1, 1, 0);
    var tb := TakeWord(b).value;
    assert tb.0 == IterState([0x1], 1, 0, 1);
    assert Skip(tb.0, 1) == Err(IndexOutOfRange);
    assert AndRound(a, b, w, fuel - 1) == Err(IndexOutOfRange);
  }
}

=== FILE: wahhelper.dfy ===
/** `WahHelper`: operations directly on WAH unit arrays, and the second
    compressor that feeds a dense bitmap to a `WahWriter`. */
module WahHelper {
  import opened Bits
  import opened Results
  import opened Wah
  import opened WahWriter
  import BitHelper
  import Codec

  // ---------------------------------------------------------------------
  // WahNot / InPlaceNot
  // ---------------------------------------------------------------------

  /** The complement of one unit: a literal has its 31 payload bits
      inverted, a fill has its value bit flipped and keeps its count. */
  function NotUnit(u: bv32): (r: bv32)
    ensures IsLiteral(r) == IsLiteral(u)
  {
    if u & FirstBitMask == 0 then u ^ 0x7FFF_FFFF else u ^ SecondBitMask
  }

  /** A complemented literal shares no payload bit with the original and
      together with it covers all 31. */
  lemma NotLiteral(u: bv32)
    requires IsLiteral(u)
    ensures NotUnit(u) & u == 0 && NotUnit(u) | u == OnesGroup
  {}

  /** A complemented fill has the other value and the same count. */
  lemma NotFill(u: bv32)
    requires !IsLiteral(u)
    ensures FillBit(NotUnit(u)) == !FillBit(u)
    ensures FillCount(NotUnit(u)) == FillCount(u)
  {
    NotFillValue(u);
    NotFillCount(u);
  }

  lemma NotFillValue(u: bv32)
    requires !IsLiteral(u)
    ensures FillBit(NotUnit(u)) == !FillBit(u)
  {
    NotFillBits(u);
  }

  lemma NotFillCount(u: bv32)
    requires !IsLiteral(u)
    ensures FillCount(NotUnit(u)) == FillCount(u)
  {
    NotFillMasked(u);
    SameCount(NotUnit(u), u);
  }

  lemma NotFillMasked(u: bv32)
    requires !IsLiteral(u)
    ensures NotUnit(u) & CountBitMask == u & CountBitMask
  {
    NotFillBits(u);
  }

  lemma SameCount(x: bv32, y: bv32)
    requires x & CountBitMask == y & CountBitMask
    ensures FillCount(x) == FillCount(y)
  {}

  lemma NotFillBits(u: bv32)
    requires u & 0x8000_0000 != 0
    ensures (u ^ 0x4000_0000) & 0x4000_0000 != u & 0x4000_0000
    ensures (u ^ 0x4000_0000) & 0x3FFF_FFFF == u & 0x3FFF_FFFF
  {}

  /** `WahNot(bitmap)`: a new array of the complemented units. */
  function WahNot(bitmap: seq<bv32>): (r: seq<bv32>)
    ensures |r| == |bitmap|
    ensures forall i :: 0 <= i < |r| ==> r[i] == NotUnit(bitmap[i])
  {
    seq(|bitmap|, i requires 0 <= i < |bitmap| => NotUnit(bitmap[i]))
  }

  lemma NotUnitTwice(u: bv32)
    ensures NotUnit(NotUnit(u)) == u
  {
    if u & FirstBitMask == 0 {
      XorLiteral(u);
    } else {
      XorFill(u);
    }
  }

  lemma XorLiteral(u: bv32)
    requires u & 0x8000_0000 == 0
    ensures (u ^ 0x7FFF_FFFF) & 0x8000_0000 == 0 && (u ^ 0x7FFF_FFFF) ^ 0x7FFF_FFFF == u
  {}

  lemma XorFill(u: bv32)
    requires u & 0x8000_0000 != 0
    ensures (u ^ 0x4000_0000) & 0x8000_0000 != 0 && (u ^ 0x4000_0000) ^ 0x4000_0000 == u
  {}

  /** Complementing twice gives back the array. */
  lemma WahNotTwice(bitmap: seq<bv32>)
    ensures WahNot(WahNot(bitmap)) == bitmap
  {
    forall i | 0 <= i < |bitmap|
      ensures WahNot(WahNot(bitmap))[i] == bitmap[i]
    {
      NotUnitTwice(bitmap[i]);
    }
  }

  /** The complement of every group of a stream. */
  function NotGroups(gs: seq<bv32>): (r: seq<bv32>)
    ensures |r| == |gs|
  {
    seq(|gs|, i requires 0 <= i < |gs| => gs[i] ^ 0x7FFF_FFFF)
  }

  lemma NotGroupsAppend(a: seq<bv32>, b: seq<bv32>)
    ensures NotGroups(a + b) == NotGroups(a) + NotGroups(b)
  {}

  lemma NotRun(b: bool, n: nat)
    ensures NotGroups(Run(b, n)) == Run(!b, n)
  {}

  lemma NotUnitGroups(u: bv32)
    ensures UnitGroups(NotUnit(u)) == NotGroups(UnitGroups(u))
  {
    if !IsLiteral(u) {
      NotFill(u);
      NotRun(FillBit(u), FillCount(u));
    }
  }

  /** `WahNot` complements every bit the array stands for, and keeps the
      number of groups. */
  lemma {:induction false} WahNotExpand(us: seq<bv32>)
    ensures Expand(WahNot(us)) == NotGroups(Expand(us))
    decreases |us|
  {
    if |us| > 0 {
      var n := |us| - 1;
      var p, u := us[..n], us[n];
      ExpandNotStep(us);
      WahNotExpand(p);
      NotUnitGroups(u);
      NotGroupsAppend(Expand(p), UnitGroups(u));
    }
  }

  lemma ExpandNotStep(us: seq<bv32>)
    requires |us| > 0
    ensures Expand(WahNot(us)) == Expand(WahNot(us[..|us| - 1])) + UnitGroups(NotUnit(us[|us| - 1]))
  {
    var n := |us| - 1;
    WahNotSnoc(us);
    ExpandAppend(WahNot(us[..n]), [NotUnit(us[n])]);
    ExpandOne(NotUnit(us[n]));
  }

  lemma WahNotSnoc(us: seq<bv32>)
    requires |us| > 0
    ensures WahNot(us) == WahNot(us[..|us| - 1]) + [NotUnit(us[|us| - 1])]
  {}

  /** `InPlaceNot(wah)`: the same complement written back slot by slot. */
  method InPlaceNot(wah: seq<bv32>) returns (r: seq<bv32>)
    ensures r == WahNot(wah)
  {
    r := wah;
    var i := 0;
    while i < |r|
      invariant 0 <= i <= |r| == |wah|
      invariant forall j :: 0 <= j < i ==> r[j] == NotUnit(wah[j])
      invariant forall j :: i <= j < |r| ==> r[j] == wah[j]
    {
      r := r[i := NotUnit(r[i])];
      i := i + 1;
    }
  }

  // ---------------------------------------------------------------------
  // BitCount
  // ---------------------------------------------------------------------

  /** C#'s unchecked `int` arithmetic: x wrapped into [-2^31, 2^31). */
  function Int32(x: int): (r: int)
    ensures -0x8000_0000 <= r < 0x8000_0000
    ensures -0x8000_0000 <= x < 0x8000_0000 ==> r == x
  {
    (x + 0x8000_0000) % 0x1_0000_0000 - 0x8000_0000
  }

  /** `WahHelper.BitCount(element)` as written: a ones fill is counted as
      32 bits per group. */
  function BitCount(element: bv32): int {
    if element & FirstBitMask == 0 then BitHelper.BitCount(element)
    else if element & SecondBitMask == 0 then 0
    else Int32(Val(element & CountBitMask) * 32)
  }

  /** The number of set bits in a group stream. */
  function Ones(gs: seq<bv32>): nat
    decreases |gs|
  {
    if |gs| == 0 then 0 else Ones(gs[..|gs| - 1]) + BitHelper.PopCount(gs[|gs| - 1])
  }

  lemma {:induction false} OnesAppend(a: seq<bv32>, b: seq<bv32>)
    ensures Ones(a + b) == Ones(a) + Ones(b)
    decreases |b|
  {
    if |b| == 0 {
      assert a + b == a;
    } else {
      var n := |b| - 1;
      assert (a + b)[..|a + b| - 1] == a + b[..n];
      OnesAppend(a, b[..n]);
    }
  }

  lemma GroupOnes()
    ensures BitHelper.PopCount(OnesGroup) == 31 && BitHelper.PopCount(0) == 0
  {
    assert BitHelper.BitCount(OnesGroup) == 31;
    assert BitHelper.BitCount(0) == 0;
  }

  lemma {:induction false} OnesRun(b: bool, n: nat)
    ensures Ones(Run(b, n)) == if b then 31 * n else 0
    decreases n
  {
    GroupOnes();
    if n > 0 {
      assert Run(b, n)[..n - 1] == Run(b, n - 1);
      OnesRun(b, n - 1);
    }
  }

  /** The number of set bits a unit stands for: its popcount for a literal,
      31 per group for a ones fill. */
  function UnitOnes(u: bv32): (r: nat)
    ensures r == Ones(UnitGroups(u))
  {
    if IsLiteral(u) then
      assert [u][..0] == [];
      BitHelper.BitCount(u)
    else
      OnesRun(FillBit(u), FillCount(u));
      if FillBit(u) then 31 * FillCount(u) else 0
  }

  /** A one-group ones fill: `BitCount` reports 32 set bits where the unit
      stands for 31. */
  lemma BitCountOnesFill()
    ensures BitCount(0xC000_0001) == 32
    ensures UnitOnes(0xC000_0001) == 31 == Ones(UnitGroups(0xC000_0001))
  {
    Codec.OnesUnit(1);
    assert Val(1) == 1;
  }

  /** `BitCount` is right on literals and zero fills; on ones fills below
      2^26 groups it over-counts by exactly one bit per group. */
  lemma BitCountAgainstOnes(u: bv32)
    requires !IsLiteral(u) && FillBit(u) ==> FillCount(u) < 0x400_0000
    ensures BitCount(u) == UnitOnes(u) + (if !IsLiteral(u) && FillBit(u) then FillCount(u) else 0)
  {}

  // ---------------------------------------------------------------------
  // Take31Bits and Compress
  // ---------------------------------------------------------------------

  /** x = 32 * a + b with 0 <= b < 32 pins down x / 32 and x % 32. */
  lemma DivMod32(x: int, a: int, b: int)
    requires x == 32 * a + b && 0 <= b < 32
    ensures x / 32 == a && x % 32 == b
  {}

  /** Group i starts in word `i - (i + 31) / 32` at offset `(32 - i) % 32`,
      which are `31 * i / 32` and `31 * i % 32`. */
  lemma GroupPosition(i: nat)
    ensures i - (i + 31) / 32 == 31 * i / 32
    ensures (32 - i) % 32 == 31 * i % 32
  {
    var q, r := i / 32, i % 32;
    assert i == 32 * q + r;
    if r == 0 {
      DivMod32(i + 31, q, 31);
      DivMod32(31 * i, 31 * q, 0);
      DivMod32(32 - i, 1 - q, 0);
    } else {
      DivMod32(i + 31, q + 1, r - 1);
      DivMod32(31 * i, 31 * q + r - 1, 32 - r);
      DivMod32(32 - i, -q, 32 - r);
    }
  }

  /** `Take31Bits(arr, len, index, out last)` for group i: the group, and
      whether the `do ... while (!last)` of `Compress` stops after it. Past
      the last word the 64-bit read of `arr[wordIndex + 1]` throws. On the
      last word the group is shifted into place with `<< 32 - bitIndex`,
      and a group that starts the last word resets `last` to false. */
  function TakeGroup(arr: seq<bv32>, i: nat): (r: Result<(bv32, bool)>)
    ensures r.Ok? ==> 31 * i < 32 * |arr|
    ensures r.Ok? && !r.value.1 ==> 31 * (i + 1) < 32 * |arr|
    ensures r.Err? ==> r.error == IndexOutOfRange
  {
    GroupPosition(i);
    var wordIndex := i - (i + 31) / 32;
    var off := (32 - i) % 32;
    var bitIndex := 33 - off;
    if wordIndex + 1 != |arr| then
      if wordIndex + 1 > |arr| then Err(IndexOutOfRange)
      else Ok((Window(arr[wordIndex], arr[wordIndex + 1], Small5(off)), false))
    else
      Ok((Shl(arr[wordIndex], 32 - bitIndex) & 0x7FFF_FFFF, bitIndex != 33))
  }

  /** The `do ... while (!last)` loop of `Compress` from group i on. */
  function CompressLoop(arr: seq<bv32>, i: nat, w: Writer): (r: Result<Writer>)
    requires Valid(w)
    ensures r.Ok? ==> Valid(r.value) && r.value.len == w.len
    decreases 32 * |arr| - 31 * i
  {
    var t :- TakeGroup(arr, i);
    var w1 :- WriteLit(w, t.0);
    if t.1 then Ok(w1) else CompressLoop(arr, i + 1, w1)
  }

  /** `WahHelper.Compress(arr)`: every group through a `WahWriter(4096)`. */
  function Compress(arr: seq<bv32>): Result<seq<bv32>> {
    var w :- CompressLoop(arr, 0, New(4096));
    Ok(ToArray(w))
  }

  /** When |arr| = 31k + 1 the last word starts exactly at group 32k. */
  lemma AlignedGroup(n: nat)
    requires n > 0 && (n - 1) % 31 == 0
    ensures 31 * (32 * (n - 1) / 31) == 32 * (n - 1)
    ensures 32 * (n - 1) / 31 + 1 < Codec.GroupCount(n)
  {
    var k := (n - 1) / 31;
    assert 32 * (n - 1) == 31 * (32 * k);
    assert 32 * n + 30 == 31 * (32 * k + 2);
  }

  /** Whether the last word of an n-word bitmap starts a group. */
  predicate AlignedEnd(n: nat) {
    n > 0 && (n - 1) % 31 == 0
  }

  /** The groups `Compress` reads: those of the bitmap, except that the
      group which starts exactly at the last word reads as zero. */
  function ReadGroups(arr: seq<bv32>): (r: seq<bv32>)
    ensures |r| == Codec.GroupCount(|arr|)
    ensures Codec.AllLiteral(r)
  {
    var gs := Codec.GroupsOf(arr);
    if AlignedEnd(|arr|) then
      AlignedGroup(|arr|);
      gs[32 * (|arr| - 1) / 31 := 0]
    else gs
  }

  lemma ReadGroupAt(arr: seq<bv32>, i: nat)
    requires i < Codec.GroupCount(|arr|)
    ensures ReadGroups(arr)[i] ==
      if AlignedEnd(|arr|) && 31 * i == 32 * (|arr| - 1) then 0 else Codec.GroupAt(arr, i)
  {
    if AlignedEnd(|arr|) {
      AlignedGroup(|arr|);
    }
  }

  /** A group whose next word exists: a 64-bit window over the two words. */
  lemma TakeMiddle(arr: seq<bv32>, i: nat)
    requires 31 * i / 32 + 1 < |arr|
    ensures TakeGroup(arr, i) == Ok((Codec.GroupAt(arr, i), false))
  {
    GroupPosition(i);
  }

  /** `(a << (k - 1)) & 0x7fffffff` is the window at offset k over a and
      zero, for k > 0. */
  lemma LastWindow(a: bv32, k: bv5)
    requires k != 0
    ensures (a << (k - 1)) & 0x7FFF_FFFF == Window(a, 0, k)
  {}

  lemma ShiftOut(a: bv32)
    ensures (a << 31) & 0x7FFF_FFFF == 0
  {}

  /** A group that starts inside the last word, past its first bit: the
      shifted word, with zeros past the end; the loop stops here. */
  lemma TakeLast(arr: seq<bv32>, i: nat)
    requires 31 * i / 32 + 1 == |arr| && 31 * i % 32 != 0
    ensures TakeGroup(arr, i) == Ok((Codec.GroupAt(arr, i), true))
  {
    GroupPosition(i);
    LastShift(arr[|arr| - 1], 31 * i % 32);
  }

  lemma LastShift(a: bv32, off: nat)
    requires 0 < off < 32
    ensures Shl(a, 32 - (33 - off)) & 0x7FFF_FFFF == Window(a, 0, Small5(off))
  {
    var s, k := 32 - (33 - off), Small5(off);
    assert s == off - 1;
    Small5Step(off);
    ShlBy(a, s, k - 1);
    LastWindow(a, k);
  }

  lemma ShlBy(a: bv32, s: int, k: bv5)
    requires 0 <= s < 32 && Small5(s) == k
    ensures Shl(a, s) == a << k
  {
    assert s % 32 == s;
  }

  lemma Small5Step(r: nat)
    requires 0 < r < 32
    ensures Small5(r) != 0 && Small5(r - 1) == Small5(r) - 1
  {
    Small5Value(r);
  }

  /** A group that starts exactly at the last word: `<< -1` is `<< 31`, the
      group reads as zero, and the loop goes on. */
  lemma TakeAligned(arr: seq<bv32>, i: nat)
    requires 31 * i / 32 + 1 == |arr| && 31 * i % 32 == 0
    ensures TakeGroup(arr, i) == Ok((0, false))
  {
    GroupPosition(i);
    Small5Value(31);
    assert Small5((32 - (33 - 0)) % 32) == 31;
    ShiftOut(arr[|arr| - 1]);
  }

  /** Group i of the bitmap, read by `Take31Bits`, is group i of
      `ReadGroups`, and the loop stops exactly after the last group. */
  lemma TakeGroupSpec(arr: seq<bv32>, i: nat)
    requires i < Codec.GroupCount(|arr|)
    ensures TakeGroup(arr, i) == Ok((ReadGroups(arr)[i], i + 1 == Codec.GroupCount(|arr|)))
  {
    var n, g := |arr|, Codec.GroupCount(|arr|);
    var w, off := 31 * i / 32, 31 * i % 32;
    assert 31 * i == 32 * w + off;
    assert 31 * i < 32 * n;
    ReadGroupAt(arr, i);
    if w + 1 < n {
      TakeMiddle(arr, i);
    } else if off != 0 {
      TakeLast(arr, i);
    } else {
      TakeAligned(arr, i);
      AlignedIndex(n, i);
    }
  }

  lemma AlignedIndex(n: nat, i: nat)
    requires n > 0 && 31 * i == 32 * (n - 1)
    ensures AlignedEnd(n) && i + 1 < Codec.GroupCount(n)
  {
    DivMod31(n - 1, i - n + 1);
  }

  lemma DivMod31(x: int, a: int)
    requires x == 31 * a
    ensures x % 31 == 0
  {}

  /** The `Compress` loop writes exactly the groups of `ReadGroups`, one
      `WriteLit` each. */
  lemma {:induction false} CompressLoopSpec(arr: seq<bv32>, i: nat, w: Writer)
    requires Valid(w) && i < Codec.GroupCount(|arr|)
    ensures CompressLoop(arr, i, w) == WriteFrom(w, ReadGroups(arr), i)
    decreases Codec.GroupCount(|arr|) - i
  {
    TakeGroupSpec(arr, i);
    var w1 := WriteLit(w, ReadGroups(arr)[i]);
    if w1.Ok? && i + 1 < Codec.GroupCount(|arr|) {
      CompressLoopSpec(arr, i + 1, w1.value);
    }
  }

  /** `Compress` of a non-empty bitmap with fewer than 2^30 groups is a
      canonical WAH array that stands for `ReadGroups`; an empty bitmap
      throws. */
  lemma CompressSpec(arr: seq<bv32>)
    requires Codec.GroupCount(|arr|) < 0x4000_0000
    ensures |arr| == 0 <==> Compress(arr) == Err(IndexOutOfRange)
    ensures |arr| > 0 ==>
      (Compress(arr).Ok? && Canonical(Compress(arr).value) &&
       Expand(Compress(arr).value) == ReadGroups(arr))
  {
    if |arr| > 0 {
      CompressLoopSpec(arr, 0, New(4096));
      WriteGroupsEncode(4096, ReadGroups(arr));
    }
  }

  /** With the last word starting a group, `Compress` loses the 31 bits
      of that group whenever they are not all zero. */
  lemma CompressLosesGroup(arr: seq<bv32>)
    requires Codec.GroupCount(|arr|) < 0x4000_0000
    requires AlignedEnd(|arr|) && arr[|arr| - 1] >> 1 != 0
    ensures Compress(arr).Ok? && Expand(Compress(arr).value) != Codec.GroupsOf(arr)
  {
    CompressSpec(arr);
    var n := |arr|;
    AlignedGroup(n);
    var i := 32 * (n - 1) / 31;
    ReadGroupAt(arr, i);
    AlignedGroupAt(arr, i);
  }

  /** The group that starts the last word holds its top 31 bits. */
  lemma AlignedGroupAt(arr: seq<bv32>, i: nat)
    requires |arr| > 0 && 31 * i == 32 * (|arr| - 1)
    ensures 31 * i < 32 * |arr| && Codec.GroupAt(arr, i) == arr[|arr| - 1] >> 1
  {
    DivMod32(31 * i, |arr| - 1, 0);
    WindowZero(arr[|arr| - 1]);
  }

  lemma WindowZero(a: bv32)
    ensures Window(a, 0, 0) == a >> 1
  {}

  /** One word of ones: its first group reads as zero, so the array stands
      for a single set bit, where `Codec.Compress` keeps all 32. */
  lemma CompressOneWord()
    ensures Compress([0xFFFF_FFFF]).Ok?
    ensures Expand(Compress([0xFFFF_FFFF]).value) != Codec.GroupsOf([0xFFFF_FFFF])
    ensures Expand(Codec.Compress([0xFFFF_FFFF])) == Codec.GroupsOf([0xFFFF_FFFF])
  {
    CompressLosesGroup([0xFFFF_FFFF]);
    Codec.CompressSpec([0xFFFF_FFFF]);
  }

  // ---------------------------------------------------------------------
  // BitIndexes
  // ---------------------------------------------------------------------

  /** `count` consecutive positions from start. */
  function Span(start: nat, count: nat): (r: seq<nat>)
    ensures |r| == count
    ensures forall k :: 0 <= k < count ==> r[k] == start + k
  {
    seq(count, k requires 0 <= k < count => start + k)
  }

  /** The literal loop of `BitIndexes` from step j on, with w already
      shifted j times: base + j for each set low bit, lowest first. */
  function LiteralIndexes(w: bv32, base: nat, j: nat): seq<nat>
    requires j <= 31
    decreases 31 - j
  {
    if j == 31 then []
    else (if w & 1 == 1 then [base + j] else []) + LiteralIndexes(w >> 1, base, j + 1)
  }

  /** What `BitIndexes` yields for one unit when its running index is
      base: a ones fill first adds its length to the index and then yields
      the positions after it. */
  function UnitIndexes(u: bv32, base: nat): seq<nat> {
    if u & FirstBitMask != 0 then
      var count := FillCount(u) * 31;
      if u & SecondBitMask != 0 then Span(base + count, count) else []
    else LiteralIndexes(u, base, 0)
  }

  /** The positions `BitIndexes` yields for a unit array, unit by unit. */
  function IndexesOf(us: seq<bv32>): seq<nat>
    decreases |us|
  {
    if |us| == 0 then []
    else
      var n := |us| - 1;
      IndexesOf(us[..n]) + UnitIndexes(us[n], 31 * |Expand(us[..n])|)
  }

  /** Every unit advances the running index by 31 bits per group it
      stands for. */
  lemma UnitAdvance(u: bv32)
    ensures (if u & FirstBitMask != 0 then FillCount(u) * 31 else 31) == 31 * |UnitGroups(u)|
  {}

  /** `WahHelper.BitIndexes(wah)`: one pass over the units with a running
      bit index. */
  method BitIndexes(wah: seq<bv32>) returns (r: seq<nat>)
    ensures r == IndexesOf(wah)
  {
    r := [];
    var index: nat := 0;
    var i := 0;
    while i < |wah|
      invariant 0 <= i <= |wah|
      invariant r == IndexesOf(wah[..i]) && index == 31 * |Expand(wah[..i])|
    {
      var w := wah[i];
      assert wah[..i + 1][..i] == wah[..i];
      r := r + UnitIndexes(w, index);
      UnitAdvance(w);
      if w & FirstBitMask != 0 {
        index := index + FillCount(w) * 31;
      } else {
        index := index + 31;
      }
      i := i + 1;
    }
    assert wah[..i] == wah;
  }

  /** The literal positions as `BitIndexes` numbers them: one per set bit,
      counted from the least significant end, ascending. */
  lemma {:induction false} LiteralIndexesSpec(w: bv32, base: nat, j: nat)
    requires j <= 31
    ensures BitHelper.Increasing(LiteralIndexes(w, base, j))
    ensures forall v :: v in LiteralIndexes(w, base, j) <==>
      base + j <= v < base + 31 && BitHelper.LsbSet(w, v - base - j)
    decreases 31 - j
  {
    if j < 31 {
      LiteralIndexesSpec(w >> 1, base, j + 1);
      var rest := LiteralIndexes(w >> 1, base, j + 1);
      var here: seq<nat> := if w & 1 == 1 then [base + j] else [];
      BitHelper.IncreasingAppend(here, rest);
      assert LiteralIndexes(w, base, j) == here + rest;
      forall v
        ensures v in here + rest <==> base + j <= v < base + 31 && BitHelper.LsbSet(w, v - base - j)
      {
        if base + j < v < base + 31 {
          LsbNext(w, v - base - j);
        }
      }
    }
  }

  lemma LsbNext(w: bv32, k: nat)
    requires 0 < k < 32
    ensures BitHelper.LsbSet(w, k) == BitHelper.LsbSet(w >> 1, k - 1)
  {}

  /** Bit position v of a group stream, numbered as the format numbers it:
      group v / 31, bit v % 31 from the group's most significant end. */
  predicate PosBit(gs: seq<bv32>, v: nat) {
    v / 31 < |gs| && GroupBit(gs[v / 31], Small5(v % 31))
  }

  /** The positions of the set bits of group g, most significant first. */
  function GroupIndexes(g: bv32, base: nat, j: nat): seq<nat>
    requires j <= 31
    decreases 31 - j
  {
    if j == 31 then []
    else (if GroupBit(g, Small5(j)) then [base + j] else []) + GroupIndexes(g, base, j + 1)
  }

  /** The set positions one unit stands for, from bit base on. */
  function UnitPositions(u: bv32, base: nat): seq<nat> {
    if IsLiteral(u) then GroupIndexes(u, base, 0)
    else if FillBit(u) then Span(base, 31 * FillCount(u))
    else []
  }

  /** The positions `BitIndexes` is meant to yield: every set bit of the
      stream, in the format's own numbering. */
  function Positions(us: seq<bv32>): seq<nat>
    decreases |us|
  {
    if |us| == 0 then []
    else
      var n := |us| - 1;
      Positions(us[..n]) + UnitPositions(us[n], 31 * |Expand(us[..n])|)
  }

  lemma {:induction false} GroupIndexesSpec(g: bv32, base: nat, j: nat)
    requires j <= 31
    ensures BitHelper.Increasing(GroupIndexes(g, base, j))
    ensures forall v :: v in GroupIndexes(g, base, j) <==>
      base + j <= v < base + 31 && GroupBit(g, Small5(v - base))
    decreases 31 - j
  {
    if j < 31 {
      GroupIndexesSpec(g, base, j + 1);
      var rest := GroupIndexes(g, base, j + 1);
      var here: seq<nat> := if GroupBit(g, Small5(j)) then [base + j] else [];
      BitHelper.IncreasingAppend(here, rest);
      assert GroupIndexes(g, base, j) == here + rest;
    }
  }

  lemma DivMod31At(v: nat, a: nat)
    requires 31 * a <= v
    ensures (v - 31 * a) / 31 == v / 31 - a && (v - 31 * a) % 31 == v % 31
  {
    var q, r := v / 31, v % 31;
    assert v - 31 * a == 31 * (q - a) + r;
  }

  /** Position v of a + b is position v of a below a's end, and position
      v - 31 * |a| of b past it. */
  lemma PosBitAppend(a: seq<bv32>, b: seq<bv32>, v: nat)
    ensures v < 31 * |a| ==> PosBit(a + b, v) == PosBit(a, v)
    ensures v >= 31 * |a| ==> PosBit(a + b, v) == PosBit(b, v - 31 * |a|)
  {
    if v >= 31 * |a| {
      DivMod31At(v, |a|);
    }
  }

  lemma FillGroupBit(b: bool, j: bv5)
    requires j < 31
    ensures GroupBit(FillGroup(b), j) == b
  {}

  lemma Small5Below(r: nat)
    requires r < 31
    ensures Small5(r) < 31
  {
    Small5Value(r);
  }

  /** A unit's positions are exactly the set bits of its groups, shifted
      to base, in ascending order. */
  lemma UnitPositionsSpec(u: bv32, base: nat)
    ensures BitHelper.Increasing(UnitPositions(u, base))
    ensures forall v :: v in UnitPositions(u, base) <==>
      base <= v && PosBit(UnitGroups(u), v - base)
  {
    if IsLiteral(u) {
      GroupIndexesSpec(u, base, 0);
      forall v: nat
        ensures v in UnitPositions(u, base) <==> base <= v && PosBit(UnitGroups(u), v - base)
      {
        LiteralPosition(u, base, v);
      }
    } else {
      forall v: nat
        ensures v in UnitPositions(u, base) <==> base <= v && PosBit(UnitGroups(u), v - base)
      {
        FillPosition(u, base, v);
      }
    }
  }

  lemma LiteralPosition(u: bv32, base: nat, v: nat)
    ensures (base <= v < base + 31 && GroupBit(u, Small5(v - base))) <==>
      (base <= v && PosBit([u], v - base))
  {
    if base <= v {
      var k := v - base;
      if k < 31 {
        DivMod31At(k, 0);
      }
    }
  }

  lemma FillPosition(u: bv32, base: nat, v: nat)
    requires !IsLiteral(u)
    ensures v in UnitPositions(u, base) <==> base <= v && PosBit(UnitGroups(u), v - base)
  {
    var b, n := FillBit(u), FillCount(u);
    if base <= v {
      var k := v - base;
      Small5Below(k % 31);
      FillGroupBit(b, Small5(k % 31));
      if b && k < 31 * n {
        assert Span(base, 31 * n)[k] == v;
      }
    }
  }

  /** Positions of a prefix lie below the bits it stands for. */
  lemma BelowPrefix(gs: seq<bv32>, v: nat)
    requires PosBit(gs, v)
    ensures v < 31 * |gs|
  {}

  /** Positions p of a and q of b, shifted past a, make the positions of
      a + b, still ascending. */
  lemma PositionsGlue(p: seq<nat>, q: seq<nat>, a: seq<bv32>, b: seq<bv32>)
    requires BitHelper.Increasing(p) && BitHelper.Increasing(q)
    requires forall v :: v in p <==> PosBit(a, v)
    requires forall v :: v in q <==> 31 * |a| <= v && PosBit(b, v - 31 * |a|)
    ensures BitHelper.Increasing(p + q)
    ensures forall v :: v in p + q <==> PosBit(a + b, v)
  {
    forall v: nat
      ensures v in p + q <==> PosBit(a + b, v)
    {
      PosBitAppend(a, b, v);
      if v in p {
        BelowPrefix(a, v);
      }
    }
    forall v | v in p
      ensures v < 31 * |a|
    {
      BelowPrefix(a, v);
    }
    BitHelper.BlockBefore(p, q, 31 * |a|);
  }

  /** ps lists the set bits of gs exactly once, in ascending order. */
  ghost predicate Lists(ps: seq<nat>, gs: seq<bv32>) {
    BitHelper.Increasing(ps) && forall v :: v in ps <==> PosBit(gs, v)
  }

  /** `Positions` lists every set bit of the stream exactly once, in
      ascending order. */
  lemma PositionsSpec(us: seq<bv32>)
    ensures BitHelper.Increasing(Positions(us))
    ensures forall v :: v in Positions(us) <==> PosBit(Expand(us), v)
  {
    PositionsLists(us);
  }

  lemma {:induction false} PositionsLists(us: seq<bv32>)
    ensures Lists(Positions(us), Expand(us))
    decreases |us|
  {
    if |us| > 0 {
      PositionsLists(us[..|us| - 1]);
      PositionsStep(us);
    }
  }

  /** One more unit extends the listing by the unit's own positions. */
  lemma PositionsStep(us: seq<bv32>)
    requires |us| > 0 && Lists(Positions(us[..|us| - 1]), Expand(us[..|us| - 1]))
    ensures Lists(Positions(us), Expand(us))
  {
    var n := |us| - 1;
    var p, u := us[..n], us[n];
    var base := 31 * |Expand(p)|;
    ListsAppend(Positions(p), Expand(p), u);
    assert Positions(us) == Positions(p) + UnitPositions(u, base);
    assert Expand(us) == Expand(p) + UnitGroups(u);
  }

  lemma ListsAppend(ps: seq<nat>, gs: seq<bv32>, u: bv32)
    requires Lists(ps, gs)
    ensures Lists(ps + UnitPositions(u, 31 * |gs|), gs + UnitGroups(u))
  {
    UnitPositionsSpec(u, 31 * |gs|);
    PositionsGlue(ps, UnitPositions(u, 31 * |gs|), gs, UnitGroups(u));
  }

  /** For a literal, `BitIndexes` yields the set payload bits counted from
      the least significant end, which is the mirror image of the group's
      own numbering. */
  lemma LiteralUnitIndexes(u: bv32, base: nat)
    requires IsLiteral(u)
    ensures forall v :: v in UnitIndexes(u, base) <==>
      base <= v < base + 31 && BitHelper.LsbSet(u, v - base)
  {
    LiteralIndexesSpec(u, base, 0);
  }

  /** For a ones fill of c groups at running index base, `BitIndexes`
      yields the 31 * c positions that follow the fill, none of its own. */
  lemma OnesFillIndexes(u: bv32, base: nat)
    requires !IsLiteral(u) && FillBit(u)
    ensures UnitIndexes(u, base) == Span(base + 31 * FillCount(u), 31 * FillCount(u))
    ensures UnitPositions(u, base) == Span(base, 31 * FillCount(u))
  {}

  /** One ones group: `BitIndexes` yields 31..61 where the unit stands for
      bits 0..30. */
  lemma OnesGroupIndexes()
    ensures IndexesOf([0xC000_0001]) == Span(31, 31)
    ensures Positions([0xC000_0001]) == Span(0, 31)
    ensures forall v :: v in Positions([0xC000_0001]) <==> PosBit(Expand([0xC000_0001]), v)
  {
    var us: seq<bv32> := [0xC000_0001];
    assert FillCount(us[0]) == 1 by {
      assert us[0] & CountBitMask == 1;
      assert Val(1) == 1;
    }
    assert us[..0] == [];
    OnesFillIndexes(us[0], 0);
    PositionsSpec(us);
  }

  /** The literal with only its top payload bit set stands for bit 0;
      `BitIndexes` yields 30. */
  lemma TopBitIndexes()
    ensures 30 in IndexesOf([0x4000_0000]) && 0 !in IndexesOf([0x4000_0000])
    ensures 0 in Positions([0x4000_0000]) && 30 !in Positions([0x4000_0000])
  {
    var us: seq<bv32> := [0x4000_0000];
    assert us[..0] == [];
    assert IndexesOf(us) == UnitIndexes(us[0], 0);
    LiteralUnitIndexes(us[0], 0);
    TopBitLsb();
    PositionsSpec(us);
    ExpandOne(us[0]);
    TopBitGroup();
  }

  lemma TopBitLsb()
    ensures BitHelper.LsbSet(0x4000_0000, 30) && !BitHelper.LsbSet(0x4000_0000, 0)
  {
    BitHelper.LsbWordBit(0x4000_0000, 30);
    OffValue(1);
  }

  lemma TopBitGroup()
    ensures PosBit([0x4000_0000], 0) && !PosBit([0x4000_0000], 30)
  {
    Small5Value(30);
  }

  /** The format's position that `BitIndexes` numbers v: the same group,
      counted from the other end. */
  function Flip(v: nat): nat {
    31 * (v / 31) + 30 - v % 31
  }

  /** Flip keeps the group and mirrors the bit inside it, and commutes with
      a shift by whole groups. */
  lemma FlipAt(v: nat, a: nat)
    ensures Flip(v) / 31 == v / 31 && Flip(v) % 31 == 30 - v % 31
    ensures 31 * a <= v ==> Flip(v) - 31 * a == Flip(v - 31 * a)
  {
    var q, r := v / 31, v % 31;
    assert Flip(v) == 31 * q + (30 - r);
    if 31 * a <= v {
      DivMod31At(v, a);
    }
  }

  /** Whether no unit is a ones fill. */
  predicate NoOnesFill(us: seq<bv32>) {
    forall k :: 0 <= k < |us| ==> IsLiteral(us[k]) || !FillBit(us[k])
  }

  /** ps lists, in ascending order, the flipped set bits of gs. */
  ghost predicate Mirrors(ps: seq<nat>, gs: seq<bv32>) {
    BitHelper.Increasing(ps) && forall v :: v in ps <==> PosBit(gs, Flip(v))
  }

  /** Low-first bit k of a literal is bit 30 - k of its group. */
  lemma LsbGroupBit(u: bv32, k: nat)
    requires k < 31
    ensures BitHelper.LsbSet(u, k) == GroupBit(u, Small5(30 - k))
  {
    BitHelper.LsbWordBit(u, k);
    assert Small5(31 - k) == Small5(30 - k) + 1;
    OffValue(31 - k);
  }

  /** What `BitIndexes` yields for a unit that is not a ones fill: the
      flipped set bits of its groups, from base on, ascending. */
  lemma UnitIndexesMirror(u: bv32, base: nat)
    requires IsLiteral(u) || !FillBit(u)
    ensures BitHelper.Increasing(UnitIndexes(u, base))
    ensures forall v :: v in UnitIndexes(u, base) <==>
      base <= v && PosBit(UnitGroups(u), Flip(v - base))
  {
    if IsLiteral(u) {
      LiteralIndexesSpec(u, base, 0);
      forall v: nat
        ensures v in UnitIndexes(u, base) <==> base <= v && PosBit(UnitGroups(u), Flip(v - base))
      {
        LiteralMirror(u, base, v);
      }
    } else {
      forall x: nat
        ensures !PosBit(UnitGroups(u), x)
      {
        Small5Below(x % 31);
        FillGroupBit(false, Small5(x % 31));
      }
    }
  }

  lemma LiteralMirror(u: bv32, base: nat, v: nat)
    requires IsLiteral(u)
    ensures (base <= v < base + 31 && BitHelper.LsbSet(u, v - base)) <==>
      (base <= v && PosBit(UnitGroups(u), Flip(v - base)))
  {
    if base <= v {
      var k := v - base;
      FlipAt(k, 0);
      if k < 31 {
        LsbGroupBit(u, k);
        assert Flip(k) == 30 - k;
      }
    }
  }

  /** Flipped listings of a and b, the second shifted past a, make the
      flipped listing of a + b. */
  lemma MirrorsGlue(p: seq<nat>, q: seq<nat>, a: seq<bv32>, b: seq<bv32>)
    requires Mirrors(p, a) && BitHelper.Increasing(q)
    requires forall v :: v in q <==> 31 * |a| <= v && PosBit(b, Flip(v - 31 * |a|))
    ensures Mirrors(p + q, a + b)
  {
    forall v: nat
      ensures v in p + q <==> PosBit(a + b, Flip(v))
    {
      FlipAt(v, |a|);
      PosBitAppend(a, b, Flip(v));
    }
    forall v | v in p
      ensures v < 31 * |a|
    {
      FlipAt(v, 0);
    }
    BitHelper.BlockBefore(p, q, 31 * |a|);
  }

  /** Without ones fills, `BitIndexes` yields every set bit of the stream
      once, ascending, each mirrored inside its group: it reads a group
      from its low end where the format numbers it from the high end. */
  lemma {:induction false} IndexesOfMirrors(us: seq<bv32>)
    requires NoOnesFill(us)
    ensures Mirrors(IndexesOf(us), Expand(us))
    decreases |us|
  {
    if |us| > 0 {
      var n := |us| - 1;
      assert NoOnesFill(us[..n]) by {
        forall k | 0 <= k < n ensures IsLiteral(us[..n][k]) || !FillBit(us[..n][k]) {
          assert us[..n][k] == us[k];
        }
      }
      IndexesOfMirrors(us[..n]);
      MirrorsStep(us);
    }
  }

  /** One more unit that is not a ones fill extends the flipped listing by
      the unit's own indexes. */
  lemma MirrorsStep(us: seq<bv32>)
    requires |us| > 0 && NoOnesFill(us)
    requires Mirrors(IndexesOf(us[..|us| - 1]), Expand(us[..|us| - 1]))
    ensures Mirrors(IndexesOf(us), Expand(us))
  {
    var n := |us| - 1;
    var p, u := us[..n], us[n];
    assert IsLiteral(u) || !FillBit(u);
    MirrorsAppend(IndexesOf(p), Expand(p), u);
    assert IndexesOf(us) == IndexesOf(p) + UnitIndexes(u, 31 * |Expand(p)|);
    assert Expand(us) == Expand(p) + UnitGroups(u);
  }

  lemma MirrorsAppend(ps: seq<nat>, gs: seq<bv32>, u: bv32)
    requires Mirrors(ps, gs) && (IsLiteral(u) || !FillBit(u))
    ensures Mirrors(ps + UnitIndexes(u, 31 * |gs|), gs + UnitGroups(u))
  {
    UnitIndexesMirror(u, 31 * |gs|);
    MirrorsGlue(ps, UnitIndexes(u, 31 * |gs|), gs, UnitGroups(u));
  }

  // ---------------------------------------------------------------------
  // FromIndexes
  // ---------------------------------------------------------------------

  /** The loop state of `FromIndexes`: the writer, the uint word index and
      the word `map` being filled. */
  datatype Packing = Packing(w: Writer, index: bv32, word: bv32)

  /** The flush at the head of a new word: write `map` if any of its bits
      is set and advance the index, then a zeros fill up to o. */
  function Flush(st: Packing, o: bv32): (r: Packing)
    requires Valid(st.w) && st.w.len > 0
    ensures Valid(r.w) && r.w.len == st.w.len && r.word == 0
  {
    var w1 := if st.word != 0 then WriteLit(st.w, st.word).value else st.w;
    var index1 := if st.word != 0 then st.index + 1 else st.index;
    var w2 := if index1 < o then WriteSum(w1, o - index1, 0).value else w1;
    Packing(w2, if index1 < o then o else index1, 0)
  }

  /** The `for` loop of `FromIndexes` from offset i on. */
  function FromIndexesLoop(offsets: seq<bv32>, i: nat, st: Packing): (r: Packing)
    requires i <= |offsets| && Valid(st.w) && st.w.len > 0
    ensures Valid(r.w) && r.w.len == st.w.len
    decreases |offsets| - i
  {
    if i == |offsets| then st
    else
      var o := offsets[i];
      var st1 := if o / 32 != st.index then Flush(st, o) else st;
      FromIndexesLoop(offsets, i + 1, st1.(word := st1.word | (1 << (31 - st1.index % 32))))
  }

  /** `WahHelper.FromIndexes(offsets)`: the units of a `WahWriter(4096)`
      fed by the loop. The word being filled when the loop ends is never
      written. */
  function FromIndexes(offsets: seq<bv32>): seq<bv32> {
    ToArray(FromIndexesLoop(offsets, 0, Packing(New(4096), 0, 0)).w)
  }

  /** No offsets, no units. */
  lemma FromIndexesEmpty()
    ensures FromIndexes([]) == []
  {}

  /** While every offset lies in word 0, the loop never flushes: the
      writer stays empty. */
  lemma {:induction false} FirstWordLoop(offsets: seq<bv32>, i: nat, word: bv32)
    requires i <= |offsets|
    requires forall k :: 0 <= k < |offsets| ==> offsets[k] < 32
    ensures FromIndexesLoop(offsets, i, Packing(New(4096), 0, word)).w == New(4096)
    decreases |offsets| - i
  {
    if i < |offsets| {
      assert offsets[i] / 32 == 0;
      FirstWordLoop(offsets, i + 1, word | (1 << (31 - 0 % 32)));
    }
  }

  /** Offsets that all fall in the first word give no units at all: every
      one of their bits is lost. */
  lemma FromIndexesFirstWord(offsets: seq<bv32>)
    requires forall k :: 0 <= k < |offsets| ==> offsets[k] < 32
    ensures FromIndexes(offsets) == []
  {
    FirstWordLoop(offsets, 0, 0);
  }

  /** Offsets 0 and 32: the word holding bit 0 is `0x80000000`, which
      `WriteLit` stores as a unit that reads as a zeros fill of length
      zero, then the index jumps from word 1 to 32 and a fill of 31 zero
      groups follows. */
  lemma FromIndexesTwoWords()
    ensures FromIndexes([0, 32]) == [0x8000_0000, 0x8000_001F]
  {
    var offsets: seq<bv32> := [0, 32];
    var st0 := Packing(New(4096), 0, 0);
    var st1 := Packing(New(4096), 0, 0x8000_0000);
    assert FromIndexesLoop(offsets, 0, st0) == FromIndexesLoop(offsets, 1, st1);
    var f := Flush(st1, 32);
    FlushTwoWords();
    assert FromIndexesLoop(offsets, 1, st1) == FromIndexesLoop(offsets, 2, f.(word := 0x8000_0000));
  }

  lemma FlushTwoWords()
    ensures Units(Flush(Packing(New(4096), 0, 0x8000_0000), 32).w) == [0x8000_0000, 0x8000_001F]
    ensures Flush(Packing(New(4096), 0, 0x8000_0000), 32).index == 32
  {
    var w1 := WriteLit(New(4096), 0x8000_0000).value;
    assert Units(w1) == [0x8000_0000] && w1.lastSumVal == -1;
    ValZero();
    assert SumUnit(31, 0) == 0x8000_001F;
  }
}

=== FILE: writer.dfy ===
/** `WahWriter`: a run-coalescing writer of WAH units.

    Units are stored in fixed-size chunks: `arr` is the chunk being filled,
    `index` the position of the last unit written in it (-1 before the first
    write), and `bits` the full chunks before it. `lastSumVal` is the value
    of the fill the last unit holds, or -1 when the last unit is not a fill
    the writer may still extend.

    The meaning of a writer is `Units`, everything written so far in order;
    `ToArray` is proved to return exactly that. */
module WahWriter {
  import opened Bits
  import opened Results
  import opened Wah
  import Codec

  datatype Writer = Writer(bits: seq<seq<bv32>>, index: int, arr: seq<bv32>, len: nat, lastSumVal: int)

  /** The writer's representation invariant: every chunk has the capacity,
      `index` is inside the current chunk, and before the first write there
      are no chunks and no fill to extend. */
  predicate Valid(w: Writer) {
    |w.arr| == w.len && -1 <= w.index < w.len &&
    (forall i :: 0 <= i < |w.bits| ==> |w.bits[i]| == w.len) &&
    (w.index == -1 ==> w.bits == [] && w.lastSumVal == -1)
  }

  /** The chunks one after the other. */
  function Flatten(bits: seq<seq<bv32>>): seq<bv32>
    decreases |bits|
  {
    if |bits| == 0 then [] else Flatten(bits[..|bits| - 1]) + bits[|bits| - 1]
  }

  /** Everything written so far, in write order. */
  function Units(w: Writer): seq<bv32>
    requires Valid(w)
  {
    Flatten(w.bits) + w.arr[..w.index + 1]
  }

  /** `new WahWriter(capacity)`. */
  function New(capacity: nat): (w: Writer)
    ensures Valid(w) && Units(w) == [] && w.lastSumVal == -1 && w.len == capacity
  {
    Writer([], -1, Zeros(capacity), capacity, -1)
  }

  lemma {:induction false} FlattenLength(bits: seq<seq<bv32>>, len: nat)
    requires forall i :: 0 <= i < |bits| ==> |bits[i]| == len
    ensures |Flatten(bits)| == |bits| * len
    decreases |bits|
  {
    if |bits| > 0 {
      FlattenLength(bits[..|bits| - 1], len);
    }
  }

  /** `Add`: step to the next slot, starting a new chunk when the current
      one is full. With a capacity of zero the new chunk is empty too and the
      store throws. */
  function Add(w: Writer, val: bv32): (r: Result<Writer>)
    requires Valid(w)
    ensures r.Ok? <==> w.len > 0
    ensures r.Ok? ==> Valid(r.value) && Units(r.value) == Units(w) + [val]
    ensures r.Ok? ==> r.value.lastSumVal == w.lastSumVal && r.value.len == w.len
  {
    var i := w.index + 1;
    var w1 := if w.len == i then w.(index := 0, bits := w.bits + [w.arr], arr := Zeros(w.len)) else w.(index := i);
    if w1.index < |w1.arr| then
      var r := w1.(arr := w1.arr[w1.index := val]);
      AddUnits(w, r, val);
      Ok(r)
    else Err(IndexOutOfRange)
  }

  lemma AddUnits(w: Writer, r: Writer, val: bv32)
    requires Valid(w) && w.len > 0
    requires w.len == w.index + 1 ==> r == w.(index := 0, bits := w.bits + [w.arr], arr := Zeros(w.len)[0 := val])
    requires w.len != w.index + 1 ==> r == w.(index := w.index + 1, arr := w.arr[w.index + 1 := val])
    ensures Valid(r) && Units(r) == Units(w) + [val]
  {
    if w.len == w.index + 1 {
      assert w.arr[..w.index + 1] == w.arr;
      assert (w.bits + [w.arr])[..|w.bits|] == w.bits;
      assert r.arr[..1] == [val];
    } else {
      assert r.arr[..r.index + 1] == w.arr[..w.index + 1] + [val];
    }
  }

  /** The last unit written, replaced by x. */
  function WithLast(us: seq<bv32>, x: bv32): seq<bv32>
    requires |us| > 0
  {
    us[..|us| - 1] + [x]
  }

  /** `arr[index] = x` on a writer that has written something. */
  function SetLast(w: Writer, x: bv32): (r: Writer)
    requires Valid(w) && w.index >= 0
    ensures Valid(r) && |Units(w)| > 0 && Units(r) == WithLast(Units(w), x)
    ensures r.lastSumVal == w.lastSumVal && r.len == w.len
  {
    var r := w.(arr := w.arr[w.index := x]);
    assert r.arr[..r.index + 1] == w.arr[..w.index] + [x];
    assert w.arr[..w.index + 1] == w.arr[..w.index] + [w.arr[w.index]];
    assert Units(w) == Flatten(w.bits) + w.arr[..w.index] + [w.arr[w.index]];
    r
  }

  /** The last unit written. */
  function Last(w: Writer): (u: bv32)
    requires Valid(w) && w.index >= 0
    ensures |Units(w)| > 0 && u == Units(w)[|Units(w)| - 1]
  {
    w.arr[w.index]
  }

  /** Add u at the end, then remember v as the fill value the writer may
      extend. */
  function Start(w: Writer, u: bv32, v: int): (r: Result<Writer>)
    requires Valid(w)
    ensures r.Ok? <==> w.len > 0
    ensures r.Ok? ==> Valid(r.value) && r.value.len == w.len
    ensures r.Ok? ==> Units(r.value) == Units(w) + [u] && r.value.lastSumVal == v
  {
    var w1 :- Add(w, u);
    var r := w1.(lastSumVal := v);
    assert Units(r) == Units(w1);
    Ok(r)
  }

  /** `u += d` on a uint. */
  function Plus(u: bv32, d: bv32): bv32 {
    u + d
  }

  /** The units with d added to the count of the last one. */
  function Bumped(us: seq<bv32>, d: bv32): seq<bv32>
    requires |us| > 0
  {
    WithLast(us, Plus(us[|us| - 1], d))
  }

  /** `arr[index] += d`. */
  function Extend(w: Writer, d: bv32): (r: Writer)
    requires Valid(w) && w.index >= 0
    ensures Valid(r) && r.len == w.len && r.lastSumVal == w.lastSumVal
    ensures |Units(w)| > 0 && Units(r) == Bumped(Units(w), d)
  {
    SetLast(w, Plus(Last(w), d))
  }

  /** `WriteLit(val)`: a zero group extends a trailing zeros fill or starts
      a new one of one group, a ones group likewise, and any other literal
      is written verbatim and ends the fill the writer may extend. */
  function WriteLit(w: Writer, val: bv32): (r: Result<Writer>)
    requires Valid(w)
    ensures w.len > 0 ==> r.Ok?
    ensures r.Ok? ==> Valid(r.value) && r.value.len == w.len
    ensures r.Ok? && val == 0 && w.lastSumVal == 0 ==>
      |Units(w)| > 0 && Units(r.value) == Bumped(Units(w), 1) &&
      r.value.lastSumVal == 0
    ensures r.Ok? && val == 0 && w.lastSumVal != 0 ==>
      Units(r.value) == Units(w) + [0x8000_0001] && r.value.lastSumVal == 0
    ensures r.Ok? && val == OnesGroup && w.lastSumVal == 1 ==>
      |Units(w)| > 0 && Units(r.value) == Bumped(Units(w), 1) &&
      r.value.lastSumVal == 1
    ensures r.Ok? && val == OnesGroup && w.lastSumVal != 1 ==>
      Units(r.value) == Units(w) + [0xC000_0001] && r.value.lastSumVal == 1
    ensures r.Ok? && val != 0 && val != OnesGroup ==>
      Units(r.value) == Units(w) + [val] && r.value.lastSumVal == -1
  {
    if val == 0 then
      if w.lastSumVal == 0 then Ok(Extend(w, 1)) else Start(w, 0x8000_0001, 0)
    else if val == OnesGroup then
      if w.lastSumVal == 1 then Ok(Extend(w, 1)) else Start(w, 0xC000_0001, 1)
    else
      Start(w, val, -1)
  }

  /** `(int)value` for a uint: with the top bit set it is minus the
      two's complement of value. */
  function AsInt(value: bv32): (r: int)
    ensures value >> 31 == 1 && value != 0 ==> r < 0
    ensures value >> 31 == 0 ==> r == Val(value)
  {
    if value >> 31 == 0 then Val(value)
    else
      ValPos(-value);
      var n: int := Val(-value);
      -n
  }

  /** The unit `(1u << 31) | (value << 30) | len`. */
  function SumUnit(len: bv32, value: bv32): bv32 {
    FirstBitMask | (value << 30) | len
  }

  /** `WriteSum(len, value)`: a fill of len groups; when the writer may
      extend a fill of the same value, len is added to its count instead. */
  function WriteSum(w: Writer, len: bv32, value: bv32): (r: Result<Writer>)
    requires Valid(w)
    ensures w.len > 0 ==> r.Ok?
    ensures r.Ok? ==> Valid(r.value) && r.value.len == w.len
    ensures r.Ok? && w.lastSumVal == Val(value) ==>
      |Units(w)| > 0 && Units(r.value) == Bumped(Units(w), len) &&
      r.value.lastSumVal == w.lastSumVal
    ensures r.Ok? && w.lastSumVal != Val(value) ==>
      Units(r.value) == Units(w) + [SumUnit(len, value)] &&
      r.value.lastSumVal == AsInt(value)
  {
    if w.lastSumVal != Val(value) then Start(w, SumUnit(len, value), AsInt(value))
    else Ok(Extend(w, len))
  }

  // ---------------------------------------------------------------------
  // ToArray
  // ---------------------------------------------------------------------

  /** `Array.Copy(src, 0, dst, at, n)`. */
  function CopyInto(dst: seq<bv32>, src: seq<bv32>, at: nat, n: nat): (r: seq<bv32>)
    requires at + n <= |dst| && n <= |src|
    ensures |r| == |dst|
    ensures forall i :: 0 <= i < |dst| ==> r[i] == if at <= i < at + n then src[i - at] else dst[i]
  {
    dst[..at] + src[..n] + dst[at + n..]
  }

  /** The `for` loop of `ToArray` that block-copies chunk i to i * len. */
  function CopyChunks(dst: seq<bv32>, bits: seq<seq<bv32>>, len: nat): (r: seq<bv32>)
    requires forall i :: 0 <= i < |bits| ==> |bits[i]| == len
    requires |bits| * len <= |dst|
    ensures |r| == |dst|
    decreases |bits|
  {
    if |bits| == 0 then dst
    else
      var n := |bits| - 1;
      assert n * len + len == |bits| * len;
      CopyInto(CopyChunks(dst, bits[..n], len), bits[n], n * len, len)
  }

  /** The copied chunks read as their concatenation, and the rest of the
      destination is untouched. */
  lemma {:induction false} CopyChunksSpec(dst: seq<bv32>, bits: seq<seq<bv32>>, len: nat)
    requires forall i :: 0 <= i < |bits| ==> |bits[i]| == len
    requires |bits| * len <= |dst|
    ensures |Flatten(bits)| == |bits| * len
    ensures CopyChunks(dst, bits, len) == Flatten(bits) + dst[|bits| * len..]
    decreases |bits|
  {
    FlattenLength(bits, len);
    if |bits| > 0 {
      var n := |bits| - 1;
      assert n * len + len == |bits| * len;
      CopyChunksSpec(dst, bits[..n], len);
      var inner := CopyChunks(dst, bits[..n], len);
      assert Flatten(bits) == Flatten(bits[..n]) + bits[n];
      var r := CopyChunks(dst, bits, len);
      assert r == CopyInto(inner, bits[n], n * len, len);
      var want := Flatten(bits) + dst[|bits| * len..];
      assert |r| == |want|;
      forall i | 0 <= i < |r|
        ensures r[i] == want[i]
      {
        if i < n * len {
          assert r[i] == inner[i] == Flatten(bits[..n])[i];
        } else if i < |bits| * len {
          assert r[i] == bits[n][i - n * len];
        } else {
          assert r[i] == inner[i] == dst[i];
        }
      }
    }
  }

  /** `ToArray`: a zeroed array of `bits.Count * len + index + 1` words,
      the full chunks copied in, then the filled part of the current one. */
  function ToArray(w: Writer): (r: seq<bv32>)
    requires Valid(w)
    ensures |r| == |w.bits| * w.len + w.index + 1
    ensures r == Units(w)
  {
    FlattenLength(w.bits, w.len);
    var bc := |w.bits| * w.len;
    var wharr := if w.bits != [] then CopyChunks(Zeros(bc + w.index + 1), w.bits, w.len) else Zeros(w.index + 1);
    ToArrayUnits(w, bc, wharr);
    CopyInto(wharr, w.arr, bc, w.index + 1)
  }

  lemma ToArrayUnits(w: Writer, bc: nat, wharr: seq<bv32>)
    requires Valid(w) && bc == |w.bits| * w.len
    requires wharr == if w.bits != [] then CopyChunks(Zeros(bc + w.index + 1), w.bits, w.len) else Zeros(w.index + 1)
    ensures |wharr| == bc + w.index + 1
    ensures CopyInto(wharr, w.arr, bc, w.index + 1) == Units(w)
  {
    FlattenLength(w.bits, w.len);
    if w.bits != [] {
      CopyChunksSpec(Zeros(bc + w.index + 1), w.bits, w.len);
    }
    assert wharr[..bc] == Flatten(w.bits);
    assert wharr[bc + w.index + 1..] == [];
  }

  /** A writer nothing was written to gives an empty array. */
  lemma FreshToArray(capacity: nat)
    ensures ToArray(New(capacity)) == []
  {}

  // ---------------------------------------------------------------------
  // Writing a group stream
  // ---------------------------------------------------------------------

  /** `WriteLit` for every group from g on. */
  function WriteFrom(w: Writer, gs: seq<bv32>, g: nat): (r: Result<Writer>)
    requires Valid(w)
    ensures w.len > 0 ==> r.Ok?
    ensures r.Ok? ==> Valid(r.value) && r.value.len == w.len
    decreases |gs| - g
  {
    if g >= |gs| then Ok(w)
    else
      var w1 :- WriteLit(w, gs[g]);
      WriteFrom(w1, gs, g + 1)
  }

  /** The writer holds what `WAHBitarray2.Compress` would have emitted after
      flushing its pending run counters, and remembers the run it may
      extend. */
  predicate Agrees(w: Writer, zeros: bv32, ones: bv32, acc: seq<bv32>) {
    Valid(w) && w.len > 0 && (zeros == 0 || ones == 0) &&
    Units(w) == Codec.FlushZeros(Codec.FlushOnes(acc, ones), zeros) &&
    w.lastSumVal == (if zeros != 0 then 0 else if ones != 0 then 1 else -1)
  }

  /** A pending count below 2^30 - 1 can grow by one inside the count field
      of its fill. */
  lemma FillPlusOne(flag: bv32, c: bv32)
    requires flag == 0x8000_0000 || flag == 0xC000_0000
    requires Val(c) < 0x3FFF_FFFF
    ensures Plus(flag | c, 1) == flag | (c + 1) && c + 1 != 0
  {
    ValHigh(c);
    Codec.CountUp(c);
    ValHigh(c + 1);
    OrPlusOne(flag, c);
  }

  lemma OrPlusOne(flag: bv32, c: bv32)
    requires flag == 0x8000_0000 || flag == 0xC000_0000
    requires c & 0xC000_0000 == 0 && (c + 1) & 0xC000_0000 == 0
    ensures (flag | c) + 1 == flag | (c + 1)
  {}

  lemma ZeroAgree(w: Writer, w1: Writer, zeros: bv32, ones: bv32, acc: seq<bv32>)
    requires Agrees(w, zeros, ones, acc) && zeros + 1 != 0
    requires zeros != 0 ==> Plus(0x8000_0000 | zeros, 1) == 0x8000_0000 | (zeros + 1)
    requires WriteLit(w, 0) == Ok(w1)
    ensures Agrees(w1, zeros + 1, 0, Codec.FlushOnes(acc, ones))
  {
    if zeros != 0 {
      ZeroExtend(w, w1, zeros, ones, acc);
    } else {
      ZeroStart(w, w1, zeros, ones, acc);
    }
  }

  lemma ZeroExtend(w: Writer, w1: Writer, zeros: bv32, ones: bv32, acc: seq<bv32>)
    requires Agrees(w, zeros, ones, acc) && zeros != 0 && zeros + 1 != 0
    requires Plus(0x8000_0000 | zeros, 1) == 0x8000_0000 | (zeros + 1)
    requires WriteLit(w, 0) == Ok(w1)
    ensures Agrees(w1, zeros + 1, 0, Codec.FlushOnes(acc, ones))
  {
    ZeroExtendUnits(w, w1, zeros, ones, acc);
  }

  lemma ZeroExtendUnits(w: Writer, w1: Writer, zeros: bv32, ones: bv32, acc: seq<bv32>)
    requires Agrees(w, zeros, ones, acc) && zeros != 0
    requires WriteLit(w, 0) == Ok(w1)
    ensures Units(w1) == acc + [Plus(0x8000_0000 | zeros, 1)]
  {
    assert Units(w1) == Bumped(Units(w), 1);
    assert Units(w) == acc + [0x8000_0000 | zeros];
  }

  lemma ZeroStart(w: Writer, w1: Writer, zeros: bv32, ones: bv32, acc: seq<bv32>)
    requires Agrees(w, zeros, ones, acc) && zeros == 0
    requires WriteLit(w, 0) == Ok(w1)
    ensures Agrees(w1, zeros + 1, 0, Codec.FlushOnes(acc, ones))
  {}

  lemma OnesAgree(w: Writer, w1: Writer, zeros: bv32, ones: bv32, acc: seq<bv32>)
    requires Agrees(w, zeros, ones, acc) && ones + 1 != 0
    requires ones != 0 ==> Plus(0xC000_0000 | ones, 1) == 0xC000_0000 | (ones + 1)
    requires WriteLit(w, OnesGroup) == Ok(w1)
    ensures Agrees(w1, 0, ones + 1, Codec.FlushZeros(acc, zeros))
  {
    if ones != 0 {
      OnesExtend(w, w1, zeros, ones, acc);
    } else {
      OnesStart(w, w1, zeros, ones, acc);
    }
  }

  lemma OnesExtend(w: Writer, w1: Writer, zeros: bv32, ones: bv32, acc: seq<bv32>)
    requires Agrees(w, zeros, ones, acc) && ones != 0 && ones + 1 != 0
    requires Plus(0xC000_0000 | ones, 1) == 0xC000_0000 | (ones + 1)
    requires WriteLit(w, OnesGroup) == Ok(w1)
    ensures Agrees(w1, 0, ones + 1, Codec.FlushZeros(acc, zeros))
  {
    OnesExtendUnits(w, w1, zeros, ones, acc);
  }

  lemma OnesExtendUnits(w: Writer, w1: Writer, zeros: bv32, ones: bv32, acc: seq<bv32>)
    requires Agrees(w, zeros, ones, acc) && ones != 0
    requires WriteLit(w, OnesGroup) == Ok(w1)
    ensures Units(w1) == acc + [Plus(0xC000_0000 | ones, 1)]
  {
    assert Units(w1) == Bumped(Units(w), 1);
    assert Units(w) == acc + [0xC000_0000 | ones];
  }

  lemma OnesStart(w: Writer, w1: Writer, zeros: bv32, ones: bv32, acc: seq<bv32>)
    requires Agrees(w, zeros, ones, acc) && ones == 0
    requires WriteLit(w, OnesGroup) == Ok(w1)
    ensures Agrees(w1, 0, ones + 1, Codec.FlushZeros(acc, zeros))
  {}

  lemma LiteralAgree(w: Writer, w1: Writer, num: bv32, zeros: bv32, ones: bv32, acc: seq<bv32>)
    requires Agrees(w, zeros, ones, acc) && num != 0 && num != OnesGroup
    requires WriteLit(w, num) == Ok(w1)
    ensures Agrees(w1, 0, 0, Codec.FlushZeros(Codec.FlushOnes(acc, ones), zeros) + [num])
  {}

  /** Writing a group stream with `WriteLit` leaves exactly the units
      `WAHBitarray2.Compress` emits for the same groups. */
  lemma {:induction false} WriteFromCompress(w: Writer, gs: seq<bv32>, g: nat, zeros: bv32, ones: bv32, acc: seq<bv32>)
    requires Agrees(w, zeros, ones, acc)
    requires g <= |gs| < 0x4000_0000 && Val(zeros) <= g && Val(ones) <= g
    ensures WriteFrom(w, gs, g).Ok?
    ensures Units(WriteFrom(w, gs, g).value) == Codec.CompressFrom(gs, g, zeros, ones, acc)
    decreases |gs| - g, 1
  {
    if g < |gs| {
      if gs[g] == 0 {
        ZeroThenRest(w, gs, g, zeros, ones, acc);
      } else if gs[g] == OnesGroup {
        OnesThenRest(w, gs, g, zeros, ones, acc);
      } else {
        LiteralThenRest(w, gs, g, zeros, ones, acc);
      }
    }
  }

  lemma {:induction false} ZeroThenRest(w: Writer, gs: seq<bv32>, g: nat, zeros: bv32, ones: bv32, acc: seq<bv32>)
    requires Agrees(w, zeros, ones, acc)
    requires g < |gs| < 0x4000_0000 && Val(zeros) <= g && Val(ones) <= g && gs[g] == 0
    ensures WriteFrom(w, gs, g).Ok?
    ensures Units(WriteFrom(w, gs, g).value) == Codec.CompressFrom(gs, g, zeros, ones, acc)
    decreases |gs| - g, 0
  {
    var w1 := WriteLit(w, 0).value;
    ZeroStepAgree(w, w1, zeros, ones, acc, g, |gs|);
    WriteFromCompress(w1, gs, g + 1, zeros + 1, 0, Codec.FlushOnes(acc, ones));
    WriteFromStep(w, gs, g);
  }

  /** A zero group takes the writer and the counters to agreeing states. */
  lemma ZeroStepAgree(w: Writer, w1: Writer, zeros: bv32, ones: bv32, acc: seq<bv32>, g: nat, n: nat)
    requires Agrees(w, zeros, ones, acc) && g < n < 0x4000_0000 && Val(zeros) <= g
    requires w1 == WriteLit(w, 0).value
    ensures WriteLit(w, 0).Ok? && Agrees(w1, zeros + 1, 0, Codec.FlushOnes(acc, ones))
    ensures Val(zeros + 1) <= g + 1 && Val(0) <= g + 1
  {
    FillPlusOne(0x8000_0000, zeros);
    Codec.CountUp(zeros);
    ZeroAgree(w, w1, zeros, ones, acc);
    ValZero();
  }

  lemma {:induction false} OnesThenRest(w: Writer, gs: seq<bv32>, g: nat, zeros: bv32, ones: bv32, acc: seq<bv32>)
    requires Agrees(w, zeros, ones, acc)
    requires g < |gs| < 0x4000_0000 && Val(zeros) <= g && Val(ones) <= g && gs[g] == OnesGroup
    ensures WriteFrom(w, gs, g).Ok?
    ensures Units(WriteFrom(w, gs, g).value) == Codec.CompressFrom(gs, g, zeros, ones, acc)
    decreases |gs| - g, 0
  {
    var w1 := WriteLit(w, OnesGroup).value;
    OnesStepAgree(w, w1, zeros, ones, acc, g, |gs|);
    WriteFromCompress(w1, gs, g + 1, 0, ones + 1, Codec.FlushZeros(acc, zeros));
    WriteFromStep(w, gs, g);
  }

  /** A ones group takes the writer and the counters to agreeing states. */
  lemma OnesStepAgree(w: Writer, w1: Writer, zeros: bv32, ones: bv32, acc: seq<bv32>, g: nat, n: nat)
    requires Agrees(w, zeros, ones, acc) && g < n < 0x4000_0000 && Val(ones) <= g
    requires w1 == WriteLit(w, OnesGroup).value
    ensures WriteLit(w, OnesGroup).Ok? && Agrees(w1, 0, ones + 1, Codec.FlushZeros(acc, zeros))
    ensures Val(ones + 1) <= g + 1 && Val(0) <= g + 1
  {
    FillPlusOne(0xC000_0000, ones);
    Codec.CountUp(ones);
    OnesAgree(w, w1, zeros, ones, acc);
    ValZero();
  }

  /** One step of `WriteFrom`. */
  lemma WriteFromStep(w: Writer, gs: seq<bv32>, g: nat)
    requires Valid(w) && w.len > 0 && g < |gs|
    ensures WriteLit(w, gs[g]).Ok?
    ensures WriteFrom(w, gs, g) == WriteFrom(WriteLit(w, gs[g]).value, gs, g + 1)
  {}

  lemma {:induction false} LiteralThenRest(w: Writer, gs: seq<bv32>, g: nat, zeros: bv32, ones: bv32, acc: seq<bv32>)
    requires Agrees(w, zeros, ones, acc)
    requires g < |gs| < 0x4000_0000 && Val(zeros) <= g && Val(ones) <= g
    requires gs[g] != 0 && gs[g] != OnesGroup
    ensures WriteFrom(w, gs, g).Ok?
    ensures Units(WriteFrom(w, gs, g).value) == Codec.CompressFrom(gs, g, zeros, ones, acc)
    decreases |gs| - g, 0
  {
    var num := gs[g];
    var w1 := WriteLit(w, num).value;
    LiteralAgree(w, w1, num, zeros, ones, acc);
    ValZero();
    WriteFromCompress(w1, gs, g + 1, 0, 0, Codec.FlushZeros(Codec.FlushOnes(acc, ones), zeros) + [num]);
    WriteFromStep(w, gs, g);
  }

  /** A fresh writer fed a group stream holds `Codec.Compress`'s units: a
      canonical encoding of the stream. */
  lemma WriteGroups(capacity: nat, gs: seq<bv32>)
    requires capacity > 0 && |gs| < 0x4000_0000
    ensures WriteFrom(New(capacity), gs, 0).Ok?
    ensures Units(WriteFrom(New(capacity), gs, 0).value) == Codec.CompressFrom(gs, 0, 0, 0, [])
  {
    ValZero();
    WriteFromCompress(New(capacity), gs, 0, 0, 0, []);
  }

  /** Hence the writer encodes any stream of fewer than 2^30 groups
      canonically and without loss. */
  lemma WriteGroupsEncode(capacity: nat, gs: seq<bv32>)
    requires capacity > 0 && |gs| < 0x4000_0000 && Codec.AllLiteral(gs)
    ensures WriteFrom(New(capacity), gs, 0).Ok?
    ensures Canonical(Units(WriteFrom(New(capacity), gs, 0).value))
    ensures Expand(Units(WriteFrom(New(capacity), gs, 0).value)) == gs
  {
    WriteGroups(capacity, gs);
    Codec.CompressGroups(gs);
  }
}
